=== FILE: README.md ===
# Izakaya beverage inventory: a Dafny model

This project models the logic of an izakaya (Japanese pub) drink-stock app, proved in Dafny. Each shop
keeps its products in its own document collection, `users/{uid}/products`. A product is a
**master** product, part of the curated catalogue, or a **shop-added** one. The products hook
reads, adds, updates and deletes those documents and stamps them with the store's time. On top of
the hook sit the screens:

- the customer's inventory tab, with stock changes, restock, deactivation, stats and search;
- the analytics tab;
- the month-end report and the stock-taking session;
- the add-product tab, with name suggestions and a duplicate check;
- two generations of the customer view;
- the administrator's dashboard, with the master form, the popular toggle, the master list, the
  customer-product manager (promotion to master) and per-category figures;
- the onboarding wizard, which picks categories and products and assembles the shop's first
  product records;
- the profile hook and the toast list;
- a browser-only variant of the app (`App.jsx`) that keeps an in-memory list.

Modules follow the source files:

| module | file |
|---|---|
| `Seqs`, `Text` | `filter`/`reduce`/`slice`/`find`/stable `sort`; `toLowerCase`, `includes`, `trim` |
| `Records` | document data, the listed product `{ id, ...data }`, field readings with JavaScript defaults |
| `Store` | `src/hooks/useProducts.js` |
| `Inventory` | `src/components/customer/InventoryTab.jsx` |
| `Analytics` | `src/components/customer/AnalyticsTab.jsx` |
| `Monthly` | `src/components/customer/MonthlyInventory.jsx` |
| `AddTab` | `src/components/customer/AddProductTab.jsx` |
| `CustomerView` | `src/components/customer/CustomerApp.jsx` |
| `LegacyCustomer` | `src/components/CustomerApp.jsx` |
| `Admin` | `src/components/admin/AdminDashboard.jsx` |
| `Setup` | `src/components/setup/InitialSetup.jsx` |
| `Profile` | `src/hooks/useProfile.js` |
| `Toasts` | `src/hooks/useToast.js` |
| `LocalApp` | `src/App.jsx` |

A stored document is a map from field to value. A listed product is `View(docId, data)`, in which
a stored `id` field overrides the document id, as the spread in the subscription does. Fields are
read the way the components read them: an absent text reads as `""`, an absent number as 0, an
absent flag as false, and `isActive !== false` counts a product without the flag as active.

The handlers never talk to the store directly in the model. A handler returns what it asks for: a
`Store.Request`, a payload, or the next form state. The lemmas then run that request through
`Store.Perform`, `Store.AddProduct` or `Store.UpdateProduct` and read the result back through
`View`.

In promoting a shop product to a master, the model follows the code. It adds a new document and
then deletes the old one, so the product gets a new document id. Its minimum stock is kept.

## Model

| member | source | states |
|---|---|---|
| Records.View | src/hooks/useProducts.js:36-41 | a listed product carries the document's data unchanged, and its id is the document id unless the data holds its own `id` |
| Records.Overlay | src/components/admin/AdminDashboard.jsx:622-628 | `{ ...d, ...patch }`: the keys are the union, the patch's values win, and every other field is kept |
| Records.Spread | src/components/admin/AdminDashboard.jsx:622-628 | spreading a listed product puts its listed id under `id` and keeps every other field as stored |
| Records.SpreadView | src/hooks/useProducts.js:36-41 | reading a spread product back, under any document id, gives the same product |
| Records.NewStock | src/components/customer/InventoryTab.jsx:121-132 | the clamped stock is never negative; it is the sum when the sum is non-negative, and 0 otherwise |
| Records.Find | src/components/CustomerApp.jsx:126-128 | `find` returns the first product with the id, and None only when no product has it |
| Records.EmptySearchMatchesAll | src/components/customer/InventoryTab.jsx:172-178 | the initial search (empty term, 'all') matches every product |
| Records.CategoriesDistinct | src/components/customer/InventoryTab.jsx:4-15 | the ten fixed categories are distinct and beer comes first |
| Store.Added | src/hooks/useProducts.js:58-82 | the stored document has the four numbers coerced, the user's e-mail as creator and both server stamps; every other field is the payload's |
| Store.Patched | src/hooks/useProducts.js:85-102 | after an update, the patch's fields replace the document's, the update stamp is the server's, and the other fields are kept |
| Store.PatchedIdempotent | src/hooks/useProducts.js:85-102 | sending the same update twice leaves the document as sending it once |
| Store.AddProduct | src/hooks/useProducts.js:58-82 | without a user it fails and changes nothing; otherwise it succeeds and creates exactly the one new document |
| Store.UpdateProduct | src/hooks/useProducts.js:85-102 | without a user or a document it fails and changes nothing; otherwise only the target document changes, to its patched form |
| Store.DeleteProduct | src/hooks/useProducts.js:105-119 | without a user it fails; otherwise exactly that id is gone and every other document is untouched |
| Store.StockPatch | src/hooks/useProducts.js:122-126 | the stock update writes the stock field and nothing else |
| Store.ResetOnSuccess | src/components/admin/AdminDashboard.jsx:167-186 | a form checked against `result.success` is cleared on a reported success and kept as typed on a failure |
| Store.ResetAlways | src/components/customer/CustomerApp.jsx:306-308 | as written, the form is cleared whatever the store reported; the failure cases are drawn out by `CustomerView.FailedAddClearsForm` and `LegacyCustomer.FailedUpdateClearsForm` |
| Store.UpdateStock | src/hooks/useProducts.js:122-126 | without a user or the document it fails and changes nothing; otherwise it succeeds, the document reads back with the new stock clamped at 0, and every other document is kept |
| Store.Perform | src/hooks/useProducts.js:85-119 | with no user or no request nothing changes; an update keeps the set of documents and patches the named one; a delete removes exactly the named one; every document the request does not name is kept |
| Store.Products | src/hooks/useProducts.js:25-43 | with no user the list is empty; otherwise there is one listed product per delivered document, in delivery order |
| Store.UpdateStockClamps | src/hooks/useProducts.js:122-126 | writing a stock succeeds on an existing document, reads back non-negative, and reads back exactly when it was non-negative |
| Store.UpdateStockOnlyStock | src/hooks/useProducts.js:122-126 | a stock write leaves every field other than the stock and the update stamp as it was |
| Store.UpdateStockIdempotent | src/hooks/useProducts.js:122-126 | writing the same stock twice gives the same collection as writing it once |
| Store.AddThenDelete | src/hooks/useProducts.js:58-119 | adding a document and deleting it by its new id gives back the collection |
| Store.AddedReadsStock | src/hooks/useProducts.js:64-72 | a new document reads back with its stock and minimum stock coerced from the payload |
| Store.AddedReadsPrices | src/hooks/useProducts.js:64-72 | a new document reads back with its prices coerced and the user's e-mail as creator |
| Store.AddedReadsPayload | src/hooks/useProducts.js:64-72 | every field the hook does not set reads back exactly as in the payload |
| Store.AddedReadsActive | src/hooks/useProducts.js:64-72 | a new document is active exactly when its payload was |
| Inventory.StockChange | src/components/customer/InventoryTab.jsx:121-132 | the stock to write is the looked-up product's stock plus the change, clamped at 0; there is none when no product has the id |
| Inventory.StockChangeWrites | src/components/customer/InventoryTab.jsx:121-132 | the write issued stores exactly the clamped stock computed |
| Inventory.TypedAmount | src/components/customer/InventoryTab.jsx:37-41 | a typed amount is at least 1, is kept when it parses to at least 1, and is 1 when it does not parse |
| Inventory.RestockStep | src/components/customer/InventoryTab.jsx:18-52 | hidden controls change only on Open, which shows them with the amount kept; ➖/➕ move the amount by the step but never below 1; typing sets it to the parsed value, at least 1; Confirm hands on the shown amount and Cancel hands on nothing, both closing and resetting to 10 |
| Inventory.RestockRun | src/components/customer/InventoryTab.jsx:18-52 | a run hands on at most one stock change per event |
| Inventory.RestockRunValid | src/components/customer/InventoryTab.jsx:18-52 | whatever the user does, the amount stays at least 1 and every restock handed on adds at least one unit |
| Inventory.RestockRaisesStock | src/components/customer/InventoryTab.jsx:42-47 | a confirmed restock raises the listed product's stock by exactly the amount shown |
| Inventory.ActiveProducts | src/components/customer/InventoryTab.jsx:159 | the active list keeps, in order, exactly the active products, each as often as the list holds it |
| Inventory.InactiveProducts | src/components/customer/InventoryTab.jsx:160 | the inactive list keeps, in order, exactly the inactive products, each as often as the list holds it |
| Inventory.ActiveInactivePartition | src/components/customer/InventoryTab.jsx:159-160 | the active and inactive lists split the products: lengths and contents add up, and each product is in exactly one |
| Inventory.DisplayProducts | src/components/customer/InventoryTab.jsx:163 | the displayed list is an in-order selection whose members are all inactive or all active, as the toggle says |
| Inventory.InventoryStats | src/components/customer/InventoryTab.jsx:166-169 | the low-stock count is the number of active products with `0 < stock <= minStock`, and the added count the number of active products that are not masters |
| Inventory.StatsEmpty | src/components/customer/InventoryTab.jsx:166-169 | an empty list shows four zeros |
| Inventory.StatsIgnoreInactive | src/components/customer/InventoryTab.jsx:166-169 | appending an inactive product changes none of the stats |
| Inventory.StatsCountActive | src/components/customer/InventoryTab.jsx:166-169 | appending an active product adds its stock value and profit to the totals, one to the low-stock count exactly when `0 < stock <= minStock`, and one to the added count exactly when it is not a master |
| Inventory.FilteredProducts | src/components/customer/InventoryTab.jsx:172-178 | the search keeps, in order, exactly the displayed products that match the term and the category, each as often as the displayed list holds it |
| Inventory.NoFilterShowsAll | src/components/customer/InventoryTab.jsx:172-178 | the initial search shows the displayed list unchanged |
| Inventory.Deactivate | src/components/customer/InventoryTab.jsx:134-144 | a declined confirm asks for nothing; otherwise the request writes `isActive: false` and nothing else |
| Inventory.Reactivate | src/components/customer/InventoryTab.jsx:146-156 | a declined confirm asks for nothing; otherwise the request writes `isActive: true` and nothing else |
| Inventory.DeactivateHides | src/components/customer/InventoryTab.jsx:134-144 | a confirmed deactivation makes the product read as inactive and leaves every other field but the stamp alone |
| Inventory.DeactivateThenReactivate | src/components/customer/InventoryTab.jsx:134-156 | deactivating and reactivating leaves the product active, with all other fields but the stamp as before |
| Analytics.TotalValue | src/components/customer/AnalyticsTab.jsx:21 | with no negative cost or stock, the total value is never negative |
| Analytics.TotalProfit | src/components/customer/AnalyticsTab.jsx:22 | with no negative profit or stock, the total profit is never negative |
| Analytics.TotalsIgnoreOrder | src/components/customer/AnalyticsTab.jsx:21-22 | the totals do not depend on the order the products are listed in |
| Analytics.StatFor | src/components/customer/AnalyticsTab.jsx:26-30 | a category's row counts exactly the products filed under it, and its value is cost × stock summed over exactly those; a category with no products has value 0 |
| Analytics.LowStockProducts | src/components/customer/AnalyticsTab.jsx:23 | the list holds, in order, exactly the products whose stock is positive and at most the minimum, each as often as the product list holds it |
| Analytics.TotalValueSplits | src/components/customer/AnalyticsTab.jsx:21-22 | the analytics totals are the inventory tab's active totals plus those of the inactive products |
| Analytics.StatsFor | src/components/customer/AnalyticsTab.jsx:26-31 | there is one row per listed category, in list order, each holding that category's figures |
| Analytics.CategoryStats | src/components/customer/AnalyticsTab.jsx:26-31 | every row shown is a fixed category with products and its own figures, and every fixed category with products is shown |
| Analytics.CategoryStatsInOrder | src/components/customer/AnalyticsTab.jsx:26-31 | the rows shown keep the order of the fixed category list |
| Analytics.DropEmptyKeepsCount | src/components/customer/AnalyticsTab.jsx:26-31 | dropping rows with no products does not change the total count |
| Analytics.CountsAddUp | src/components/customer/AnalyticsTab.jsx:26-31 | over distinct categories, the counts add up to the number of products in any of them |
| Analytics.CategoryCountsBound | src/components/customer/AnalyticsTab.jsx:26-31 | the counts shown total at most the products, and exactly the products when every product is in a fixed category |
| Monthly.AddTo | src/components/customer/MonthlyInventory.jsx:27-41 | one `forEach` step keeps the keys unique and the rows in order; it adds the product to its own row, creating the row at the end on first sight |
| Monthly.CategoryAnalysis | src/components/customer/MonthlyInventory.jsx:26-41 | the breakdown has no key twice and at most one row per product |
| Monthly.AddToTotal | src/components/customer/MonthlyInventory.jsx:27-41 | one step adds the product's contribution to the grand total of the rows |
| Monthly.AnalysisTotal | src/components/customer/MonthlyInventory.jsx:26-41 | the rows add up to the totals over all the products |
| Monthly.RollupOfAbsent | src/components/customer/MonthlyInventory.jsx:26-41 | a key no product is filed under has zero totals |
| Monthly.FiledKeys | src/components/customer/MonthlyInventory.jsx:28 | the set holds exactly the keys some product is filed under, "undefined" for a product without a category |
| Monthly.AnalysisKeys | src/components/customer/MonthlyInventory.jsx:26-41 | the breakdown has a row for a key exactly when some product is filed under it |
| Monthly.AnalysisRows | src/components/customer/MonthlyInventory.jsx:26-41 | each row holds exactly the totals of the products filed under its key |
| Monthly.CalculateMonthlyInventory | src/components/customer/MonthlyInventory.jsx:14-71 | there is no report exactly for a missing or empty list; otherwise it covers exactly the active products, and the item count is their number |
| Monthly.TotalsAreSums | src/components/customer/MonthlyInventory.jsx:20-23 | the totals are the count and the sums of units, cost value and potential profit |
| Monthly.ReportCategoriesAddUp | src/components/customer/MonthlyInventory.jsx:20-41 | the category rows of a report add up to its item count, units, value and potential profit |
| Monthly.AllInactiveReport | src/components/customer/MonthlyInventory.jsx:15-17 | a non-empty list of inactive products still gives a report, with no items, no value and no categories |
| Monthly.AppropriateCount | src/components/customer/MonthlyInventory.jsx:44-51 | with no negative minimum, the shown "appropriate" figure counts the products that are neither out of stock, low nor over-stocked |
| Monthly.ByValue | src/components/customer/MonthlyInventory.jsx:353-356 | the displayed breakdown is a permutation of the rows, by value, largest first |
| Monthly.LargestCategory | src/components/customer/MonthlyInventory.jsx:352-356 | the largest category exists exactly when there are rows, is one of them, has a value no row exceeds, and among rows of equal value is the one listed first |
| Monthly.LastIndex | src/components/customer/MonthlyInventory.jsx:76-84 | the index is that of the last product with the id, or -1 when none has it |
| Monthly.SheetEntries | src/components/customer/MonthlyInventory.jsx:76-84 | an id has a sheet entry exactly when some product has it, and the entry is the fresh entry of the last such product |
| Monthly.StartStockTaking | src/components/customer/MonthlyInventory.jsx:74-88 | the sheet has an entry for exactly the ids of the active products |
| Monthly.SheetKeys | src/components/customer/MonthlyInventory.jsx:76-84 | the sheet has an entry for exactly the ids of the products it was built from |
| Monthly.UpdateActualStock | src/components/customer/MonthlyInventory.jsx:91-105 | only that product's entry changes: its count is the input (0 when empty), it is marked counted, its system stock is kept, and a consistent sheet stays consistent |
| Monthly.DiscrepantEmpty | src/components/customer/MonthlyInventory.jsx:108-118 | no id is discrepant exactly when every difference is 0 |
| Monthly.CompleteStockTaking | src/components/customer/MonthlyInventory.jsx:108-118 | no differences are reported exactly when every difference is 0; otherwise the count reported is the number of products whose entry differs |
| Monthly.StartThenComplete | src/components/customer/MonthlyInventory.jsx:74-118 | a new sheet is consistent, and completing it at once reports no differences |
| Monthly.DifferencesAtMostCounted | src/components/customer/MonthlyInventory.jsx:91-118 | on a consistent sheet only counted products differ, so at most as many as were counted |
| Monthly.CountAsSystemKeepsClean | src/components/customer/MonthlyInventory.jsx:91-118 | counting a product as exactly its system stock keeps a clean sheet clean |
| Monthly.CountAll | src/components/customer/MonthlyInventory.jsx:91-105 | entering counts one after another keeps the sheet's products and their system stock |
| Monthly.CountAllDiscrepant | src/components/customer/MonthlyInventory.jsx:91-109 | counts that each differ from the system stock make exactly their products discrepant, in addition to those already so |
| Monthly.CountingReportsDifferences | src/components/customer/MonthlyInventory.jsx:73-118 | on a freshly started sheet, counting k different products each away from its system stock reports exactly k differences, and none for k = 0 |
| AddTab.ResetForm | src/components/customer/AddProductTab.jsx:24-58 | the reset form is empty, not a master, with no stock levels, and hides the suggestions |
| AddTab.Suggestions | src/components/customer/AddProductTab.jsx:61-77 | there are no suggestions under two trimmed characters; otherwise the suggestions are the first five matching products (all of them when fewer), in list order |
| AddTab.SuggestionsComplete | src/components/customer/AddProductTab.jsx:61-77 | with five or fewer matches, every match is suggested; with more, exactly five are |
| AddTab.NameChanged | src/components/customer/AddProductTab.jsx:61-77 | the name is stored, the suggestions are recomputed, and the list shows exactly when there are some |
| AddTab.ShortNameHidesSuggestions | src/components/customer/AddProductTab.jsx:61-77 | a name shorter than two characters shows no suggestions |
| AddTab.SelectFromSuggestion | src/components/customer/AddProductTab.jsx:80-97 | a suggestion copies name, manufacturer, category, minimum stock and the drink-plan flag; it clears stock and code, is never a master, and closes the list |
| AddTab.Duplicate | src/components/customer/AddProductTab.jsx:119-129 | the duplicate found is a listed product matching the form with no match listed before it, and there is none exactly when no product matches |
| AddTab.NoManufacturerNoDuplicate | src/components/customer/AddProductTab.jsx:119-129 | products without a manufacturer are never flagged as duplicates |
| AddTab.SameProductFlagged | src/components/customer/AddProductTab.jsx:119-129 | a product with the same name and manufacturer, up to ASCII case, is always flagged |
| AddTab.AddPayload | src/components/customer/AddProductTab.jsx:131-142 | the payload carries no prices, is active, and has no id or creator |
| AddTab.AddPayloadStock | src/components/customer/AddProductTab.jsx:131-142 | the payload's stock levels are the parsed form fields, 0 when empty |
| AddTab.AddPayloadCarriesForm | src/components/customer/AddProductTab.jsx:131-142 | the payload carries the form's name and master flag |
| AddTab.HandleSubmit | src/components/customer/AddProductTab.jsx:111-155 | a blank name is rejected; a duplicate is cancelled unless confirmed; anything else adds the payload |
| AddTab.NewNameAdded | src/components/customer/AddProductTab.jsx:111-155 | a name no listed product has is added without asking |
| AddTab.AfterAddResetsOnlyOnSuccess | src/components/customer/AddProductTab.jsx:144-150 | a stored product resets the tab; an add refused while signed out leaves it as typed |
| AddTab.AddedReadsBack | src/components/customer/AddProductTab.jsx:131-142 | an added product reads back priceless, active, with the form's stock and master flag |
| AddTab.SuggestionCopyIsShopProduct | src/components/customer/AddProductTab.jsx:80-142 | a product added from a suggestion is never a master |
| CustomerView.ListedKeepsAll | src/components/customer/CustomerApp.jsx:50-52 | the stats filter `isMaster \|\| !isMaster` keeps every product |
| CustomerView.CustomerStats | src/components/customer/CustomerApp.jsx:48-57 | over every product, active or not: the totals are the sums, the low-stock count the number with `0 < stock <= minStock`, and the added count the number that are not masters |
| CustomerView.CustomerStatsMatchInventory | src/components/customer/CustomerApp.jsx:48-57 | on a list of active products the view's stats equal the inventory tab's |
| CustomerView.AddedCountComplementsMasters | src/components/customer/CustomerApp.jsx:57 | the shop-added count and the master count together count every product |
| CustomerView.HandleDelete | src/components/customer/CustomerApp.jsx:106-122 | a delete is requested exactly for a confirmed non-master; otherwise nothing is asked |
| CustomerView.MasterNeverDeleted | src/components/customer/CustomerApp.jsx:106-122 | deleting through the view never changes the collection for a master |
| CustomerView.AddPayload | src/components/customer/CustomerApp.jsx:287-305 | the payload is never a master, carries the form's image URL, and its profit is the parsed price minus the parsed cost |
| CustomerView.AddPayloadNumbers | src/components/customer/CustomerApp.jsx:295-300 | the payload's prices and stock levels are the parsed form fields, 0 when empty |
| CustomerView.HandleSubmit | src/components/customer/CustomerApp.jsx:287-293 | a blank name is rejected; anything else adds the payload |
| CustomerView.AddedReadsBack | src/components/customer/CustomerApp.jsx:287-308 | a product added through the form reads back as a shop product, with profit = price − cost and the form's stock levels |
| CustomerView.FailedAddClearsForm | src/components/customer/CustomerApp.jsx:306-308 | as written, an add the store refuses still clears what was typed |
| CustomerView.FailedAddKeepsForm | src/components/customer/CustomerApp.jsx:306-308 | with the intended reset, a refused add keeps what was typed |
| CustomerView.StoredAddClearsForm | src/components/customer/CustomerApp.jsx:306-308 | with the intended reset, a stored product clears the form |
| LegacyCustomer.Payload | src/components/CustomerApp.jsx:62-73 | the payload is never a master, has no image field, and its profit is the parsed price minus the parsed cost |
| LegacyCustomer.PayloadNumbers | src/components/CustomerApp.jsx:62-73 | the payload's prices and stock levels are the parsed form fields, 0 when empty |
| LegacyCustomer.PayloadName | src/components/CustomerApp.jsx:62-73 | the payload carries the form's name |
| LegacyCustomer.HandleSubmit | src/components/CustomerApp.jsx:53-88 | a blank name is rejected; otherwise the payload is added, or written over the product being edited |
| LegacyCustomer.HandleEdit | src/components/CustomerApp.jsx:104-123 | editing a master is refused; otherwise the form holds the product's name, prices and stock levels |
| LegacyCustomer.EditThenSave | src/components/CustomerApp.jsx:53-123 | saving an edited shop product unchanged keeps its name, prices and stock levels, and it stays a shop product |
| LegacyCustomer.HandleDelete | src/components/CustomerApp.jsx:126-144 | a delete is requested exactly for a confirmed, listed non-master |
| LegacyCustomer.MasterNeverDeleted | src/components/CustomerApp.jsx:126-144 | when every listed product with the id is a master, nothing is deleted |
| LegacyCustomer.FailedUpdateClearsForm | src/components/CustomerApp.jsx:75-84 | as written, an update the store refuses still clears the form |
| LegacyCustomer.FailedUpdateKeepsForm | src/components/CustomerApp.jsx:75-84 | with the intended reset, a refused update keeps what was typed |
| LegacyCustomer.AppliedUpdateClearsForm | src/components/CustomerApp.jsx:75-84 | with the intended reset, an update the store applies patches the document and clears the form |
| LegacyCustomer.LegacyStats | src/components/CustomerApp.jsx:147-159 | over the searched and filtered list: the total value and profit are cost × stock and profit × stock summed over the products shown, the low-stock count is the number shown with `0 < stock <= minStock` and the added count the number shown that are not masters, neither count above the whole list |
| LegacyCustomer.UnfilteredStatsMatch | src/components/CustomerApp.jsx:147-159 | with no search and 'all', they equal the newer view's stats |
| LegacyCustomer.FilteredLowStockBound | src/components/CustomerApp.jsx:147-159 | the shown low-stock count never exceeds the whole list's |
| Admin.MasterPayload | src/components/admin/AdminDashboard.jsx:153-168 | the payload has stock and minimum stock 0 and profit = price − cost, and holds no id, activity flag or creator |
| Admin.MasterPayloadNames | src/components/admin/AdminDashboard.jsx:153-168 | the payload carries the form's name and category |
| Admin.MasterPayloadPrices | src/components/admin/AdminDashboard.jsx:153-168 | the payload's prices are the parsed form prices, 0 when empty |
| Admin.MasterPayloadFlags | src/components/admin/AdminDashboard.jsx:153-168 | the payload's popular and master flags are the form's, and it is never on the drink plan |
| Admin.HandleSubmit | src/components/admin/AdminDashboard.jsx:144-190 | a blank name is rejected; otherwise the payload is added, or written over the product being edited |
| Admin.SaveResetsOnlyOnSuccess | src/components/admin/AdminDashboard.jsx:167-186 | saving a master whose document is gone keeps the form; a save the store applies clears it |
| Admin.SignedOutAddKeepsForm | src/components/admin/AdminDashboard.jsx:175-186 | a new master saved while signed out stores nothing and keeps the form |
| Admin.AddedMasterReadsBack | src/components/admin/AdminDashboard.jsx:144-190 | a new master reads back with zero stock levels, as a master, not on the drink plan |
| Admin.AddedMasterProfit | src/components/admin/AdminDashboard.jsx:144-190 | a new master reads back with profit = price − cost |
| Admin.EditForm | src/components/admin/AdminDashboard.jsx:192-210 | the edit form holds the product's name, category, prices and popular flag, as a master |
| Admin.EditThenSave | src/components/admin/AdminDashboard.jsx:144-210 | saving an edited master unchanged keeps name, category, prices and popular flag, but writes its stock levels back to 0 |
| Admin.TogglePopular | src/components/admin/AdminDashboard.jsx:114-142 | the request writes the negated popular flag and the stamp, to that product only |
| Admin.TogglePopularFlips | src/components/admin/AdminDashboard.jsx:114-142 | the flag reads back flipped, the stamp is the server's, and no other field changes |
| Admin.TogglePopularTwice | src/components/admin/AdminDashboard.jsx:114-142 | toggling twice restores the flag |
| Admin.HandleDelete | src/components/admin/AdminDashboard.jsx:212-222 | a delete of that product is requested exactly when the user confirms |
| Admin.HandleDeleteRemovesOne | src/components/admin/AdminDashboard.jsx:655-665 | a confirmed delete removes that document alone; a declined one changes nothing |
| Admin.MasterCustomerPartition | src/components/admin/AdminDashboard.jsx:616-617 | masters and customer products split the list, and popular products are masters |
| Admin.CandidatesAreAllCustomerProducts | src/components/admin/AdminDashboard.jsx:616-678 | filtering the customer products again by `!isMaster` keeps them all |
| Admin.SearchMasters | src/components/admin/AdminDashboard.jsx:238-258 | the list holds, in order, exactly the masters that pass the search and the category filter |
| Admin.SearchMastersInStages | src/components/admin/AdminDashboard.jsx:238-258 | the list equals the staged computation: masters, then the search if a term is typed, then the category unless 'all' |
| Admin.NoSearchListsAllMasters | src/components/admin/AdminDashboard.jsx:238-258 | with no term and 'all', every master is listed, in order |
| Admin.SortMasters | src/components/admin/AdminDashboard.jsx:261-278 | the sort is a permutation: by price or by profit it puts the largest first, and with any other choice it keeps the order |
| Admin.PossibleDuplicates | src/components/admin/AdminDashboard.jsx:641-645 | the list holds, in order, exactly the masters whose names are similar to the product's |
| Admin.SimilarNamesFacts | src/components/admin/AdminDashboard.jsx:642-645 | name similarity is symmetric and holds for names equal up to ASCII case |
| Admin.SameNameReported | src/components/admin/AdminDashboard.jsx:641-645 | a master with the same name up to ASCII case is always reported |
| Admin.NamelessMatchesAllMasters | src/components/admin/AdminDashboard.jsx:641-645 | a product whose name is the empty string is similar to every master |
| Admin.PromoteAsWritten | src/components/admin/AdminDashboard.jsx:619-637 | as written: a declined confirm or no user changes nothing; otherwise the new document holds what `addProduct` stores for the `...product` payload, the listed document is gone, and every other document is untouched |
| Admin.PromotionPayloadAsWritten | src/components/admin/AdminDashboard.jsx:622-628 | as written, the payload carries the listed product's old id |
| Admin.PromotionPayload | src/components/admin/AdminDashboard.jsx:622-628 | the intended payload has no id, and every field it does not set is the product's |
| Admin.Promote | src/components/admin/AdminDashboard.jsx:619-639 | a declined confirm, or no user, changes nothing; otherwise the listed document is gone, the new one holds what `addProduct` stores for the intended payload, and every other document is untouched |
| Admin.PromotionAsWrittenListsStaleId | src/components/admin/AdminDashboard.jsx:622-631 | as written, the promoted document is listed under the deleted id, so an update through the listing fails |
| Admin.PromotionListsNewId | src/components/admin/AdminDashboard.jsx:622-631 | with the intended payload, the promoted document is listed under its own id and updates reach it |
| Admin.PromotionPayloadSets | src/components/admin/AdminDashboard.jsx:622-628 | the payload is a master, not popular, with no stock |
| Admin.PromotedReadsAsMaster | src/components/admin/AdminDashboard.jsx:622-631 | the promoted product reads back as a non-popular master with no stock |
| Admin.PromotedKeepsName | src/components/admin/AdminDashboard.jsx:622-631 | the promoted product keeps the customer product's name and minimum stock |
| Admin.RowsFor | src/components/admin/AdminDashboard.jsx:767-777 | there is one row per category, in list order, each that category's own |
| Admin.CategoryRowFacts | src/components/admin/AdminDashboard.jsx:767-777 | a category's popular count is at most its master count, and without masters every share is 0 |
| Admin.RowCountsMatch | src/components/admin/AdminDashboard.jsx:767-777 | the rows count the same as the analytics figures over the masters |
| Admin.CategoryCountsAtMostMasters | src/components/admin/AdminDashboard.jsx:762-777 | the category counts total at most the number of masters |
| Setup.GroupLists | src/components/setup/InitialSetup.jsx:57-66 | each category's list holds the fetched products filed under it, in order and never empty; an absent category has none |
| Setup.GroupKeys | src/components/setup/InitialSetup.jsx:57-66 | a category has a list exactly when some fetched product is filed under it |
| Setup.Toggle | src/components/setup/InitialSetup.jsx:105-111 | toggling flips membership of that item only and never creates a repeat |
| Setup.ToggleTwice | src/components/setup/InitialSetup.jsx:105-111 | toggling twice restores the choices: exactly for an unchosen item, as a set otherwise |
| Setup.TogglePick | src/components/setup/InitialSetup.jsx:127-136 | one position under one key flips, and every other key and position is kept |
| Setup.SubmitShop | src/components/setup/InitialSetup.jsx:94-103 | a blank shop name keeps the wizard as it is; otherwise it moves to step 2 |
| Setup.ToggleCategory | src/components/setup/InitialSetup.jsx:105-111 | the category's membership flips and no category is chosen twice |
| Setup.Proceed | src/components/setup/InitialSetup.jsx:151-158 | before the last category it moves to the next one; after it, the wizard completes with the given choices |
| Setup.SubmitCategories | src/components/setup/InitialSetup.jsx:113-125 | with categories it moves to step 3 at the first; with none it completes with no products once confirmed, and stays otherwise |
| Setup.ToggleProduct | src/components/setup/InitialSetup.jsx:127-136 | one position of the current category flips, and nothing else in the wizard changes |
| Setup.Next | src/components/setup/InitialSetup.jsx:138-149 | beer first asks for containers; any other category proceeds |
| Setup.Prev | src/components/setup/InitialSetup.jsx:160-167 | it moves to the previous category, or back to step 2 from the first |
| Setup.SkipAsWritten | src/components/setup/InitialSetup.jsx:169-177 | as written, the current category's choices are emptied, but completion reads the choices from before the skip |
| Setup.Skip | src/components/setup/InitialSetup.jsx:169-177 | as intended, the category's choices are emptied, skipping beer empties every chosen container's choices too, no other category's choices change, and completion reads the emptied choices |
| Setup.ClearBeer | src/components/setup/InitialSetup.jsx:249-252 | every chosen container's key is emptied and every other key is kept |
| Setup.ToggleContainer | src/components/setup/InitialSetup.jsx:180-186 | the container's membership flips and no container is chosen twice |
| Setup.SubmitContainers | src/components/setup/InitialSetup.jsx:188-197 | an empty container choice is refused; otherwise it moves to the first container |
| Setup.ToggleBeerProduct | src/components/setup/InitialSetup.jsx:199-210 | one position under the current container's key flips, and nothing else changes |
| Setup.NextContainer | src/components/setup/InitialSetup.jsx:212-219 | it moves to the next container, or after the last proceeds to the next category |
| Setup.PrevContainer | src/components/setup/InitialSetup.jsx:221-228 | it moves to the previous container, or back to the container choice from the first |
| Setup.SkipContainerAsWritten | src/components/setup/InitialSetup.jsx:230-237 | as written, the container's choices are emptied, but completion reads the choices from before the skip |
| Setup.SkipContainer | src/components/setup/InitialSetup.jsx:230-237 | as intended, the choices are emptied and completion reads the emptied choices |
| Setup.StepKeepsChoicesDistinct | src/components/setup/InitialSetup.jsx:94-452 | no single user action, the category card (ignored when it has no products) and the three shortcut buttons included, makes a category or a container chosen twice |
| Setup.RunKeepsChoicesDistinct | src/components/setup/InitialSetup.jsx:94-452 | whatever the user does, no category or container is chosen twice |
| Setup.SetupRecordShape | src/components/setup/InitialSetup.jsx:256-268 | a record built from a master has no stock, is a master, is not on the drink plan, is the user's, has profit = price − cost, is filed under the chosen category, and keeps the master's prices |
| Setup.SetupRecordPrices | src/components/setup/InitialSetup.jsx:256-268 | the record holds the master's price and cost fields exactly |
| Setup.SetupRecordContainer | src/components/setup/InitialSetup.jsx:256-268 | the record keeps the master's container |
| Setup.PickedAt | src/components/setup/InitialSetup.jsx:254-293 | the picked positions are in range and in list order, and a position is picked exactly when it is ticked and the key accepts its product |
| Setup.Picks | src/components/setup/InitialSetup.jsx:254-293 | no more records than listed products; each has the setup shape and the category, and under a container key that container |
| Setup.PicksCount | src/components/setup/InitialSetup.jsx:254-293 | one record per picked position: as many records as ticked positions the key accepts |
| Setup.PicksSound | src/components/setup/InitialSetup.jsx:254-293 | every record taken is built from a ticked product the key accepts |
| Setup.PicksComplete | src/components/setup/InitialSetup.jsx:254-293 | every ticked product the key accepts is taken |
| Setup.PicksExactly | src/components/setup/InitialSetup.jsx:254-293 | a record is taken exactly when it is built from a ticked product the key accepts |
| Setup.NothingTickedNothingPicked | src/components/setup/InitialSetup.jsx:254-293 | with nothing ticked, nothing is taken |
| Setup.BeerPicks | src/components/setup/InitialSetup.jsx:248-272 | every beer record has the setup shape, is beer, and is in one of the chosen containers |
| Setup.NothingTickedNoBeer | src/components/setup/InitialSetup.jsx:248-272 | with no chosen container's product ticked, beer contributes no record |
| Setup.CategoryPicks | src/components/setup/InitialSetup.jsx:247-295 | a category's records have the setup shape and that category, and beer records come from the chosen containers |
| Setup.Assemble | src/components/setup/InitialSetup.jsx:247-295 | all assembled records have the setup shape, and every beer record comes from a chosen container |
| Setup.Complete | src/components/setup/InitialSetup.jsx:242-307 | the setup data carries the shop details and the chosen categories, and its records have the setup shape |
| Setup.UntickedCategoryAddsNothing | src/components/setup/InitialSetup.jsx:273-294 | a category with nothing ticked contributes no record: beer with nothing ticked under any chosen container, any other category with nothing ticked under its own key |
| Setup.SkipLastAddsNothing | src/components/setup/InitialSetup.jsx:151-177 | with the intended skip, skipping the last category, beer included, leaves none of its products in the setup |
| Setup.SkipLastAsWrittenAddsSkipped | src/components/setup/InitialSetup.jsx:151-177 | as written, a ticked sake master in a skipped last category is still added |
| Setup.SkipBeerAsWrittenAddsSkipped | src/components/setup/InitialSetup.jsx:169-252 | as written, skipping beer from the container screen empties only the `ビール` key, which completion never reads for beer: a ticked bottled beer is still added, and would be even if the emptied choices were read |
| Setup.SkipLastContainerAsWrittenAddsSkipped | src/components/setup/InitialSetup.jsx:212-237 | as written, a ticked bottled beer in a skipped last container is still added |
| Setup.SkipLastContainerAddsNothing | src/components/setup/InitialSetup.jsx:212-237 | with the intended skip, the same run adds no product |
| Profile.Merge | src/hooks/useProfile.js:91-104 | `{ ...a, ...b }`: the keys are the union, and b's values win |
| Profile.Fetch | src/hooks/useProfile.js:17-50 | there is a profile exactly when a user is signed in and the document exists, and it holds the stored fields plus the id |
| Profile.SetupProfile | src/components/setup/InitialSetup.jsx:299-305 | the wizard's data has exactly five keys and no `setupCompleted` flag: the three shop fields, the chosen categories as `selectedCategories` and the assembled records as `selectedProducts` |
| Profile.CreateProfile | src/hooks/useProfile.js:53-81 | without a user it fails and keeps the profile; otherwise the document carries the user's id and e-mail, and the local copy is it with id 'main' |
| Profile.CreateKeepsInput | src/hooks/useProfile.js:53-81 | every key of the data other than the four the hook sets is written as given |
| Profile.UpdateProfile | src/hooks/useProfile.js:84-109 | without a user or a profile it fails and changes nothing; otherwise the update is sent with a server stamp |
| Profile.UpdateMerges | src/hooks/useProfile.js:84-109 | an update replaces exactly the keys it gives; every other key keeps its value |
| Profile.UpdateIdempotent | src/hooks/useProfile.js:84-109 | sending the same update twice leaves the same profile as once |
| Profile.GetSelectedCategories | src/hooks/useProfile.js:117-119 | the categories are the stored list, and empty without a profile or a list |
| Profile.GetShopInfo | src/hooks/useProfile.js:121-127 | without a profile all three fields are empty; with one, each field is its stored text, or empty when the profile lacks it |
| Profile.CreateThenRead | src/hooks/useProfile.js:53-119 | the wizard's data has no `setupCompleted` flag, so a profile created from it alone reads back as not completed, with the chosen categories |
| Profile.CreateKeepsProducts | src/hooks/useProfile.js:53-81 | the created profile holds the assembled records under `selectedProducts` exactly |
| Profile.CreateThenComplete | src/hooks/useProfile.js:53-114 | creating the profile from the wizard's data and then updating it with `setupCompleted: true` reads back as completed, with the chosen categories |
| Profile.CreateThenReadShop | src/hooks/useProfile.js:53-128 | creating the profile from the wizard's output reads back the shop details entered |
| Profile.NoProfileReadsEmpty | src/hooks/useProfile.js:111-128 | without a profile the setup is not completed, nothing is chosen and the shop details are empty |
| Profile.UpdateCompletesSetup | src/hooks/useProfile.js:84-114 | marking the setup completed through an update makes it read as completed |
| Toasts.AddToast | src/hooks/useToast.js:8-17 | the new toast is appended with its message and id, and the type and duration default to 'info' and 3000 |
| Toasts.RemoveToast | src/hooks/useToast.js:26-28 | removing keeps, in order, exactly the toasts with other ids, each as often as the list holds it |
| Toasts.RemoveIdempotent | src/hooks/useToast.js:26-28 | removing twice is removing once |
| Toasts.RemoveAbsent | src/hooks/useToast.js:26-28 | removing an id no toast has changes nothing |
| Toasts.AddThenRemove | src/hooks/useToast.js:8-28 | a toast added under a fresh id and then removed by its timer leaves the list as it was |
| Toasts.ClearToasts | src/hooks/useToast.js:31-33 | clearing leaves no toast |
| Toasts.ClearThenRemove | src/hooks/useToast.js:26-33 | after clearing, removing leaves nothing |
| LocalApp.Validate | src/App.jsx:273-279 | the form is refused exactly when the name or category is empty, and handed on unchanged otherwise |
| LocalApp.NewItem | src/App.jsx:73-89 | the new record has the clock reading as id, the form's name and category, and the parsed stock levels |
| LocalApp.AddItem | src/App.jsx:73-89 | the record is appended and the earlier records are untouched |
| LocalApp.DeleteItem | src/App.jsx:104-111 | a confirmed delete removes exactly the records with the id, keeping the others in order and as often as the list holds them; a declined one changes nothing |
| LocalApp.AddThenDelete | src/App.jsx:73-111 | adding under a fresh id and deleting it gives back the list |
| LocalApp.UpdateStock | src/App.jsx:92-102 | each record with the id gets its stock plus the change, clamped at 0; the others are unchanged |
| LocalApp.UpThenDown | src/App.jsx:92-102 | one step up then one down restores a list with no negative stock |
| LocalApp.RestockAmount | src/App.jsx:116 | the restock amount is twice the minimum, or 10 when the minimum is 0 |
| LocalApp.Restock | src/App.jsx:113-122 | each record with the id gains its restock amount, unclamped; the others are unchanged |
| LocalApp.RestockRaises | src/App.jsx:113-122 | with a non-negative minimum a restock strictly raises the stock, to at least twice the minimum above it; with a negative one it lowers it |
| LocalApp.FilteredItems | src/App.jsx:125-131 | the filter keeps, in order, exactly the records matching the term and the category, each as often as the list holds it |
| LocalApp.NoFilterShowsAll | src/App.jsx:125-131 | with no term and 'all', every record is shown |
| LocalApp.SortItems | src/App.jsx:132-139 | the sort is a permutation, by stock ascending or by margin descending |
| LocalApp.SortKeepsRecords | src/App.jsx:132-139 | sorting keeps exactly the filtered records |
| LocalApp.Stats | src/App.jsx:142-147 | the drink-plan count is the number of records with `isNomihodai`, and the low-stock count the number with `stock <= minStock` |
| LocalApp.StatsEmpty | src/App.jsx:142-147 | no records show four zeros |
| LocalApp.StatsAppend | src/App.jsx:142-147 | appending a record adds `stock * price` to the value, `stock * (sellPrice - price)` to the profit, and one to each count whose rule it meets |
| LocalApp.ProfitIsRevenueMinusValue | src/App.jsx:142-147 | the profit total is the sale value of the stock minus its purchase value |
| LocalApp.OutOfStockIsLow | src/App.jsx:142-147 | here an out-of-stock record with a non-negative minimum counts as low |
| LocalApp.UpdateStockKeepsNomihodai | src/App.jsx:92-147 | a stock change leaves the drink-plan count alone |
| LocalApp.Distinct | src/App.jsx:150 | the de-duplicated list has no repeats, the same members, and lists them in the order of their first occurrence |
| LocalApp.CategoryNames | src/App.jsx:150 | the category names are the records' categories, in order |
| LocalApp.CategoryList | src/App.jsx:150 | the list is 'all' followed by each category once, in first-appearance order |
| LocalApp.CategoryListCovers | src/App.jsx:150 | every record's category is listed, and every listed name but 'all' belongs to some record |
| LocalApp.CategoryListDistinct | src/App.jsx:150 | the list is free of repeats exactly when no record uses 'all' as its category |

## Left out

- The document store itself: subscriptions, ordering by `createdAt`, network errors and loading flags. New document ids and the store's clock are inputs.
- `serverTimestamp()` is the symbolic `ServerTime`. Client dates (`new Date()`, `Date.now()`) are an integer clock reading passed in.
- Browser dialogs (`window.confirm`) are a boolean input. Toast messages, the console and timers are not modelled; the toast list itself is.
- Numbers are integers. `parseInt`/`parseFloat` become an optional integer, None when the text is empty or unparseable, so `|| 0` gives 0. Fractional prices, `NaN` and `profitRate` (a floating-point percentage) are left out.
- `Admin.CategoryRowFacts`: the share `Math.round(count / masters * 100)` is kept symbolic (`Rounded(count, of)`), because it is floating point.
- `Store.Added`: `Number(...)` of a missing or non-numeric field is `NaN` in the source, while the model stores 0. That is what the readers' `|| 0` make of `NaN`. Every payload in the app supplies the four fields as numbers.
- `LegacyCustomer.HandleEdit`: a product missing a price or stock field makes `toString()` throw in the source; the model fills the form with 0.
- `Admin.EditForm`: a product missing `cost` or `price` makes `product.cost.toString()` / `product.price.toString()` throw in the source (AdminDashboard.jsx:197-198); the model fills the form with 0.
- `AddTab.SelectFromSuggestion`: a product missing `minStock` makes `product.minStock.toString()` throw in the source (AddProductTab.jsx:86); the model fills the form with 0.
- `AddTab.Suggestions`: the two-character threshold counts Unicode characters of the trimmed name, while `.trim().length` counts UTF-16 code units; the two differ for characters outside the Basic Multilingual Plane, which count twice in the source. `AddTab.ShortNameHidesSuggestions` reads the length the same way.
- `toLowerCase` lowers ASCII letters only; other scripts are compared as written.
- A product whose `name` field is absent reads as the empty name (`Product.Name()`). In the source, `product.name.toLowerCase()` throws a TypeError for it, in the duplicate check (AdminDashboard.jsx:642-644) and in the search filters (InventoryTab.jsx:174, CustomerApp.jsx:149, AdminDashboard.jsx:249). Every add path in the app writes a name. `Admin.NamelessMatchesAllMasters` is about the empty-string name only.
- Closing the form after a save is not modelled: `resetForm` also hides the form (`setShowAddForm(false)`, CustomerApp.jsx:49 and customer/CustomerApp.jsx:284) and ends the edit (`setEditingProduct(null)`, CustomerApp.jsx:50). The model's form value holds only the fields, so `Store.ResetOnSuccess` and `Store.ResetAlways` reset only those.
- `Admin.SortMasters`: sorts with `localeCompare` (by name, category or manufacturer) and by creation date are left out. Those choices keep the input order in the model, as a comparator returning 0 would.
- `LocalApp.SortItems`: the name order is not modelled and keeps the filtered order.
- `Monthly.UpdateActualStock`: the field's value is modelled as an integer. The source computes `difference` from the raw text but stores `parseInt(...) || 0` as the count, and those agree only for integer input.
- `Monthly.UpdateActualStock` requires the product to be on the sheet, because the source reads `prev[productId].systemStock` and only calls it for products on the sheet.
- `Monthly.ByValue`: rows with equal value keep their relative order; the engine's `sort` is stable, and so is the model's.
- The master-product fetch in the wizard (the query on `isMaster == true`) is an input: the grouped masters in `Setup.Context`.
- `Profile.GetShopInfo` and `Profile.GetSelectedCategories`: a stored value of the wrong type (a number where a string is expected, say) reads as empty. The source would return the value as it is.
- `onComplete`, the consumer of the wizard's setup data, is not part of this model. The setup data carries no `setupCompleted` flag (InitialSetup.jsx:299-305), so a profile created from it alone reads as not completed (`Profile.CreateThenRead`); a later update with `setupCompleted: true` completes it (`Profile.CreateThenComplete`).
- The setup records omit `profitRate`, which is floating point.
- `Setup.ToggleBeerProduct`: a beer card is ticked by a position in the list. The source finds that position with `allBeerProducts.findIndex(...)` on name and container (InitialSetup.jsx:593), so two beers with the same name in one container share one tick. The model lets each position be ticked on its own, a superset of the source's behaviour.
- `App.jsx` loading and saving its list in `localStorage` (lines 17-70), including the sample data, is I/O and is left out.
- The product-code generators (`handleGenerateProductCode` in the dashboard and the add-product tab) only copy a clock-derived string into the form, and are left out.
- Closing the suggestion list on an outside click (`handleClickOutside`, AddProductTab.jsx:101) is DOM event handling and is left out.
- `CustomerView` and `LegacyCustomer` change stock and filter exactly as the inventory tab does. They reuse `Inventory.StockChange` and `Inventory.FilteredProducts` rather than restating them.
- The news tab and the toast container only render, and are left out.

## Findings

| source | as written | input that shows it | evidently intended | confidence | as-written member | corrected member |
|---|---|---|---|---|---|---|
| src/components/admin/AdminDashboard.jsx:622-631 | the promotion payload spreads `...product`, so it carries the listed `id` into the new document | a customer product `p1` promoted to the new document `n1`: it is listed as `p1`, which was just deleted, so updating it fails | the new master is listed under its own id | high (not executed) | Admin.PromoteAsWritten, Admin.PromotionAsWrittenListsStaleId | Admin.Promote, Admin.PromotionListsNewId |
| src/components/customer/CustomerApp.jsx:306-308 | `resetForm()` and the success toast follow `await addProduct(...)`, which reports failure as `{ success: false }` without throwing | a typed form submitted while signed out: nothing is stored and the form is cleared | the form resets only when the add succeeded | high (not executed) | Store.ResetAlways, CustomerView.FailedAddClearsForm | Store.ResetOnSuccess, CustomerView.FailedAddKeepsForm |
| src/components/CustomerApp.jsx:75-84 | `resetForm()` follows `updateProduct`/`addProduct` whatever they report | editing a product whose document was removed meanwhile: the update fails and the form is cleared | the form resets only when the write succeeded | high (not executed) | Store.ResetAlways, LegacyCustomer.FailedUpdateClearsForm | Store.ResetOnSuccess, LegacyCustomer.FailedUpdateKeepsForm |
| src/components/setup/InitialSetup.jsx:169-177 | the skip empties the category's choices through a state update, then calls `proceedToNextCategory()`, which on the last category completes with the `selectedProducts` of the same render | categories `[日本酒]`, one sake master ticked, then "skip": the master is still added | a skipped category adds nothing | medium (not executed) | Setup.SkipAsWritten, Setup.SkipLastAsWrittenAddsSkipped | Setup.Skip, Setup.SkipLastAddsNothing |
| src/components/setup/InitialSetup.jsx:169-252 | the "ビールをスキップ" button on the container screen (line 545) calls the category skip, which empties the `ビール` key; completion reads beer only under the container keys `ビール_<container>` | categories `[ビール]`, containers `[瓶]`, one bottled beer ticked, then back to the container screen and "skip": the beer is still added | skipping beer adds no beer | medium (not executed) | Setup.SkipAsWritten, Setup.SkipBeerAsWrittenAddsSkipped | Setup.Skip, Setup.SkipLastAddsNothing |
| src/components/setup/InitialSetup.jsx:230-237 | the same, for a beer container, through `handleNextBeerContainer()` | categories `[ビール]`, containers `[瓶]`, one bottled beer ticked, then "skip": the beer is still added | a skipped container adds nothing | medium (not executed) | Setup.SkipContainerAsWritten, Setup.SkipLastContainerAsWrittenAddsSkipped | Setup.SkipContainer, Setup.SkipLastContainerAddsNothing |

=== FILE: addtab.dfy ===
/**
  The customer's add-product tab (components/customer/AddProductTab.jsx):
  name suggestions, copying a suggestion into the form, the duplicate check
  and the payload handed to `addProduct`.
 */
module AddTab {
  import opened Seqs
  import opened Text
  import opened Records
  import Store

  /**
    The form state `newProduct`. Number fields hold what `parseInt` /
    `parseFloat` make of the text: None for an empty or unparseable field.
   */
  datatype ProductForm = ProductForm(
    name: string, manufacturer: string, category: string,
    stock: Option<int>, minStock: Option<int>,
    description: string, productCode: string,
    volume: Option<int>, volumeUnit: string,
    isNomihodai: bool, isMaster: bool)

  /** The initial form, and what `resetForm` restores (AddProductTab.jsx:24-58). */
  const EmptyForm := ProductForm("", "", Beer, None, None, "", "", None, "ml", false, false)

  /** The form together with the suggestion list and whether it is shown. */
  datatype Tab = Tab(form: ProductForm, suggestions: seq<Product>, showSuggestions: bool)

  const InitialTab := Tab(EmptyForm, [], false)

  /** `resetForm()`: the empty form, no suggestions. */
  function ResetForm(): (t: Tab)
    ensures t.form.name == "" && t.suggestions == [] && !t.showSuggestions
    ensures !t.form.isMaster && t.form.stock.None? && t.form.minStock.None?
  {
    InitialTab
  }

  // ---------------------------------------------------------------------------
  // Suggestions (AddProductTab.jsx:61-77).

  /** The suggestion search: the typed text occurs in the name, or in a non-empty manufacturer, ignoring ASCII case. */
  predicate SuggestionMatches(p: Product, value: string)
  {
    var t := ToLower(value);
    Includes(ToLower(p.Name()), t) || (p.Manufacturer() != "" && Includes(ToLower(p.Manufacturer()), t))
  }

  /** The suggestion search as a filter predicate. */
  function Matcher(value: string): Product -> bool
  {
    (p: Product) => SuggestionMatches(p, value)
  }

  /** At most this many suggestions are shown. */
  const MaxSuggestions: nat := 5

  /**
    The suggestions for the typed name: none while the trimmed text is shorter
    than two characters, otherwise the first five matching products, in list order.
   */
  function Suggestions(products: seq<Product>, value: string): (r: seq<Product>)
    ensures |Trim(value)| < 2 ==> r == []
    ensures |r| <= MaxSuggestions
    ensures IsSubseq(r, products)
    ensures forall i :: 0 <= i < |r| ==> SuggestionMatches(r[i], value)
    ensures |Trim(value)| >= 2 ==> var matches := Filter(products, Matcher(value));
      && |r| == (if |matches| < MaxSuggestions then |matches| else MaxSuggestions)
      && r == matches[..|r|]
  {
    if |Trim(value)| < 2 then []
    else
      var matches := Filter(products, Matcher(value));
      var r := Take(matches, MaxSuggestions);
      FilterIsSubseq(products, Matcher(value));
      SubseqPrefix(matches, products, |r|);
      assert forall i :: 0 <= i < |r| ==> r[i] == matches[i];
      r
  }

  /**
    Once two characters are typed, every match is suggested when there are at
    most five, and exactly five are suggested otherwise.
   */
  lemma SuggestionsComplete(products: seq<Product>, value: string)
    requires |Trim(value)| >= 2
    ensures var matches := Filter(products, Matcher(value));
      |matches| <= MaxSuggestions ==>
        forall i :: 0 <= i < |products| && SuggestionMatches(products[i], value) ==> products[i] in Suggestions(products, value)
    ensures var matches := Filter(products, Matcher(value));
      |matches| > MaxSuggestions ==> |Suggestions(products, value)| == MaxSuggestions
  {
    var matches := Filter(products, Matcher(value));
    assert Suggestions(products, value) == Take(matches, MaxSuggestions);
  }

  /** `handleNameChange(value)`: the name is stored and the suggestions recomputed; the list shows when it is not empty. */
  function NameChanged(t: Tab, products: seq<Product>, value: string): (t': Tab)
    ensures t'.form == t.form.(name := value)
    ensures t'.showSuggestions <==> |t'.suggestions| > 0
    ensures t'.suggestions == Suggestions(products, value)
  {
    var s := Suggestions(products, value);
    Tab(t.form.(name := value), s, |s| > 0)
  }

  /** A short name shows no suggestions, whatever the products. */
  lemma ShortNameHidesSuggestions(t: Tab, products: seq<Product>, value: string)
    requires |value| < 2
    ensures !NameChanged(t, products, value).showSuggestions
  {
    TrimShortens(value);
  }

  /**
    `selectFromSuggestion(product)` (AddProductTab.jsx:80-97): the descriptive
    fields are copied, the stock and product code are cleared, the copy is
    never a master, and the suggestion list closes.
   */
  function SelectFromSuggestion(t: Tab, p: Product): (t': Tab)
    ensures t'.form.name == p.Name() && t'.form.manufacturer == p.Manufacturer() && t'.form.category == p.Category()
    ensures t'.form.stock.None? && t'.form.productCode == "" && !t'.form.isMaster
    ensures t'.form.minStock == Some(p.MinStock()) && t'.form.isNomihodai == p.IsNomihodai()
    ensures t'.suggestions == [] && !t'.showSuggestions
  {
    var form := ProductForm(
      p.Name(), p.Manufacturer(), p.Category(),
      None, Some(p.MinStock()),
      p.TextOf(description), "",
      if volume in p.data && p.data[volume].Num? then Some(p.data[volume].n) else None,
      if p.TextOf(volumeUnit) == "" then "ml" else p.TextOf(volumeUnit),
      p.IsNomihodai(), false);
    Tab(form, [], false)
  }

  // ---------------------------------------------------------------------------
  // The duplicate check (AddProductTab.jsx:119-129).

  /**
    A listed product duplicates the form when the names are equal and the
    product has a manufacturer equal to the form's, both ignoring ASCII case.
   */
  predicate IsDuplicateOf(p: Product, form: ProductForm)
  {
    && ToLower(p.Name()) == ToLower(form.name)
    && p.ManufacturerField().Some?
    && ToLower(p.ManufacturerField().value) == ToLower(form.manufacturer)
  }

  /** No product listed before position `k` duplicates the form. */
  predicate IsFirstDuplicate(products: seq<Product>, k: int, form: ProductForm)
  {
    forall j :: 0 <= j < k && j < |products| ==> !IsDuplicateOf(products[j], form)
  }

  /** `products.find(...)`: the first duplicate in list order, if any. */
  function Duplicate(products: seq<Product>, form: ProductForm): (r: Option<Product>)
    ensures r.Some? ==> r.value in products && IsDuplicateOf(r.value, form)
    ensures r.Some? ==> exists k :: 0 <= k < |products| && products[k] == r.value && IsFirstDuplicate(products, k, form)
    ensures r.None? <==> forall i :: 0 <= i < |products| ==> !IsDuplicateOf(products[i], form)
  {
    var k := FirstIndex(products, (p: Product) => IsDuplicateOf(p, form));
    if k == -1 then None else Some(products[k])
  }

  /** A product without a manufacturer is never flagged, whatever its name. */
  lemma NoManufacturerNoDuplicate(products: seq<Product>, form: ProductForm)
    requires forall i :: 0 <= i < |products| ==> products[i].ManufacturerField().None?
    ensures Duplicate(products, form).None?
  {
  }

  /** A product with the same name and manufacturer up to ASCII case is always flagged. */
  lemma SameProductFlagged(products: seq<Product>, form: ProductForm, i: nat)
    requires i < |products|
    requires ToLower(products[i].Name()) == ToLower(form.name)
    requires products[i].ManufacturerField() == Some(form.manufacturer)
    ensures Duplicate(products, form).Some?
  {
    assert IsDuplicateOf(products[i], form);
  }

  // ---------------------------------------------------------------------------
  // The payload (AddProductTab.jsx:131-142).

  /** The fields `productData` holds. */
  predicate IsPayloadField(f: Field)
  {
    match f
    case id | image | container | isPopular | addedBy | createdAt | updatedAt => false
    case _ => true
  }

  /** The value `productData` holds under a field. */
  function PayloadValue(form: ProductForm, f: Field): Value
  {
    match f
    case name => Str(form.name)
    case manufacturer => Str(form.manufacturer)
    case category => Str(form.category)
    case description => Str(form.description)
    case productCode => Str(form.productCode)
    case volumeUnit => Str(form.volumeUnit)
    case isNomihodai => Bool(form.isNomihodai)
    case isMaster => Bool(form.isMaster)
    case stock => Num(form.stock.GetOr(0))
    case minStock => Num(form.minStock.GetOr(0))
    case volume => Num(form.volume.GetOr(0))
    case isActive => Bool(true)
    case _ => Num(0)
  }

  /**
    `productData`: the form with no prices (cost, price and profit 0), the
    stock levels parsed with `|| 0`, and active.
   */
  function AddPayload(form: ProductForm): (d: Data)
    ensures Field.id !in d && addedBy !in d
    ensures cost in d && d[cost] == Num(0) && price in d && d[price] == Num(0) && profit in d && d[profit] == Num(0)
    ensures isActive in d && d[isActive] == Bool(true)
  {
    map f | IsPayloadField(f) :: PayloadValue(form, f)
  }

  /** The payload's stock levels are the form's, 0 when a field is empty or unparseable. */
  lemma AddPayloadStock(form: ProductForm)
    ensures var d := AddPayload(form);
      && stock in d && d[stock] == Num(form.stock.GetOr(0))
      && minStock in d && d[minStock] == Num(form.minStock.GetOr(0))
  {
  }

  /** The payload carries the form's name and master flag. */
  lemma AddPayloadCarriesForm(form: ProductForm)
    ensures var d := AddPayload(form);
      && name in d && d[name] == Str(form.name) && isMaster in d && d[isMaster] == Bool(form.isMaster)
  {
  }

  /** What submitting the form asks for. */
  datatype Submit = Rejected | Cancelled | Add(payload: Data)

  /**
    `handleSubmit` (AddProductTab.jsx:111-157): a blank name is rejected; a
    duplicate is added only when the user confirms; otherwise the payload is added.
   */
  function HandleSubmit(form: ProductForm, products: seq<Product>, confirmed: bool): (r: Submit)
    ensures r.Rejected? <==> IsBlank(form.name)
    ensures r.Cancelled? <==> !IsBlank(form.name) && Duplicate(products, form).Some? && !confirmed
    ensures r.Add? ==> r.payload == AddPayload(form)
  {
    TrimEmptyIffBlank(form.name);
    if |Trim(form.name)| == 0 then Rejected
    else if Duplicate(products, form).Some? && !confirmed then Cancelled
    else Add(AddPayload(form))
  }

  /** A new name, one with no duplicate, is added without asking. */
  lemma NewNameAdded(form: ProductForm, products: seq<Product>, confirmed: bool)
    requires !IsBlank(form.name)
    requires forall i :: 0 <= i < |products| ==> ToLower(products[i].Name()) != ToLower(form.name)
    ensures HandleSubmit(form, products, confirmed) == Add(AddPayload(form))
  {
  }

  /**
    The tab after the store answers an add (`Store.ResetOnSuccess`): a stored
    product resets it, and an add refused while signed out leaves it as typed.
   */
  lemma AfterAddResetsOnlyOnSuccess(user: Option<Store.User>, docs: Store.Docs, newId: string, t: Tab)
    requires newId !in docs
    ensures var w := Store.AddProduct(user, docs, newId, AddPayload(t.form));
      Store.ResetOnSuccess(t, ResetForm(), w.outcome) == if user.Some? then ResetForm() else t
  {
  }

  /**
    A product added through the tab reads back with no prices, active, with
    the form's stock, and not a master when the form was not.
   */
  lemma AddedReadsBack(form: ProductForm, email: string, newId: string)
    ensures var p := View(newId, Store.Added(AddPayload(form), email));
      p.Cost() == 0 && p.Price() == 0 && p.Profit() == 0 && p.IsActive()
    ensures var p := View(newId, Store.Added(AddPayload(form), email));
      p.Stock() == form.stock.GetOr(0) && p.IsMaster() == form.isMaster
  {
    var d := AddPayload(form);
    AddPayloadStock(form);
    AddPayloadCarriesForm(form);
    Store.AddedReadsStock(d, email, newId);
    Store.AddedReadsPrices(d, email, newId);
    Store.AddedReadsPayload(d, email, newId, profit);
    Store.AddedReadsPayload(d, email, newId, isMaster);
    Store.AddedReadsActive(d, email, newId);
  }

  /** Submitting a suggestion copy adds a shop product, never a master. */
  lemma SuggestionCopyIsShopProduct(t: Tab, p: Product, products: seq<Product>, email: string, newId: string)
    requires HandleSubmit(SelectFromSuggestion(t, p).form, products, true).Add?
    ensures !View(newId, Store.Added(HandleSubmit(SelectFromSuggestion(t, p).form, products, true).payload, email)).IsMaster()
  {
    AddedReadsBack(SelectFromSuggestion(t, p).form, email, newId);
  }
}

=== FILE: admin.dfy ===
/**
  The administrator's dashboard (components/admin/AdminDashboard.jsx): the
  master-product form, the popular toggle, the master list's filters and
  sorts, the customer-product manager (duplicate check and promotion) and the
  per-category figures.
 */
module Admin {
  import opened Seqs
  import opened Text
  import opened Records
  import Store
  import Analytics

  // ---------------------------------------------------------------------------
  // The master-product form (AdminDashboard.jsx:93-111, 144-210).

  /**
    The form state `newProduct`. Number fields hold what `parseFloat` makes of
    the text: None for an empty or unparseable field.
   */
  datatype MasterForm = MasterForm(
    name: string, manufacturer: string, category: string,
    cost: Option<int>, price: Option<int>,
    description: string, image: string, productCode: string,
    volume: Option<int>, volumeUnit: string, container: string,
    isPopular: bool, isMaster: bool)

  /** `resetForm()`: the empty form, category beer, unit "ml", a master. */
  const EmptyForm := MasterForm("", "", Beer, None, None, "", "", "", None, "ml", "", false, true)

  /** The fields `productData` holds: the form's fields and the computed ones. */
  predicate IsPayloadField(f: Field)
  {
    match f
    case id | isActive | addedBy | createdAt | updatedAt => false
    case _ => true
  }

  /** The value `productData` holds under a field. */
  function PayloadValue(form: MasterForm, f: Field): Value
  {
    match f
    case name => Str(form.name)
    case manufacturer => Str(form.manufacturer)
    case category => Str(form.category)
    case description => Str(form.description)
    case image => Str(form.image)
    case productCode => Str(form.productCode)
    case volumeUnit => Str(form.volumeUnit)
    case container => Str(form.container)
    case isPopular => Bool(form.isPopular)
    case isMaster => Bool(form.isMaster)
    case cost => Num(form.cost.GetOr(0))
    case price => Num(form.price.GetOr(0))
    case volume => Num(form.volume.GetOr(0))
    case profit => Num(form.price.GetOr(0) - form.cost.GetOr(0))
    case isNomihodai => Bool(false)
    case _ => Num(0)
  }

  /**
    `productData` in `handleSubmit`: the form's fields with the numbers
    parsed (`|| 0`), stock and minimum stock 0, profit = price − cost, and not
    all-you-can-drink.
   */
  function MasterPayload(form: MasterForm): (d: Data)
    ensures Field.id !in d && isActive !in d && addedBy !in d
    ensures stock in d && d[stock] == Num(0) && minStock in d && d[minStock] == Num(0)
    ensures profit in d && d[profit] == Num(form.price.GetOr(0) - form.cost.GetOr(0))
  {
    map f | IsPayloadField(f) :: PayloadValue(form, f)
  }

  /** The form's name and category reach the payload unchanged. */
  lemma MasterPayloadNames(form: MasterForm)
    ensures var d := MasterPayload(form);
      && name in d && d[name] == Str(form.name) && category in d && d[category] == Str(form.category)
  {
  }

  /** The payload's prices are the parsed form prices, 0 when a field is empty. */
  lemma MasterPayloadPrices(form: MasterForm)
    ensures var d := MasterPayload(form);
      && cost in d && d[cost] == Num(form.cost.GetOr(0)) && price in d && d[price] == Num(form.price.GetOr(0))
  {
  }

  /** The payload's flags are the form's, and it is never all-you-can-drink. */
  lemma MasterPayloadFlags(form: MasterForm)
    ensures var d := MasterPayload(form);
      && isNomihodai in d && d[isNomihodai] == Bool(false) && isMaster in d && d[isMaster] == Bool(form.isMaster)
      && isPopular in d && d[isPopular] == Bool(form.isPopular)
  {
  }

  /** What submitting the form asks for. */
  datatype Submit = Rejected | AddMaster(payload: Data) | UpdateMaster(docId: string, payload: Data)

  /**
    `handleSubmit` (AdminDashboard.jsx:144-190): a blank name is rejected
    with no write; otherwise the payload is added, or written over the
    product being edited.
   */
  function HandleSubmit(form: MasterForm, editing: Option<string>): (r: Submit)
    ensures r.Rejected? <==> IsBlank(form.name)
    ensures r.AddMaster? <==> !IsBlank(form.name) && editing.None?
    ensures r.UpdateMaster? ==> editing == Some(r.docId)
    ensures !r.Rejected? ==> r.payload == MasterPayload(form)
  {
    TrimEmptyIffBlank(form.name);
    if |Trim(form.name)| == 0 then Rejected
    else if editing.None? then AddMaster(MasterPayload(form))
    else UpdateMaster(editing.value, MasterPayload(form))
  }

  /**
    After a submit the form is reset only when the store reported success
    (`Store.ResetOnSuccess`): a save of a master whose document is gone keeps
    what was typed, and a save the store applies clears it.
   */
  lemma SaveResetsOnlyOnSuccess(user: Store.User, docs: Store.Docs, docId: string, form: MasterForm)
    ensures var w := Store.UpdateProduct(Some(user), docs, docId, MasterPayload(form));
      Store.ResetOnSuccess(form, EmptyForm, w.outcome) == if docId in docs then EmptyForm else form
  {
  }

  /** Saving a new master while signed out stores nothing and keeps the form as typed. */
  lemma SignedOutAddKeepsForm(docs: Store.Docs, newId: string, form: MasterForm)
    requires newId !in docs
    ensures var w := Store.AddProduct(None, docs, newId, MasterPayload(form));
      w.docs == docs && Store.ResetOnSuccess(form, EmptyForm, w.outcome) == form
  {
  }

  /** A new master read back from the store: zero stock levels, a master, not all-you-can-drink. */
  lemma AddedMasterReadsBack(form: MasterForm, email: string, newId: string)
    requires form.isMaster
    ensures var p := View(newId, Store.Added(MasterPayload(form), email));
      p.Stock() == 0 && p.MinStock() == 0 && p.IsMaster() && !p.IsNomihodai()
  {
    MasterPayloadFlags(form);
    Store.AddedReadsStock(MasterPayload(form), email, newId);
    Store.AddedReadsPayload(MasterPayload(form), email, newId, isMaster);
    Store.AddedReadsPayload(MasterPayload(form), email, newId, isNomihodai);
  }

  /** A new master read back from the store has profit equal to price − cost. */
  lemma AddedMasterProfit(form: MasterForm, email: string, newId: string)
    ensures var p := View(newId, Store.Added(MasterPayload(form), email));
      p.Profit() == p.Price() - p.Cost()
  {
    MasterPayloadPrices(form);
    Store.AddedReadsPrices(MasterPayload(form), email, newId);
    Store.AddedReadsPayload(MasterPayload(form), email, newId, profit);
  }

  /** `handleEdit(product)` (AdminDashboard.jsx:192-210): the form filled from a product. */
  function EditForm(p: Product): (f: MasterForm)
    ensures f.name == p.Name() && f.category == p.Category()
    ensures f.cost == Some(p.Cost()) && f.price == Some(p.Price())
    ensures f.isPopular == p.IsPopular() && f.isMaster
  {
    MasterForm(
      p.Name(), p.Manufacturer(), p.Category(),
      Some(p.Cost()), Some(p.Price()),
      p.TextOf(description), p.TextOf(image), p.ProductCode(),
      if volume in p.data && p.data[volume].Num? then Some(p.data[volume].n) else None,
      if p.TextOf(volumeUnit) == "" then "ml" else p.TextOf(volumeUnit),
      p.Container(), p.IsPopular(), true)
  }

  /**
    Saving an edited master unchanged keeps its name, category, prices and
    popular flag, but writes stock and minimum stock back to 0.
   */
  lemma EditThenSave(user: Store.User, docs: Store.Docs, docId: string)
    requires docId in docs
    requires !IsBlank(View(docId, docs[docId]).Name())
    ensures var p := View(docId, docs[docId]);
      var r := HandleSubmit(EditForm(p), Some(docId));
      var q := View(docId, Store.UpdateProduct(Some(user), docs, docId, r.payload).docs[docId]);
      q.Name() == p.Name() && q.Category() == p.Category() && q.Cost() == p.Cost() && q.Price() == p.Price()
    ensures var p := View(docId, docs[docId]);
      var r := HandleSubmit(EditForm(p), Some(docId));
      var q := View(docId, Store.UpdateProduct(Some(user), docs, docId, r.payload).docs[docId]);
      q.IsPopular() == p.IsPopular() && q.Stock() == 0 && q.MinStock() == 0
  {
    var p := View(docId, docs[docId]);
    var form := EditForm(p);
    TrimEmptyIffBlank(form.name);
    var payload := MasterPayload(form);
    MasterPayloadNames(form);
    MasterPayloadPrices(form);
    MasterPayloadFlags(form);
    var d' := Store.Patched(docs[docId], payload);
    assert Store.UpdateProduct(Some(user), docs, docId, payload).docs[docId] == d';
    assert d'[name] == Str(p.Name()) && d'[category] == Str(p.Category());
    assert d'[cost] == Num(p.Cost()) && d'[price] == Num(p.Price());
    assert d'[isPopular] == Bool(p.IsPopular());
  }

  // ---------------------------------------------------------------------------
  // The popular toggle (AdminDashboard.jsx:114-142).

  /** `handleTogglePopular(product)`: flip `isPopular`, stamped with the client clock `now`. */
  function TogglePopular(p: Product, now: int): (r: Store.Request)
    ensures r.UpdateDoc? && r.docId == p.id
    ensures r.patch.Keys == {isPopular, updatedAt}
    ensures r.patch[isPopular] == Bool(!p.IsPopular())
  {
    Store.UpdateDoc(p.id, map[isPopular := Bool(!p.IsPopular()), updatedAt := Time(At(now))])
  }

  /**
    The toggle flips the flag as read back and writes nothing else but the
    update stamp, which the store sets to its own time.
   */
  lemma TogglePopularFlips(user: Store.User, docs: Store.Docs, docId: string, now: int)
    requires docId in docs
    ensures var p := View(docId, docs[docId]);
      var d' := Store.Perform(Some(user), docs, TogglePopular(Product(docId, docs[docId]), now))[docId];
      && View(docId, d').IsPopular() == !p.IsPopular()
      && d'[updatedAt] == Time(ServerTime)
    ensures var d' := Store.Perform(Some(user), docs, TogglePopular(Product(docId, docs[docId]), now))[docId];
      forall f :: f != isPopular && f != updatedAt ==>
        (f in d' <==> f in docs[docId]) && (f in d' ==> d'[f] == docs[docId][f])
  {
  }

  /** Toggling twice, each time on the product as listed, restores the flag. */
  lemma TogglePopularTwice(user: Store.User, docs: Store.Docs, docId: string, now1: int, now2: int)
    requires docId in docs
    ensures var once := Store.Perform(Some(user), docs, TogglePopular(Product(docId, docs[docId]), now1));
      var twice := Store.Perform(Some(user), once, TogglePopular(Product(docId, once[docId]), now2));
      View(docId, twice[docId]).IsPopular() == View(docId, docs[docId]).IsPopular()
  {
    TogglePopularFlips(user, docs, docId, now1);
    var once := Store.Perform(Some(user), docs, TogglePopular(Product(docId, docs[docId]), now1));
    TogglePopularFlips(user, once, docId, now2);
  }

  // ---------------------------------------------------------------------------
  // Deleting (AdminDashboard.jsx:212-222, and the same handler at 655-665).

  /** `handleDelete(productId, productName)`: delete the product once the user confirms. */
  function HandleDelete(productId: string, confirmed: bool): (r: Store.Request)
    ensures confirmed <==> r == Store.DeleteDoc(productId)
    ensures !confirmed ==> r == Store.NoRequest
  {
    if confirmed then Store.DeleteDoc(productId) else Store.NoRequest
  }

  /** A confirmed delete removes that document and no other; a declined one changes nothing. */
  lemma HandleDeleteRemovesOne(user: Store.User, docs: Store.Docs, productId: string, confirmed: bool)
    ensures var after := Store.Perform(Some(user), docs, HandleDelete(productId, confirmed));
      after.Keys == if confirmed then docs.Keys - {productId} else docs.Keys
    ensures var after := Store.Perform(Some(user), docs, HandleDelete(productId, confirmed));
      forall k :: k in after ==> after[k] == docs[k]
  {
  }

  // ---------------------------------------------------------------------------
  // Masters, customer products and popular products (AdminDashboard.jsx:238-241, 616-617, 763-765).

  function Masters(products: seq<Product>): seq<Product> { Filter(products, IsMasterProduct) }

  function CustomerProducts(products: seq<Product>): seq<Product> { Filter(products, IsShopAdded) }

  predicate IsPopularProduct(p: Product) { p.IsPopular() }

  function PopularProducts(products: seq<Product>): seq<Product> { Filter(Masters(products), IsPopularProduct) }

  /** Masters and customer products split the list; popular products are masters. */
  lemma MasterCustomerPartition(products: seq<Product>)
    ensures |Masters(products)| + |CustomerProducts(products)| == |products|
    ensures multiset(Masters(products)) + multiset(CustomerProducts(products)) == multiset(products)
    ensures forall i :: 0 <= i < |PopularProducts(products)| ==>
              PopularProducts(products)[i].IsMaster() && PopularProducts(products)[i] in Masters(products)
  {
    FilterComplement(products, IsMasterProduct, IsShopAdded);
  }

  /** The "candidates" figure filters the customer products again by `!isMaster`, which keeps them all. */
  lemma CandidatesAreAllCustomerProducts(products: seq<Product>)
    ensures Filter(CustomerProducts(products), IsShopAdded) == CustomerProducts(products)
  {
    FilterAll(CustomerProducts(products), IsShopAdded);
  }

  // ---------------------------------------------------------------------------
  // The master list: search, category filter and sort (AdminDashboard.jsx:243-278).

  /** The master search: name, manufacturer or product code contains the term, ignoring ASCII case. */
  predicate MasterMatches(p: Product, term: string)
  {
    var t := ToLower(term);
    || Includes(ToLower(p.Name()), t)
    || (p.Manufacturer() != "" && Includes(ToLower(p.Manufacturer()), t))
    || (p.ProductCode() != "" && Includes(ToLower(p.ProductCode()), t))
  }

  /** The sort choices with a numeric comparator; the comparator of any other value returns 0. */
  datatype SortChoice = ByPrice | ByProfit | Unsorted

  function NegPrice(p: Product): int { -p.Price() }

  function NegProfit(p: Product): int { -p.Profit() }

  /** The search term as a filter predicate. */
  function Searching(term: string): Product -> bool
  {
    (p: Product) => MasterMatches(p, term)
  }

  /** The category filter as a filter predicate. */
  function FiledAs(c: string): Product -> bool
  {
    (p: Product) => p.Category() == c
  }

  /** Passes the search (when a term is typed) and the category filter (unless 'all'). */
  predicate Shown(p: Product, searchTerm: string, filterCategory: string)
  {
    (searchTerm == "" || MasterMatches(p, searchTerm)) && (filterCategory == "all" || p.Category() == filterCategory)
  }

  /** The masters list: the masters that pass the search and the category filter, in order. */
  function SearchMasters(products: seq<Product>, searchTerm: string, filterCategory: string): (r: seq<Product>)
    ensures IsSubseq(r, products)
    ensures forall i :: 0 <= i < |r| ==> r[i].IsMaster() && Shown(r[i], searchTerm, filterCategory)
    ensures forall i :: 0 <= i < |products| && products[i].IsMaster() && Shown(products[i], searchTerm, filterCategory) ==>
              products[i] in r
  {
    var f := (p: Product) => p.IsMaster() && Shown(p, searchTerm, filterCategory);
    FilterIsSubseq(products, f);
    Filter(products, f)
  }

  /**
    The list is what the component computes in stages (AdminDashboard.jsx:
    the masters, then the search only when a term is typed, then the
    category filter unless 'all').
   */
  lemma SearchMastersInStages(products: seq<Product>, searchTerm: string, filterCategory: string)
    ensures var masters := Masters(products);
      var searched := if searchTerm != "" then Filter(masters, Searching(searchTerm)) else masters;
      SearchMasters(products, searchTerm, filterCategory) == if filterCategory != "all" then Filter(searched, FiledAs(filterCategory)) else searched
  {
    var f := (p: Product) => p.IsMaster() && Shown(p, searchTerm, filterCategory);
    var searching := (p: Product) => p.IsMaster() && MasterMatches(p, searchTerm);
    var filed := (p: Product) => p.IsMaster() && p.Category() == filterCategory;
    if searchTerm == "" && filterCategory == "all" {
      FilterSame(products, f, IsMasterProduct);
    } else if searchTerm == "" {
      FilterFilter(products, IsMasterProduct, FiledAs(filterCategory), f);
    } else if filterCategory == "all" {
      FilterFilter(products, IsMasterProduct, Searching(searchTerm), f);
    } else {
      FilterFilter(products, IsMasterProduct, Searching(searchTerm), searching);
      FilterFilter(Filter(products, IsMasterProduct), Searching(searchTerm), FiledAs(filterCategory), (p: Product) => MasterMatches(p, searchTerm) && p.Category() == filterCategory);
      FilterFilter(products, searching, FiledAs(filterCategory), f);
    }
  }

  /** Without a term and with 'all', every master is listed, in order. */
  lemma NoSearchListsAllMasters(products: seq<Product>)
    ensures SearchMasters(products, "", "all") == Masters(products)
  {
    SearchMastersInStages(products, "", "all");
  }

  /** `masterProducts.sort(...)`: price and profit sort largest first; other choices keep the order. */
  function SortMasters(ms: seq<Product>, sortBy: SortChoice): (r: seq<Product>)
    ensures multiset(r) == multiset(ms)
    ensures sortBy == ByPrice ==> forall i, j :: 0 <= i < j < |r| ==> r[i].Price() >= r[j].Price()
    ensures sortBy == ByProfit ==> forall i, j :: 0 <= i < j < |r| ==> r[i].Profit() >= r[j].Profit()
    ensures sortBy == Unsorted ==> r == ms
  {
    match sortBy
    case ByPrice =>
      var r := SortBy(ms, NegPrice);
      assert SortedBy(r, NegPrice);
      r
    case ByProfit =>
      var r := SortBy(ms, NegProfit);
      assert SortedBy(r, NegProfit);
      r
    case Unsorted => ms
  }

  // ---------------------------------------------------------------------------
  // The customer-product manager (AdminDashboard.jsx:609-665).

  /** Either lower-cased name contains the other. */
  predicate SimilarNames(a: string, b: string)
  {
    Includes(ToLower(a), ToLower(b)) || Includes(ToLower(b), ToLower(a))
  }

  /** `handleCheckDuplicate(product)`: the masters whose names are similar to the product's. */
  function PossibleDuplicates(products: seq<Product>, p: Product): (r: seq<Product>)
    ensures IsSubseq(r, Masters(products))
    ensures forall i :: 0 <= i < |r| ==> r[i].IsMaster() && SimilarNames(r[i].Name(), p.Name())
    ensures forall i :: 0 <= i < |products| && products[i].IsMaster() && SimilarNames(products[i].Name(), p.Name()) ==>
              products[i] in r
  {
    var f := (m: Product) => SimilarNames(m.Name(), p.Name());
    FilterIsSubseq(Masters(products), f);
    Filter(Masters(products), f)
  }

  /** The similarity is symmetric, and a name equal up to ASCII case is always similar. */
  lemma SimilarNamesFacts(a: string, b: string)
    ensures SimilarNames(a, b) == SimilarNames(b, a)
    ensures ToLower(a) == ToLower(b) ==> SimilarNames(a, b)
  {
    IncludesSelf(ToLower(a));
  }

  /** A master with the same name, up to ASCII case, is always reported. */
  lemma SameNameReported(products: seq<Product>, p: Product, i: nat)
    requires i < |products| && products[i].IsMaster()
    requires ToLower(products[i].Name()) == ToLower(p.Name())
    ensures products[i] in PossibleDuplicates(products, p)
  {
    SimilarNamesFacts(products[i].Name(), p.Name());
  }

  /** A product whose name is the empty string is similar to every master: the empty name occurs in every name. */
  lemma NamelessMatchesAllMasters(products: seq<Product>, p: Product)
    requires p.Name() == ""
    ensures PossibleDuplicates(products, p) == Masters(products)
  {
    forall m | m in Masters(products)
      ensures SimilarNames(m.Name(), p.Name())
    {
      IncludesEmpty(ToLower(m.Name()));
    }
    FilterAll(Masters(products), (m: Product) => SimilarNames(m.Name(), p.Name()));
  }

  /** The fields the promotion sets over the customer product; `now` is the client clock. */
  function PromotionOverrides(now: int): Data
  {
    map[isMaster := Bool(true), isPopular := Bool(false), stock := Num(0), createdAt := Time(At(now))]
  }

  /**
    `masterProduct` as `handlePromoteToMaster` builds it (AdminDashboard.jsx:622-628):
    `{ ...product, isMaster: true, isPopular: false, stock: 0, createdAt }`.
    The spread carries the listed product's `id` into the payload.
   */
  function PromotionPayloadAsWritten(p: Product, now: int): (d: Data)
    ensures Field.id in d && d[Field.id] == Str(p.id)
  {
    Overlay(Spread(p), PromotionOverrides(now))
  }

  /** The intended payload: the same record without the old `id`. */
  function PromotionPayload(p: Product, now: int): (d: Data)
    ensures Field.id !in d
    ensures forall f :: f != Field.id && f !in PromotionOverrides(now) ==>
              (f in d <==> f in p.data) && (f in d ==> d[f] == p.data[f])
  {
    Overlay(p.data - {Field.id}, PromotionOverrides(now))
  }

  /**
    Promotion as written: add the `...product` payload as a new document, then
    delete the listed id, whatever the add reported.
   */
  function PromoteAsWritten(user: Option<Store.User>, docs: Store.Docs, newId: string, p: Product, confirmed: bool, now: int): (r: Store.Docs)
    requires newId !in docs
    ensures !confirmed || user.None? ==> r == docs
    ensures confirmed && user.Some? ==> r.Keys == docs.Keys + {newId} - {p.id}
    ensures confirmed && user.Some? && newId != p.id ==>
              newId in r && r[newId] == Store.Added(PromotionPayloadAsWritten(p, now), user.value.email)
    ensures forall k :: k in r && k != newId ==> k in docs && r[k] == docs[k]
  {
    if !confirmed || user.None? then docs
    else
      var payload := PromotionPayloadAsWritten(p, now);
      var added := Store.AddProduct(user, docs, newId, payload).docs;
      assert added == docs[newId := Store.Added(payload, user.value.email)];
      Store.DeleteProduct(user, added, p.id).docs
  }

  /**
    Promotion with the intended payload: the new document holds what
    `addProduct` stores for it, the listed document is gone, and every other
    document is untouched.
   */
  function Promote(user: Option<Store.User>, docs: Store.Docs, newId: string, p: Product, confirmed: bool, now: int): (r: Store.Docs)
    requires newId !in docs
    ensures !confirmed || user.None? ==> r == docs
    ensures confirmed && user.Some? ==> r.Keys == docs.Keys + {newId} - {p.id}
    ensures confirmed && user.Some? && newId != p.id ==>
              newId in r && r[newId] == Store.Added(PromotionPayload(p, now), user.value.email)
    ensures forall k :: k in r && k != newId ==> k in docs && r[k] == docs[k]
  {
    if !confirmed || user.None? then docs
    else
      var payload := PromotionPayload(p, now);
      var added := Store.AddProduct(user, docs, newId, payload).docs;
      assert added == docs[newId := Store.Added(payload, user.value.email)];
      Store.DeleteProduct(user, added, p.id).docs
  }

  /**
    As written, the promoted document is listed under the id of the document
    it replaced, which no longer exists: an update through the listing fails.
   */
  lemma PromotionAsWrittenListsStaleId(user: Store.User, docs: Store.Docs, newId: string, docId: string, now: int, patch: Data)
    requires newId !in docs && docId in docs && Field.id !in docs[docId]
    ensures var after := PromoteAsWritten(Some(user), docs, newId, View(docId, docs[docId]), true, now);
      && newId in after && docId !in after
      && View(newId, after[newId]).id == docId
      && Store.UpdateProduct(Some(user), after, View(newId, after[newId]).id, patch).outcome == Store.Failure(Store.NoSuchDocument)
  {
    var p := View(docId, docs[docId]);
    var payload := PromotionPayloadAsWritten(p, now);
    assert Store.Added(payload, user.email)[Field.id] == Str(docId);
  }

  /** With the intended payload the promoted document is listed under its own id, and updates reach it. */
  lemma PromotionListsNewId(user: Store.User, docs: Store.Docs, newId: string, docId: string, now: int, patch: Data)
    requires newId !in docs && docId in docs && Field.id !in docs[docId]
    ensures var after := Promote(Some(user), docs, newId, View(docId, docs[docId]), true, now);
      && newId in after
      && View(newId, after[newId]).id == newId
      && Store.UpdateProduct(Some(user), after, View(newId, after[newId]).id, patch).outcome == Store.Success
  {
    var p := View(docId, docs[docId]);
    assert Field.id !in Store.Added(PromotionPayload(p, now), user.email);
  }

  /** The payload is a master, not popular, with no stock. */
  lemma PromotionPayloadSets(p: Product, now: int)
    ensures var d := PromotionPayload(p, now);
      && isMaster in d && d[isMaster] == Bool(true) && isPopular in d && d[isPopular] == Bool(false)
      && stock in d && d[stock] == Num(0)
  {
    var o := PromotionOverrides(now);
    assert isMaster in o && isPopular in o && stock in o;
  }

  /** The promoted product reads as a master, not popular, with no stock. */
  lemma PromotedReadsAsMaster(p: Product, now: int, email: string, newId: string)
    ensures var q := View(newId, Store.Added(PromotionPayload(p, now), email));
      q.IsMaster() && !q.IsPopular() && q.Stock() == 0
  {
    var d := PromotionPayload(p, now);
    PromotionPayloadSets(p, now);
    Store.AddedReadsStock(d, email, newId);
    Store.AddedReadsPayload(d, email, newId, isMaster);
    Store.AddedReadsPayload(d, email, newId, isPopular);
  }

  /** The promoted product keeps the customer product's name and minimum stock. */
  lemma PromotedKeepsName(p: Product, now: int, email: string, newId: string)
    ensures var q := View(newId, Store.Added(PromotionPayload(p, now), email));
      q.MinStock() == p.MinStock() && q.Name() == p.Name()
  {
    var o := PromotionOverrides(now);
    var d := PromotionPayload(p, now);
    assert name !in o && minStock !in o;
    Store.AddedReadsStock(d, email, newId);
    Store.AddedReadsPayload(d, email, newId, name);
  }

  // ---------------------------------------------------------------------------
  // `DataAnalytics` (AdminDashboard.jsx:762-777).

  /**
    A category's share of the masters: 0 without masters, otherwise
    `Math.round(count / masters * 100)`, kept symbolic because it is a
    floating-point computation.
   */
  datatype Percentage = NoShare | Rounded(count: nat, of: nat)

  datatype CategoryRow = CategoryRow(category: string, count: nat, popularCount: nat, percentage: Percentage)

  function RowFor(products: seq<Product>, c: string): CategoryRow
  {
    var masters := Masters(products);
    var count := |Analytics.InCategory(masters, c)|;
    CategoryRow(c, count, |Analytics.InCategory(PopularProducts(products), c)|,
                if |masters| > 0 then Rounded(count, |masters|) else NoShare)
  }

  /** One row per fixed category, in the fixed order. */
  function RowsFor(products: seq<Product>, cats: seq<string>): (r: seq<CategoryRow>)
    ensures |r| == |cats|
    ensures forall i :: 0 <= i < |cats| ==> r[i] == RowFor(products, cats[i])
  {
    if |cats| == 0 then [] else [RowFor(products, cats[0])] + RowsFor(products, cats[1..])
  }

  function CategoryAnalysis(products: seq<Product>): seq<CategoryRow>
  {
    RowsFor(products, Categories)
  }

  /** Each category's popular count is at most its master count; without masters every share is 0. */
  lemma CategoryRowFacts(products: seq<Product>, i: nat)
    requires i < |CategoryAnalysis(products)|
    ensures CategoryAnalysis(products)[i].popularCount <= CategoryAnalysis(products)[i].count
    ensures |Masters(products)| == 0 ==> CategoryAnalysis(products)[i].percentage == NoShare
  {
    var c := Categories[i];
    var masters := Masters(products);
    var inCat := (p: Product) => p.Category() == c;
    var both := (p: Product) => IsPopularProduct(p) && inCat(p);
    FilterFilter(masters, IsPopularProduct, inCat, both);
    FilterFilter(masters, inCat, IsPopularProduct, both);
  }

  function RowCount(r: CategoryRow): int { r.count }

  /** The rows count the masters of the fixed categories, so together at most all masters. */
  lemma {:induction false} RowCountsMatch(products: seq<Product>, cats: seq<string>)
    ensures Sum(RowsFor(products, cats), RowCount) == Sum(Analytics.StatsFor(Masters(products), cats), Analytics.CountOf)
  {
    if |cats| > 0 {
      RowCountsMatch(products, cats[1..]);
      assert RowsFor(products, cats)[1..] == RowsFor(products, cats[1..]);
      assert Analytics.StatsFor(Masters(products), cats)[1..] == Analytics.StatsFor(Masters(products), cats[1..]);
    }
  }

  lemma CategoryCountsAtMostMasters(products: seq<Product>)
    ensures Sum(CategoryAnalysis(products), RowCount) <= |Masters(products)|
  {
    RowCountsMatch(products, Categories);
    CategoriesDistinct();
    Analytics.CountsAddUp(Masters(products), Categories);
  }
}

=== FILE: analytics.dfy ===
/**
  The analytics tab (components/customer/AnalyticsTab.jsx): value and profit
  totals over all products, the low-stock list, and the per-category figures
  over the fixed category list.
 */
module Analytics {
  import opened Seqs
  import opened Records
  import Inventory

  /**
    `totalValue`: cost × stock summed over every product, inactive ones
    included (AnalyticsTab.jsx:21). With no negative cost or stock it is never
    negative.
   */
  function TotalValue(products: seq<Product>): (r: int)
    ensures (forall i :: 0 <= i < |products| ==> products[i].Cost() >= 0 && products[i].Stock() >= 0) ==> r >= 0
  {
    assert forall i :: 0 <= i < |products| && products[i].Cost() >= 0 && products[i].Stock() >= 0 ==>
      StockValue(products[i]) >= 0;
    SumNonNegative(products, StockValue);
    Sum(products, StockValue)
  }

  /**
    `totalProfit`: profit × stock summed over every product (AnalyticsTab.jsx:22).
    With no negative profit or stock it is never negative.
   */
  function TotalProfit(products: seq<Product>): (r: int)
    ensures (forall i :: 0 <= i < |products| ==> products[i].Profit() >= 0 && products[i].Stock() >= 0) ==> r >= 0
  {
    assert forall i :: 0 <= i < |products| && products[i].Profit() >= 0 && products[i].Stock() >= 0 ==>
      StockProfit(products[i]) >= 0;
    SumNonNegative(products, StockProfit);
    Sum(products, StockProfit)
  }

  /** The totals do not depend on the order the store delivers the products in. */
  lemma TotalsIgnoreOrder(a: seq<Product>, b: seq<Product>)
    requires multiset(a) == multiset(b)
    ensures TotalValue(a) == TotalValue(b) && TotalProfit(a) == TotalProfit(b)
  {
    SumPermutation(a, b, StockValue);
    SumPermutation(a, b, StockProfit);
  }

  /** `lowStockProducts` (AnalyticsTab.jsx:23). */
  function LowStockProducts(products: seq<Product>): (r: seq<Product>)
    ensures IsSubseq(r, products)
    ensures forall i :: 0 <= i < |r| ==> 0 < r[i].Stock() <= r[i].MinStock()
    ensures forall i :: 0 <= i < |products| && 0 < products[i].Stock() <= products[i].MinStock() ==> products[i] in r
    ensures forall p :: multiset(r)[p] == if IsLowStock(p) then multiset(products)[p] else 0
  {
    FilterIsSubseq(products, IsLowStock);
    FilterCount(products, IsLowStock);
    Filter(products, IsLowStock)
  }

  /**
    The analytics total counts inactive products too: it is the inventory
    tab's total plus the value of the inactive products.
   */
  lemma TotalValueSplits(products: seq<Product>)
    ensures TotalValue(products)
      == Inventory.InventoryStats(products).totalValue + Sum(Inventory.InactiveProducts(products), StockValue)
    ensures TotalProfit(products)
      == Inventory.InventoryStats(products).totalProfit + Sum(Inventory.InactiveProducts(products), StockProfit)
  {
    SumComplement(products, IsActiveProduct, IsInactiveProduct, StockValue);
    SumComplement(products, IsActiveProduct, IsInactiveProduct, StockProfit);
  }

  // ---------------------------------------------------------------------------
  // `categoryStats` (AnalyticsTab.jsx:26-31).

  datatype CategoryStat = CategoryStat(category: string, count: nat, value: int)

  /** `products.filter(p => p.category === c)`. */
  function InCategory(products: seq<Product>, c: string): seq<Product>
  {
    Filter(products, (p: Product) => p.Category() == c)
  }

  /**
    The figures for one category: how many products are filed under it, and
    cost × stock summed over the products, counting those of other
    categories as 0.
   */
  function StatFor(products: seq<Product>, c: string): (r: CategoryStat)
    ensures r.category == c
    ensures r.count == Count(products, (p: Product) => p.Category() == c)
    ensures r.value == Sum(products, (p: Product) => if p.Category() == c then StockValue(p) else 0)
    ensures r.count == 0 ==> r.value == 0
  {
    var ps := InCategory(products, c);
    FilterCount(products, (p: Product) => p.Category() == c);
    SumFilter(products, (p: Product) => p.Category() == c, StockValue, (p: Product) => if p.Category() == c then StockValue(p) else 0);
    CategoryStat(c, |ps|, Sum(ps, StockValue))
  }

  /** `categories.map(...)`: one row per listed category, in list order. */
  function StatsFor(products: seq<Product>, cats: seq<string>): (r: seq<CategoryStat>)
    ensures |r| == |cats|
    ensures forall i :: 0 <= i < |cats| ==> r[i] == StatFor(products, cats[i])
  {
    if |cats| == 0 then [] else [StatFor(products, cats[0])] + StatsFor(products, cats[1..])
  }

  predicate HasProducts(s: CategoryStat) { s.count > 0 }

  function CountOf(s: CategoryStat): int { s.count }

  /** The displayed rows: the fixed categories that have at least one product, in the fixed order. */
  function CategoryStats(products: seq<Product>): (r: seq<CategoryStat>)
    ensures forall i :: 0 <= i < |r| ==>
              r[i].count > 0 && r[i].category in Categories && r[i] == StatFor(products, r[i].category)
    ensures forall c :: c in Categories && |InCategory(products, c)| > 0 ==> StatFor(products, c) in r
  {
    StatsForCovers(products, Categories);
    Filter(StatsFor(products, Categories), HasProducts)
  }

  /** Every listed category has its row, and every row is a listed category's. */
  lemma StatsForCovers(products: seq<Product>, cats: seq<string>)
    ensures forall c :: c in cats ==> StatFor(products, c) in StatsFor(products, cats)
    ensures forall s :: s in StatsFor(products, cats) ==> s.category in cats
  {
    var all := StatsFor(products, cats);
    forall c | c in cats
      ensures StatFor(products, c) in all
    {
      var i :| 0 <= i < |cats| && cats[i] == c;
      assert all[i] == StatFor(products, c);
    }
  }

  /** The row order follows the fixed category list. */
  lemma CategoryStatsInOrder(products: seq<Product>)
    ensures IsSubseq(CategoryStats(products), StatsFor(products, Categories))
  {
    FilterIsSubseq(StatsFor(products, Categories), HasProducts);
  }

  /** Dropping the empty rows does not change the total count. */
  lemma {:induction false} DropEmptyKeepsCount(rows: seq<CategoryStat>)
    ensures Sum(Filter(rows, HasProducts), CountOf) == Sum(rows, CountOf)
  {
    if |rows| > 0 {
      DropEmptyKeepsCount(rows[1..]);
    }
  }

  /** Over distinct categories, the counts add up to the number of products in any of them. */
  lemma {:induction false} CountsAddUp(products: seq<Product>, cats: seq<string>)
    requires NoDup(cats)
    ensures Sum(StatsFor(products, cats), CountOf) == |Filter(products, (p: Product) => p.Category() in cats)|
  {
    if |cats| == 0 {
      FilterNone(products, (p: Product) => p.Category() in cats);
    } else {
      var c := cats[0];
      var rest := cats[1..];
      assert NoDup(rest) by {
        forall i, j | 0 <= i < j < |rest| ensures rest[i] != rest[j] {
          assert rest[i] == cats[i + 1] && rest[j] == cats[j + 1];
        }
      }
      CountsAddUp(products, rest);
      assert StatsFor(products, cats)[1..] == StatsFor(products, rest);
      assert c !in rest by {
        forall i | 0 <= i < |rest| ensures rest[i] != c {
          assert rest[i] == cats[i + 1];
        }
      }
      FilterDisjoint(products,
        (p: Product) => p.Category() == c,
        (p: Product) => p.Category() in rest,
        (p: Product) => p.Category() in cats);
    }
  }

  /**
    The displayed counts never exceed the number of products, and reach it
    exactly when every product belongs to one of the fixed categories.
   */
  lemma CategoryCountsBound(products: seq<Product>)
    ensures Sum(CategoryStats(products), CountOf) <= |products|
    ensures (Sum(CategoryStats(products), CountOf) == |products|) <==>
              (forall i :: 0 <= i < |products| ==> products[i].Category() in Categories)
  {
    CategoriesDistinct();
    DropEmptyKeepsCount(StatsFor(products, Categories));
    CountsAddUp(products, Categories);
    var inFixed := (p: Product) => p.Category() in Categories;
    var outside := (p: Product) => p.Category() !in Categories;
    FilterComplement(products, inFixed, outside);
    if forall i :: 0 <= i < |products| ==> products[i].Category() in Categories {
      FilterNone(products, outside);
    } else {
      var i :| 0 <= i < |products| && products[i].Category() !in Categories;
      assert products[i] in Filter(products, outside);
    }
  }
}

=== FILE: app.dfy ===
/**
  The browser-only app (App.jsx): a list of products held in memory (and
  persisted locally), with reducers for add, stock change, delete and
  restock, a filter and sort, the stats block, the category list and the add
  form's check. Its records differ from the store's: `price` is the purchase
  price and `sellPrice` the sale price.
 */
module LocalApp {
  import opened Seqs
  import opened Text
  import opened Records

  /** A product of the local list; `id` is the clock reading at creation. */
  datatype Item = Item(
    id: int, name: string, category: string,
    stock: int, price: int, sellPrice: int, minStock: int, isNomihodai: bool)

  /** The form state `formData`; number fields are None when empty or unparseable. */
  datatype ItemForm = ItemForm(
    name: string, category: string,
    stock: Option<int>, price: Option<int>, sellPrice: Option<int>, minStock: Option<int>,
    isNomihodai: bool)

  /** The initial form: minimum stock "5", everything else empty. */
  const EmptyForm := ItemForm("", "", None, None, None, Some(5), false)

  predicate HasId(id: int, p: Item) { p.id == id }

  // ---------------------------------------------------------------------------
  // The add form and `addProduct` (App.jsx:73-89, 273-279).

  /** `handleSubmit`: a missing name or category is refused (no trimming); otherwise the form is handed on. */
  function Validate(form: ItemForm): (r: Option<ItemForm>)
    ensures r.None? <==> form.name == "" || form.category == ""
    ensures r.Some? ==> r.value == form
  {
    if form.name == "" || form.category == "" then None else Some(form)
  }

  /** The record `addProduct` builds: the clock `now` as id, numbers parsed with `|| 0`. */
  function NewItem(form: ItemForm, now: int): (p: Item)
    ensures p.id == now && p.name == form.name && p.category == form.category
    ensures p.stock == form.stock.GetOr(0) && p.minStock == form.minStock.GetOr(0)
  {
    Item(now, form.name, form.category, form.stock.GetOr(0), form.price.GetOr(0),
         form.sellPrice.GetOr(0), form.minStock.GetOr(0), form.isNomihodai)
  }

  /** `addProduct`: the new record is appended; the earlier records are untouched. */
  function AddItem(items: seq<Item>, form: ItemForm, now: int): (r: seq<Item>)
    ensures |r| == |items| + 1 && r[..|items|] == items
    ensures r[|items|].id == now && r[|items|].name == form.name
  {
    items + [NewItem(form, now)]
  }

  /**
    `deleteProduct(id)`: when a record has the id and the user confirms,
    every record with that id is removed; otherwise nothing changes.
   */
  function DeleteItem(items: seq<Item>, id: int, confirmed: bool): (r: seq<Item>)
    ensures IsSubseq(r, items)
    ensures confirmed ==> forall i :: 0 <= i < |r| ==> r[i].id != id
    ensures forall i :: 0 <= i < |items| && items[i].id != id ==> items[i] in r
    ensures !confirmed ==> r == items
    ensures confirmed ==> forall p :: multiset(r)[p] == if p.id != id then multiset(items)[p] else 0
  {
    var keep := (p: Item) => p.id != id;
    if confirmed && FirstIndex(items, (p: Item) => HasId(id, p)) != -1 then
      FilterIsSubseq(items, keep);
      FilterCount(items, keep);
      Filter(items, keep)
    else
      SubseqRefl(items);
      if confirmed then
        assert forall i :: 0 <= i < |items| ==> !HasId(id, items[i]);
        FilterAll(items, keep);
        FilterCount(items, keep);
        items
      else items
  }

  /** Adding a record under a fresh id and deleting that id gives back the list. */
  lemma AddThenDelete(items: seq<Item>, form: ItemForm, now: int)
    requires forall i :: 0 <= i < |items| ==> items[i].id != now
    ensures DeleteItem(AddItem(items, form, now), now, true) == items
  {
    var keep := (p: Item) => p.id != now;
    var added := AddItem(items, form, now);
    assert added[|items|].id == now;
    FilterAppend(items, [NewItem(form, now)], keep);
    FilterAll(items, keep);
    assert Filter([NewItem(form, now)], keep) == [];
  }

  // ---------------------------------------------------------------------------
  // `updateStock(id, change)` and `restockProduct(id)` (App.jsx:92-122).

  /** Each record with the id gets `Math.max(0, stock + change)`; the others are kept. */
  function UpdateStock(items: seq<Item>, id: int, change: int): (r: seq<Item>)
    ensures |r| == |items|
    ensures forall i :: 0 <= i < |items| && items[i].id != id ==> r[i] == items[i]
    ensures forall i :: 0 <= i < |items| && items[i].id == id ==>
              r[i] == items[i].(stock := NewStock(items[i].stock, change)) && r[i].stock >= 0
  {
    seq(|items|, i requires 0 <= i < |items| =>
      if items[i].id == id then items[i].(stock := NewStock(items[i].stock, change)) else items[i])
  }

  /** A step up followed by a step down restores a list whose stock is never negative. */
  lemma UpThenDown(items: seq<Item>, id: int)
    requires forall i :: 0 <= i < |items| ==> items[i].stock >= 0
    ensures UpdateStock(UpdateStock(items, id, 1), id, -1) == items
  {
  }

  /** `product.minStock * 2 || 10`. */
  function RestockAmount(minStock: int): (n: int)
    ensures minStock != 0 ==> n == 2 * minStock
    ensures minStock == 0 ==> n == 10
  {
    if minStock * 2 == 0 then 10 else minStock * 2
  }

  /** `restockProduct(id)`: each record with the id gets `stock + amount`, unclamped. */
  function Restock(items: seq<Item>, id: int): (r: seq<Item>)
    ensures |r| == |items|
    ensures forall i :: 0 <= i < |items| && items[i].id != id ==> r[i] == items[i]
    ensures forall i :: 0 <= i < |items| && items[i].id == id ==>
              r[i] == items[i].(stock := items[i].stock + RestockAmount(items[i].minStock))
  {
    seq(|items|, i requires 0 <= i < |items| =>
      if items[i].id == id then items[i].(stock := items[i].stock + RestockAmount(items[i].minStock)) else items[i])
  }

  /**
    With a non-negative minimum, a restock strictly raises the stock, to at
    least twice the minimum; with a negative minimum it lowers it.
   */
  lemma RestockRaises(items: seq<Item>, id: int, i: nat)
    requires i < |items| && items[i].id == id
    ensures items[i].minStock >= 0 ==>
              Restock(items, id)[i].stock > items[i].stock && Restock(items, id)[i].stock >= items[i].stock + 2 * items[i].minStock
    ensures items[i].minStock < 0 ==> Restock(items, id)[i].stock < items[i].stock
  {
  }

  // ---------------------------------------------------------------------------
  // The filter and sort (App.jsx:125-139).

  /** The name contains the term, ignoring ASCII case, and the category filter is 'all' or equal. */
  predicate ItemMatches(p: Item, term: string, filterCategory: string)
  {
    && Includes(ToLower(p.name), ToLower(term))
    && (filterCategory == "all" || p.category == filterCategory)
  }

  function FilteredItems(items: seq<Item>, term: string, filterCategory: string): (r: seq<Item>)
    ensures IsSubseq(r, items)
    ensures forall i :: 0 <= i < |r| ==> ItemMatches(r[i], term, filterCategory)
    ensures forall i :: 0 <= i < |items| && ItemMatches(items[i], term, filterCategory) ==> items[i] in r
    ensures forall p :: multiset(r)[p] == if ItemMatches(p, term, filterCategory) then multiset(items)[p] else 0
  {
    var f := (p: Item) => ItemMatches(p, term, filterCategory);
    FilterIsSubseq(items, f);
    FilterCount(items, f);
    Filter(items, f)
  }

  /** An empty search with 'all' shows every record. */
  lemma NoFilterShowsAll(items: seq<Item>)
    ensures FilteredItems(items, "", "all") == items
  {
    forall p | p in items
      ensures ItemMatches(p, "", "all")
    {
      IncludesEmpty(ToLower(p.name));
    }
    FilterAll(items, (p: Item) => ItemMatches(p, "", "all"));
  }

  /** The sort choices; the name order (`localeCompare`) is not modelled and keeps the filtered order. */
  datatype ItemSort = ByStock | ByProfit | ByName

  function StockKey(p: Item): int { p.stock }

  /** The margin `sellPrice − price`, negated so that the ascending sort puts the largest first. */
  function NegMargin(p: Item): int { -(p.sellPrice - p.price) }

  /** `.sort(...)`: stock ascending, or margin descending. */
  function SortItems(items: seq<Item>, sortBy: ItemSort): (r: seq<Item>)
    ensures multiset(r) == multiset(items)
    ensures sortBy == ByStock ==> forall i, j :: 0 <= i < j < |r| ==> r[i].stock <= r[j].stock
    ensures sortBy == ByProfit ==> forall i, j :: 0 <= i < j < |r| ==> r[i].sellPrice - r[i].price >= r[j].sellPrice - r[j].price
  {
    match sortBy
    case ByStock =>
      var r := SortBy(items, StockKey);
      assert SortedBy(r, StockKey);
      r
    case ByProfit =>
      var r := SortBy(items, NegMargin);
      assert SortedBy(r, NegMargin);
      r
    case ByName => items
  }

  /** Sorting keeps exactly the filtered records. */
  lemma SortKeepsRecords(items: seq<Item>, sortBy: ItemSort)
    ensures |SortItems(items, sortBy)| == |items|
    ensures forall p :: p in SortItems(items, sortBy) <==> p in items
  {
    PermutationSameElements(SortItems(items, sortBy), items);
  }

  // ---------------------------------------------------------------------------
  // The stats block (App.jsx:142-147).

  datatype AppStats = AppStats(totalValue: int, totalProfit: int, nomihodaiCount: nat, lowStockCount: nat)

  function ItemValue(p: Item): int { p.stock * p.price }

  function ItemProfit(p: Item): int { p.stock * (p.sellPrice - p.price) }

  function ItemRevenue(p: Item): int { p.stock * p.sellPrice }

  predicate IsNomihodaiItem(p: Item) { p.isNomihodai }

  /** This file's low-stock rule: `stock <= minStock`, so an empty record counts. */
  predicate IsLowItem(p: Item) { p.stock <= p.minStock }

  /** Over the whole list, not the filtered one. */
  function Stats(items: seq<Item>): (s: AppStats)
    ensures s.nomihodaiCount == Count(items, IsNomihodaiItem) && s.lowStockCount == Count(items, IsLowItem)
  {
    FilterCount(items, IsNomihodaiItem);
    FilterCount(items, IsLowItem);
    AppStats(Sum(items, ItemValue), Sum(items, ItemProfit),
             |Filter(items, IsNomihodaiItem)|, |Filter(items, IsLowItem)|)
  }

  /** No records show four zeros. */
  lemma StatsEmpty()
    ensures Stats([]) == AppStats(0, 0, 0, 0)
  {
  }

  /**
    Appending a record adds its value and margin to the totals, and one to
    each count whose rule it meets; with `StatsEmpty` this fixes the figures
    of every list.
   */
  lemma StatsAppend(items: seq<Item>, q: Item)
    ensures Stats(items + [q]).totalValue == Stats(items).totalValue + ItemValue(q)
    ensures Stats(items + [q]).totalProfit == Stats(items).totalProfit + ItemProfit(q)
    ensures Stats(items + [q]).nomihodaiCount == Stats(items).nomihodaiCount + (if q.isNomihodai then 1 else 0)
    ensures Stats(items + [q]).lowStockCount == Stats(items).lowStockCount + (if q.stock <= q.minStock then 1 else 0)
  {
    SumAppend(items, [q], ItemValue);
    SumAppend(items, [q], ItemProfit);
    CountAppend(items, [q], IsNomihodaiItem);
    CountAppend(items, [q], IsLowItem);
  }

  /** The profit total is the sale value of the stock minus its purchase value. */
  lemma {:induction false} ProfitIsRevenueMinusValue(items: seq<Item>)
    ensures Stats(items).totalProfit == Sum(items, ItemRevenue) - Stats(items).totalValue
  {
    if |items| > 0 {
      ProfitIsRevenueMinusValue(items[1..]);
      var p := items[0];
      Distributes(p.stock, p.sellPrice, p.price);
      assert ItemProfit(p) == ItemRevenue(p) - ItemValue(p);
    }
  }

  lemma Distributes(a: int, b: int, c: int)
    ensures a * (b - c) == a * b - a * c
  {
  }

  /** An out-of-stock record with a non-negative minimum is counted as low. */
  lemma OutOfStockIsLow(items: seq<Item>, i: nat)
    requires i < |items| && items[i].stock == 0 && items[i].minStock >= 0
    ensures items[i] in Filter(items, IsLowItem)
    ensures Stats(items).lowStockCount >= 1
  {
  }

  /** A stock change leaves the all-you-can-drink count alone. */
  lemma {:induction false} UpdateStockKeepsNomihodai(items: seq<Item>, id: int, change: int)
    ensures Stats(UpdateStock(items, id, change)).nomihodaiCount == Stats(items).nomihodaiCount
  {
    if |items| > 0 {
      UpdateStockKeepsNomihodai(items[1..], id, change);
      assert UpdateStock(items, id, change)[1..] == UpdateStock(items[1..], id, change);
    }
  }

  // ---------------------------------------------------------------------------
  // The category list (App.jsx:150).

  /**
    `[...new Set(s)]`: each value once, in the order of its first occurrence
    in `s` (a `Set` iterates in insertion order).
   */
  function Distinct(s: seq<string>): (r: seq<string>)
    ensures NoDup(r)
    ensures forall x :: x in r <==> x in s
    ensures forall i, j :: 0 <= i < j < |r| ==> IndexOf(s, r[i]) < IndexOf(s, r[j])
  {
    if |s| == 0 then []
    else
      var init := s[..|s| - 1];
      var last := s[|s| - 1];
      var d := Distinct(init);
      assert s == init + [last];
      assert forall x :: x in s <==> x in init || x == last;
      forall x | x in init
        ensures IndexOf(s, x) == IndexOf(init, x)
      {
        IndexOfSnoc(init, last, x);
      }
      if last in d then d
      else
        IndexOfLast(init, last);
        var r := d + [last];
        assert forall i :: 0 <= i < |d| ==> r[i] == d[i] && d[i] in init;
        r
  }

  function CategoryOf(p: Item): string { p.category }

  function CategoryNames(items: seq<Item>): (r: seq<string>)
    ensures |r| == |items|
    ensures forall i :: 0 <= i < |items| ==> r[i] == items[i].category
  {
    seq(|items|, i requires 0 <= i < |items| => items[i].category)
  }

  /** `['all', ...new Set(products.map(p => p.category))]`: 'all' first, then each category once. */
  function CategoryList(items: seq<Item>): (r: seq<string>)
    ensures |r| >= 1 && r[0] == "all" && r[1..] == Distinct(CategoryNames(items))
  {
    ["all"] + Distinct(CategoryNames(items))
  }

  /** Every record's category is listed, and every listed name but 'all' is some record's category. */
  lemma CategoryListCovers(items: seq<Item>)
    ensures forall i :: 0 <= i < |items| ==> items[i].category in CategoryList(items)
    ensures forall x :: x in CategoryList(items)[1..] ==> exists j :: 0 <= j < |items| && items[j].category == x
  {
    var names := CategoryNames(items);
    forall x | x in CategoryList(items)[1..]
      ensures exists j :: 0 <= j < |items| && items[j].category == x
    {
      assert x in names;
      var j :| 0 <= j < |names| && names[j] == x;
      assert items[j].category == x;
    }
    forall i | 0 <= i < |items|
      ensures items[i].category in CategoryList(items)
    {
      assert names[i] in Distinct(names);
    }
  }

  /** The list is free of duplicates exactly when no record uses the text 'all' as its category. */
  lemma CategoryListDistinct(items: seq<Item>)
    ensures NoDup(CategoryList(items)) <==> forall i :: 0 <= i < |items| ==> items[i].category != "all"
  {
    var names := CategoryNames(items);
    var d := Distinct(names);
    var r := CategoryList(items);
    if forall i :: 0 <= i < |items| ==> items[i].category != "all" {
      assert "all" !in names by {
        forall i | 0 <= i < |names| ensures names[i] != "all" {
          assert names[i] == items[i].category;
        }
      }
      forall i, j | 0 <= i < j < |r| ensures r[i] != r[j] {
        if i == 0 {
          assert r[j] == d[j - 1];
        } else {
          assert r[i] == d[i - 1] && r[j] == d[j - 1];
        }
      }
    } else {
      var i :| 0 <= i < |items| && items[i].category == "all";
      assert names[i] == "all";
      var k :| 0 <= k < |d| && d[k] == "all";
      assert r[0] == r[k + 1];
    }
  }
}

=== FILE: customer.dfy ===
/**
  The customer view (components/customer/CustomerApp.jsx): the stats block,
  the delete guard for master products and the new-product form. Its stock
  change and search filter follow the same rules as the inventory tab's
  (`Inventory.StockChange`, `Inventory.FilteredProducts`).
 */
module CustomerView {
  import opened Seqs
  import opened Text
  import opened Records
  import Store
  import Inventory

  // ---------------------------------------------------------------------------
  // `CustomerStats` (CustomerApp.jsx:48-57).

  /** The stats filter `product.isMaster || !product.isMaster`. */
  predicate Listed(p: Product) { p.IsMaster() || !p.IsMaster() }

  /** The stats filter keeps every product. */
  lemma ListedKeepsAll(products: seq<Product>)
    ensures Filter(products, Listed) == products
  {
    FilterAll(products, Listed);
  }

  /** The four figures over every listed product, active or not. */
  function CustomerStats(products: seq<Product>): (s: Inventory.Stats)
    ensures s.lowStockCount == Count(products, IsLowStock) && s.myAddedCount == Count(products, IsShopAdded)
    ensures s.totalValue == Sum(products, StockValue) && s.totalProfit == Sum(products, StockProfit)
  {
    ListedKeepsAll(products);
    FilterCount(products, IsLowStock);
    FilterCount(products, IsShopAdded);
    var listed := Filter(products, Listed);
    Inventory.Stats(Sum(listed, StockValue), Sum(listed, StockProfit),
                    |Filter(listed, IsLowStock)|, |Filter(listed, IsShopAdded)|)
  }

  /**
    The customer view's stats agree with the inventory tab's exactly when
    inactive products do not matter: on a list of active products they are equal.
   */
  lemma CustomerStatsMatchInventory(products: seq<Product>)
    requires forall i :: 0 <= i < |products| ==> products[i].IsActive()
    ensures CustomerStats(products) == Inventory.InventoryStats(products)
  {
    FilterAll(products, IsActiveProduct);
    ListedKeepsAll(products);
  }

  /** The "added" count and the masters together count every product. */
  lemma AddedCountComplementsMasters(products: seq<Product>)
    ensures CustomerStats(products).myAddedCount + |Filter(products, IsMasterProduct)| == |products|
  {
    ListedKeepsAll(products);
    FilterComplement(products, IsShopAdded, IsMasterProduct);
  }

  // ---------------------------------------------------------------------------
  // `handleDelete` (CustomerApp.jsx:106-122).

  /** A master is refused with a warning; otherwise the product is deleted once the user confirms. */
  function HandleDelete(productId: string, isMaster: bool, confirmed: bool): (r: Store.Request)
    ensures r == Store.DeleteDoc(productId) <==> !isMaster && confirmed
    ensures r != Store.DeleteDoc(productId) ==> r == Store.NoRequest
  {
    if isMaster then Store.NoRequest
    else if confirmed then Store.DeleteDoc(productId)
    else Store.NoRequest
  }

  /** Deleting through the view never removes a master product, confirmed or not. */
  lemma MasterNeverDeleted(user: Option<Store.User>, docs: Store.Docs, p: Product, confirmed: bool)
    requires p.IsMaster()
    ensures Store.Perform(user, docs, HandleDelete(p.id, p.IsMaster(), confirmed)) == docs
  {
  }

  // ---------------------------------------------------------------------------
  // `ProductAddForm` (CustomerApp.jsx:250-305).

  /**
    The form state `newProduct`. Number fields hold what `parseInt` /
    `parseFloat` make of the text: None for an empty or unparseable field.
    The form has no master switch: its `isMaster` is always false.
   */
  datatype CustomerForm = CustomerForm(
    name: string, manufacturer: string, category: string,
    cost: Option<int>, price: Option<int>, stock: Option<int>, minStock: Option<int>,
    description: string, image: string, isNomihodai: bool)

  /** The initial form, and what `resetForm` restores. */
  const EmptyForm := CustomerForm("", "", Beer, None, None, None, None, "", "", false)

  /** The fields `productData` holds. */
  predicate IsPayloadField(f: Field)
  {
    match f
    case name | manufacturer | category | cost | price | stock | minStock
       | description | image | isNomihodai | isMaster | profit => true
    case _ => false
  }

  /** The value `productData` holds under a field. */
  function PayloadValue(form: CustomerForm, f: Field): Value
  {
    match f
    case name => Str(form.name)
    case manufacturer => Str(form.manufacturer)
    case category => Str(form.category)
    case description => Str(form.description)
    case image => Str(form.image)
    case isNomihodai => Bool(form.isNomihodai)
    case cost => Num(form.cost.GetOr(0))
    case price => Num(form.price.GetOr(0))
    case stock => Num(form.stock.GetOr(0))
    case minStock => Num(form.minStock.GetOr(0))
    case profit => Num(form.price.GetOr(0) - form.cost.GetOr(0))
    case _ => Bool(false)
  }

  /**
    `productData`: the form with the numbers parsed (`|| 0`), profit =
    price − cost, and not a master.
   */
  function AddPayload(form: CustomerForm): (d: Data)
    ensures Field.id !in d && addedBy !in d
    ensures image in d && d[image] == Str(form.image)
    ensures isMaster in d && d[isMaster] == Bool(false)
    ensures profit in d && d[profit] == Num(form.price.GetOr(0) - form.cost.GetOr(0))
  {
    map f | IsPayloadField(f) :: PayloadValue(form, f)
  }

  /** The payload's prices and stock levels are the parsed form fields, 0 when empty. */
  lemma AddPayloadNumbers(form: CustomerForm)
    ensures var d := AddPayload(form);
      && cost in d && d[cost] == Num(form.cost.GetOr(0)) && price in d && d[price] == Num(form.price.GetOr(0))
    ensures var d := AddPayload(form);
      && stock in d && d[stock] == Num(form.stock.GetOr(0)) && minStock in d && d[minStock] == Num(form.minStock.GetOr(0))
  {
  }

  /** What submitting the form asks for. */
  datatype Submit = Rejected | Add(payload: Data)

  /** `handleSubmit`: a blank name is rejected; otherwise the payload is added. */
  function HandleSubmit(form: CustomerForm): (r: Submit)
    ensures r.Rejected? <==> IsBlank(form.name)
    ensures r.Add? ==> r.payload == AddPayload(form)
  {
    TrimEmptyIffBlank(form.name);
    if |Trim(form.name)| == 0 then Rejected else Add(AddPayload(form))
  }

  /** A product added through the form reads back as a shop product whose profit is its price minus its cost. */
  lemma AddedReadsBack(form: CustomerForm, email: string, newId: string)
    ensures var p := View(newId, Store.Added(AddPayload(form), email));
      !p.IsMaster() && p.Profit() == p.Price() - p.Cost()
    ensures var p := View(newId, Store.Added(AddPayload(form), email));
      p.Stock() == form.stock.GetOr(0) && p.MinStock() == form.minStock.GetOr(0)
  {
    var d := AddPayload(form);
    AddPayloadNumbers(form);
    Store.AddedReadsStock(d, email, newId);
    Store.AddedReadsPrices(d, email, newId);
    Store.AddedReadsPayload(d, email, newId, isMaster);
    Store.AddedReadsPayload(d, email, newId, profit);
  }

  /**
    As written, `resetForm()` runs once `addProduct` returns, whatever it
    reports (`Store.ResetAlways`): an add the store refuses (no signed-in
    user) stores nothing and still clears what was typed.
   */
  lemma FailedAddClearsForm(docs: Store.Docs, newId: string, form: CustomerForm)
    requires newId !in docs && form != EmptyForm
    ensures var w := Store.AddProduct(None, docs, newId, AddPayload(form));
      w.outcome.Failure? && w.docs == docs && Store.ResetAlways(form, EmptyForm, w.outcome) != form
  {
  }

  /**
    With the reset evidently intended (`Store.ResetOnSuccess`), nothing typed
    is lost unless the product was stored.
   */
  lemma FailedAddKeepsForm(docs: Store.Docs, newId: string, form: CustomerForm)
    requires newId !in docs
    ensures var w := Store.AddProduct(None, docs, newId, AddPayload(form));
      Store.ResetOnSuccess(form, EmptyForm, w.outcome) == form
  {
  }

  /** With the intended reset, a stored product clears the form for the next one. */
  lemma StoredAddClearsForm(user: Store.User, docs: Store.Docs, newId: string, form: CustomerForm)
    requires newId !in docs
    ensures var w := Store.AddProduct(Some(user), docs, newId, AddPayload(form));
      newId in w.docs && Store.ResetOnSuccess(form, EmptyForm, w.outcome) == EmptyForm
  {
  }
}

=== FILE: inventory.dfy ===
/**
  The customer's inventory tab (components/customer/InventoryTab.jsx): stock
  changes, the restock amount control, the active/inactive split, the stats
  block, the search filter and the deactivate/reactivate requests.
 */
module Inventory {
  import opened Seqs
  import opened Records
  import Store

  // ---------------------------------------------------------------------------
  // Stock changes.

  /**
    `handleStockChange(productId, change)` (InventoryTab.jsx:121-132): the
    stock to write, `Math.max(0, product.stock + change)`, or None when no
    listed product has the id (the lookup throws and the error toast is shown).
   */
  function StockChange(products: seq<Product>, productId: string, change: int): (r: Option<int>)
    ensures r.None? <==> forall i :: 0 <= i < |products| ==> products[i].id != productId
    ensures r.Some? ==> r.value >= 0
    ensures r.Some? ==> exists i :: 0 <= i < |products| && products[i].id == productId
                          && r.value == NewStock(products[i].Stock(), change)
  {
    match Find(products, productId)
    case None => None
    case Some(p) => Some(NewStock(p.Stock(), change))
  }

  /** The write `handleStockChange` issues stores exactly the clamped stock it computed. */
  lemma StockChangeWrites(user: Store.User, docs: Store.Docs, products: seq<Product>, productId: string, change: int)
    requires productId in docs
    requires StockChange(products, productId, change).Some?
    ensures var n := StockChange(products, productId, change).value;
      View(productId, Store.UpdateStock(Some(user), docs, productId, n).docs[productId]).Stock() == n
  {
    Store.UpdateStockClamps(user, docs, productId, StockChange(products, productId, change).value);
  }

  // ---------------------------------------------------------------------------
  // The restock amount control (InventoryTab.jsx:18-91).

  /** Whether the +/- controls are shown, and the amount they hold. */
  datatype Restock = Restock(showControls: bool, amount: int)

  const RestockInitial := Restock(false, 10)

  datatype RestockEvent =
    | Open                      // the "再入荷" button
    | Step(change: int)         // the ➖ / ➕ buttons: `handleAmountChange(change)`
    | Typed(value: Option<int>) // `handleInputChange`: `parseInt(value)`, None when it is NaN
    | Confirm
    | Cancel

  /** The control never holds an amount below 1. */
  predicate RestockValid(s: Restock) { s.amount >= 1 }

  /** `parseInt(value) || 1`, then at least 1. */
  function TypedAmount(value: Option<int>): (n: int)
    ensures n >= 1
    ensures value.Some? && value.value >= 1 ==> n == value.value
    ensures value.None? ==> n == 1
  {
    var parsed := if value.Some? && value.value != 0 then value.value else 1;
    if parsed < 1 then 1 else parsed
  }

  /**
    One event: the new control state and the stock change it hands to
    `onRestock`, if any. While the controls are hidden only `Open` can happen;
    other events change nothing.
   */
  function RestockStep(s: Restock, e: RestockEvent): (r: (Restock, Option<int>))
    ensures RestockValid(s) ==> RestockValid(r.0)
    ensures r.1.Some? ==> e == Confirm && s.showControls && r.1.value == s.amount
    ensures s.showControls && e == Confirm ==> r == (RestockInitial, Some(s.amount))
    ensures s.showControls && e == Cancel ==> r == (RestockInitial, None)
    ensures !s.showControls ==> r.1.None? && r.0.amount == s.amount && (r.0.showControls <==> e == Open)
    ensures s.showControls && e.Step? ==>
      && r.1.None? && r.0.showControls && r.0.amount >= 1
      && (s.amount + e.change >= 1 ==> r.0.amount == s.amount + e.change)
    ensures s.showControls && e.Typed? ==> r == (Restock(true, TypedAmount(e.value)), None)
    ensures s.showControls && e == Open ==> r == (s, None)
  {
    if !s.showControls then
      (if e == Open then Restock(true, s.amount) else s, None)
    else
      match e
      case Open => (s, None)
      case Step(change) => (Restock(true, if s.amount + change < 1 then 1 else s.amount + change), None)
      case Typed(value) => (Restock(true, TypedAmount(value)), None)
      case Confirm => (RestockInitial, Some(s.amount))
      case Cancel => (RestockInitial, None)
  }

  /** Runs a sequence of events, collecting the stock changes handed on. */
  function RestockRun(s: Restock, es: seq<RestockEvent>): (r: (Restock, seq<int>))
    ensures |r.1| <= |es|
    decreases |es|
  {
    if |es| == 0 then (s, [])
    else
      var (s1, out) := RestockStep(s, es[0]);
      var (s2, outs) := RestockRun(s1, es[1..]);
      (s2, (if out.Some? then [out.value] else []) + outs)
  }

  /**
    From the initial state, whatever the user does, the amount stays at least
    1 and every restock handed on adds at least one unit.
   */
  lemma {:induction false} RestockRunValid(s: Restock, es: seq<RestockEvent>)
    requires RestockValid(s)
    ensures RestockValid(RestockRun(s, es).0)
    ensures forall i :: 0 <= i < |RestockRun(s, es).1| ==> RestockRun(s, es).1[i] >= 1
    decreases |es|
  {
    if |es| > 0 {
      var (s1, out) := RestockStep(s, es[0]);
      RestockRunValid(s1, es[1..]);
    }
  }

  /** A restock handed on to `handleStockChange` raises the stock by exactly that amount. */
  lemma RestockRaisesStock(products: seq<Product>, productId: string, s: Restock)
    requires RestockValid(s) && s.showControls
    requires forall i :: 0 <= i < |products| ==> products[i].Stock() >= 0
    requires StockChange(products, productId, RestockStep(s, Confirm).1.value).Some?
    ensures exists i :: 0 <= i < |products| && products[i].id == productId
              && StockChange(products, productId, RestockStep(s, Confirm).1.value).value
                 == products[i].Stock() + s.amount > products[i].Stock()
  {
  }

  // ---------------------------------------------------------------------------
  // Active and inactive products (InventoryTab.jsx:159-163).

  /** `activeProducts`: the products not switched off, each as often as the list holds it, in list order. */
  function ActiveProducts(products: seq<Product>): (r: seq<Product>)
    ensures IsSubseq(r, products)
    ensures forall i :: 0 <= i < |r| ==> r[i].IsActive()
    ensures forall p :: multiset(r)[p] == if p.IsActive() then multiset(products)[p] else 0
  {
    FilterIsSubseq(products, IsActiveProduct);
    FilterCount(products, IsActiveProduct);
    Filter(products, IsActiveProduct)
  }

  /** `inactiveProducts`: the products switched off, each as often as the list holds it, in list order. */
  function InactiveProducts(products: seq<Product>): (r: seq<Product>)
    ensures IsSubseq(r, products)
    ensures forall i :: 0 <= i < |r| ==> r[i].IsInactive()
    ensures forall p :: multiset(r)[p] == if p.IsInactive() then multiset(products)[p] else 0
  {
    FilterIsSubseq(products, IsInactiveProduct);
    FilterCount(products, IsInactiveProduct);
    Filter(products, IsInactiveProduct)
  }

  /** The two lists split the products: every product is in exactly one, and nothing is lost or repeated. */
  lemma ActiveInactivePartition(products: seq<Product>)
    ensures |ActiveProducts(products)| + |InactiveProducts(products)| == |products|
    ensures multiset(ActiveProducts(products)) + multiset(InactiveProducts(products)) == multiset(products)
    ensures forall p :: p in products ==> (p in ActiveProducts(products) <==> p !in InactiveProducts(products))
  {
    FilterComplement(products, IsActiveProduct, IsInactiveProduct);
  }

  /** `showInactive ? inactiveProducts : activeProducts`. */
  function DisplayProducts(products: seq<Product>, showInactive: bool): (r: seq<Product>)
    ensures forall i :: 0 <= i < |r| ==> r[i].IsInactive() == showInactive
    ensures IsSubseq(r, products)
  {
    var r := if showInactive then InactiveProducts(products) else ActiveProducts(products);
    FilterIsSubseq(products, if showInactive then IsInactiveProduct else IsActiveProduct);
    r
  }

  // ---------------------------------------------------------------------------
  // The stats block (InventoryTab.jsx:166-169).

  datatype Stats = Stats(totalValue: int, totalProfit: int, lowStockCount: nat, myAddedCount: nat)

  /**
    The four figures over the active products: stock value, profit, the
    number with `0 < stock <= minStock`, and the number that are not masters.
   */
  function InventoryStats(products: seq<Product>): (s: Stats)
    ensures s.lowStockCount == Count(ActiveProducts(products), IsLowStock)
    ensures s.myAddedCount == Count(ActiveProducts(products), IsShopAdded)
  {
    var active := ActiveProducts(products);
    FilterCount(active, IsLowStock);
    FilterCount(active, IsShopAdded);
    Stats(Sum(active, StockValue), Sum(active, StockProfit),
          |Filter(active, IsLowStock)|, |Filter(active, IsShopAdded)|)
  }

  /** An empty list shows four zeros. */
  lemma StatsEmpty()
    ensures InventoryStats([]) == Stats(0, 0, 0, 0)
  {
  }

  /** The stats read only active products: appending an inactive product changes nothing. */
  lemma StatsIgnoreInactive(products: seq<Product>, q: Product)
    requires q.IsInactive()
    ensures InventoryStats(products + [q]) == InventoryStats(products)
  {
    FilterAppend(products, [q], IsActiveProduct);
    assert Filter([q], IsActiveProduct) == [];
    assert ActiveProducts(products + [q]) == ActiveProducts(products);
  }

  /**
    Appending an active product adds its value and profit to the totals, and
    one to each count whose rule it meets. With `StatsEmpty` and
    `StatsIgnoreInactive` this fixes all four figures of every list.
   */
  lemma StatsCountActive(products: seq<Product>, q: Product)
    requires q.IsActive()
    ensures InventoryStats(products + [q]).totalValue == InventoryStats(products).totalValue + StockValue(q)
    ensures InventoryStats(products + [q]).totalProfit == InventoryStats(products).totalProfit + StockProfit(q)
    ensures InventoryStats(products + [q]).lowStockCount == InventoryStats(products).lowStockCount + (if IsLowStock(q) then 1 else 0)
    ensures InventoryStats(products + [q]).myAddedCount == InventoryStats(products).myAddedCount + (if q.IsMaster() then 0 else 1)
  {
    FilterAppend(products, [q], IsActiveProduct);
    assert Filter([q], IsActiveProduct) == [q];
    var active := ActiveProducts(products);
    assert ActiveProducts(products + [q]) == active + [q];
    SumAppend(active, [q], StockValue);
    SumAppend(active, [q], StockProfit);
    CountAppend(active, [q], IsLowStock);
    CountAppend(active, [q], IsShopAdded);
  }

  // ---------------------------------------------------------------------------
  // The search filter (InventoryTab.jsx:172-178).

  function FilteredProducts(displayed: seq<Product>, searchTerm: string, filterCategory: string): (r: seq<Product>)
    ensures IsSubseq(r, displayed)
    ensures forall i :: 0 <= i < |r| ==> MatchesSearch(r[i], searchTerm, filterCategory)
    ensures forall i :: 0 <= i < |displayed| && MatchesSearch(displayed[i], searchTerm, filterCategory) ==>
              displayed[i] in r
    ensures forall p :: multiset(r)[p] == if MatchesSearch(p, searchTerm, filterCategory) then multiset(displayed)[p] else 0
  {
    var f := (p: Product) => MatchesSearch(p, searchTerm, filterCategory);
    FilterIsSubseq(displayed, f);
    FilterCount(displayed, f);
    Filter(displayed, f)
  }

  /** The initial filter (empty search, 'all') shows the displayed list unchanged. */
  lemma NoFilterShowsAll(displayed: seq<Product>)
    ensures FilteredProducts(displayed, "", "all") == displayed
  {
    forall p | p in displayed
      ensures MatchesSearch(p, "", "all")
    {
      EmptySearchMatchesAll(p);
    }
    FilterAll(displayed, (p: Product) => MatchesSearch(p, "", "all"));
  }

  // ---------------------------------------------------------------------------
  // Deactivate and reactivate (InventoryTab.jsx:134-156).

  /** `handleDeactivate`: `updateProduct(id, { isActive: false })` once the user confirms. */
  function Deactivate(productId: string, confirmed: bool): (r: Store.Request)
    ensures !confirmed <==> r == Store.NoRequest
    ensures r.UpdateDoc? ==> r.docId == productId && r.patch.Keys == {isActive} && r.patch[isActive] == Bool(false)
  {
    if confirmed then Store.UpdateDoc(productId, map[isActive := Bool(false)]) else Store.NoRequest
  }

  /** `handleReactivate`: `updateProduct(id, { isActive: true })` once the user confirms. */
  function Reactivate(productId: string, confirmed: bool): (r: Store.Request)
    ensures !confirmed <==> r == Store.NoRequest
    ensures r.UpdateDoc? ==> r.docId == productId && r.patch.Keys == {isActive} && r.patch[isActive] == Bool(true)
  {
    if confirmed then Store.UpdateDoc(productId, map[isActive := Bool(true)]) else Store.NoRequest
  }

  /** A confirmed deactivation moves the product to the inactive list and touches no other field. */
  lemma DeactivateHides(user: Store.User, docs: Store.Docs, productId: string)
    requires productId in docs
    ensures var d' := Store.Perform(Some(user), docs, Deactivate(productId, true))[productId];
      && View(productId, d').IsInactive()
      && forall f :: f != isActive && f != updatedAt ==>
           (f in d' <==> f in docs[productId]) && (f in d' ==> d'[f] == docs[productId][f])
  {
  }

  /**
    Deactivating and then reactivating a product leaves it active, with every
    field other than the flag and the update stamp as it was.
   */
  lemma DeactivateThenReactivate(user: Store.User, docs: Store.Docs, productId: string)
    requires productId in docs
    ensures var d' := Store.Perform(Some(user), Store.Perform(Some(user), docs, Deactivate(productId, true)), Reactivate(productId, true))[productId];
      && View(productId, d').IsActive()
      && forall f :: f != isActive && f != updatedAt ==>
           (f in d' <==> f in docs[productId]) && (f in d' ==> d'[f] == docs[productId][f])
  {
    var once := Store.Perform(Some(user), docs, Deactivate(productId, true));
    assert productId in once;
  }
}

=== FILE: legacy.dfy ===
/**
  The older customer view (components/CustomerApp.jsx): the add/edit form,
  the edit and delete guards for master products, and the stats block, which
  here is computed over the filtered list. Its stock change follows
  `Inventory.StockChange` and its filter `Inventory.FilteredProducts`.
 */
module LegacyCustomer {
  import opened Seqs
  import opened Text
  import opened Records
  import Store
  import Inventory
  import CustomerView

  /**
    The form state `newProduct`. Number fields hold what `parseInt` /
    `parseFloat` make of the text: None for an empty or unparseable field.
   */
  datatype LegacyForm = LegacyForm(
    name: string, manufacturer: string, category: string,
    cost: Option<int>, price: Option<int>, stock: Option<int>, minStock: Option<int>,
    description: string, isNomihodai: bool)

  /** The initial form, and what `resetForm` restores (CustomerApp.jsx:25-51). */
  const EmptyForm := LegacyForm("", "", Beer, None, None, None, None, "", false)

  /** The fields `productData` holds. */
  predicate IsPayloadField(f: Field)
  {
    match f
    case name | manufacturer | category | cost | price | stock | minStock
       | description | isNomihodai | isMaster | profit => true
    case _ => false
  }

  /** The value `productData` holds under a field. */
  function PayloadValue(form: LegacyForm, f: Field): Value
  {
    match f
    case name => Str(form.name)
    case manufacturer => Str(form.manufacturer)
    case category => Str(form.category)
    case description => Str(form.description)
    case isNomihodai => Bool(form.isNomihodai)
    case cost => Num(form.cost.GetOr(0))
    case price => Num(form.price.GetOr(0))
    case stock => Num(form.stock.GetOr(0))
    case minStock => Num(form.minStock.GetOr(0))
    case profit => Num(form.price.GetOr(0) - form.cost.GetOr(0))
    case _ => Bool(false)
  }

  /**
    `productData` (CustomerApp.jsx:62-73): the form with the numbers parsed
    (`|| 0`), profit = price − cost, and `isMaster: false` forced.
   */
  function Payload(form: LegacyForm): (d: Data)
    ensures Field.id !in d && addedBy !in d && image !in d
    ensures isMaster in d && d[isMaster] == Bool(false)
    ensures profit in d && d[profit] == Num(form.price.GetOr(0) - form.cost.GetOr(0))
  {
    map f | IsPayloadField(f) :: PayloadValue(form, f)
  }

  /** The payload's prices and stock levels are the parsed form fields, 0 when empty. */
  lemma PayloadNumbers(form: LegacyForm)
    ensures var d := Payload(form);
      && cost in d && d[cost] == Num(form.cost.GetOr(0)) && price in d && d[price] == Num(form.price.GetOr(0))
    ensures var d := Payload(form);
      && stock in d && d[stock] == Num(form.stock.GetOr(0)) && minStock in d && d[minStock] == Num(form.minStock.GetOr(0))
  {
  }

  /** The payload carries the form's name. */
  lemma PayloadName(form: LegacyForm)
    ensures name in Payload(form) && Payload(form)[name] == Str(form.name)
  {
  }

  /** What submitting the form asks for. */
  datatype Submit = Rejected | AddShop(payload: Data) | UpdateShop(docId: string, payload: Data)

  /**
    `handleSubmit` (CustomerApp.jsx:53-88): a blank name is rejected;
    otherwise the payload is added, or written over the product being edited.
   */
  function HandleSubmit(form: LegacyForm, editing: Option<string>): (r: Submit)
    ensures r.Rejected? <==> IsBlank(form.name)
    ensures r.AddShop? <==> !IsBlank(form.name) && editing.None?
    ensures r.UpdateShop? ==> editing == Some(r.docId)
    ensures !r.Rejected? ==> r.payload == Payload(form)
  {
    TrimEmptyIffBlank(form.name);
    if |Trim(form.name)| == 0 then Rejected
    else if editing.None? then AddShop(Payload(form))
    else UpdateShop(editing.value, Payload(form))
  }

  /**
    `handleEdit(product)` (CustomerApp.jsx:104-123): a master is refused;
    otherwise the form is filled from the product.
   */
  function HandleEdit(p: Product): (r: Option<LegacyForm>)
    ensures r.None? <==> p.IsMaster()
    ensures r.Some? ==> r.value.name == p.Name() && r.value.stock == Some(p.Stock()) && r.value.minStock == Some(p.MinStock())
    ensures r.Some? ==> r.value.cost == Some(p.Cost()) && r.value.price == Some(p.Price())
  {
    if p.IsMaster() then None
    else Some(LegacyForm(
      p.Name(), p.Manufacturer(), p.Category(),
      Some(p.Cost()), Some(p.Price()), Some(p.Stock()), Some(p.MinStock()),
      p.TextOf(description), p.IsNomihodai()))
  }

  /**
    Saving an edited shop product unchanged keeps its name, prices and stock
    levels, and it stays a shop product.
   */
  lemma EditThenSave(user: Store.User, docs: Store.Docs, docId: string)
    requires docId in docs
    requires !View(docId, docs[docId]).IsMaster() && !IsBlank(View(docId, docs[docId]).Name())
    ensures var p := View(docId, docs[docId]);
      var r := HandleSubmit(HandleEdit(p).value, Some(docId));
      var q := View(docId, Store.UpdateProduct(Some(user), docs, docId, r.payload).docs[docId]);
      q.Name() == p.Name() && q.Stock() == p.Stock() && q.MinStock() == p.MinStock() && !q.IsMaster()
    ensures var p := View(docId, docs[docId]);
      var r := HandleSubmit(HandleEdit(p).value, Some(docId));
      var q := View(docId, Store.UpdateProduct(Some(user), docs, docId, r.payload).docs[docId]);
      q.Cost() == p.Cost() && q.Price() == p.Price()
  {
    var p := View(docId, docs[docId]);
    var form := HandleEdit(p).value;
    TrimEmptyIffBlank(form.name);
    var payload := Payload(form);
    PayloadNumbers(form);
    PayloadName(form);
    var d' := Store.Patched(docs[docId], payload);
    assert Store.UpdateProduct(Some(user), docs, docId, payload).docs[docId] == d';
    assert d'[name] == Str(p.Name()) && d'[isMaster] == Bool(false);
    assert d'[stock] == Num(p.Stock()) && d'[minStock] == Num(p.MinStock());
    assert d'[cost] == Num(p.Cost()) && d'[price] == Num(p.Price());
  }

  /**
    `handleDelete(productId)` (CustomerApp.jsx:125-144): the product is looked
    up by id; a master is refused, and otherwise it is deleted once the user
    confirms. An id not in the list asks for nothing.
   */
  function HandleDelete(products: seq<Product>, productId: string, confirmed: bool): (r: Store.Request)
    ensures r == Store.DeleteDoc(productId) <==>
              confirmed && Find(products, productId).Some? && !Find(products, productId).value.IsMaster()
    ensures r != Store.DeleteDoc(productId) ==> r == Store.NoRequest
  {
    match Find(products, productId)
    case None => Store.NoRequest
    case Some(p) => CustomerView.HandleDelete(productId, p.IsMaster(), confirmed)
  }

  /** When every listed product with the id is a master, nothing is deleted. */
  lemma MasterNeverDeleted(user: Option<Store.User>, docs: Store.Docs, products: seq<Product>, productId: string, confirmed: bool)
    requires forall i :: 0 <= i < |products| && products[i].id == productId ==> products[i].IsMaster()
    ensures Store.Perform(user, docs, HandleDelete(products, productId, confirmed)) == docs
  {
  }

  /**
    As written, `resetForm()` runs once the write returns, whatever it reports
    (`Store.ResetAlways`): an update the store refuses (the document is gone)
    leaves the collection as it was and still clears the form.
   */
  lemma FailedUpdateClearsForm(user: Store.User, docs: Store.Docs, docId: string, form: LegacyForm)
    requires docId !in docs && form != EmptyForm
    ensures var w := Store.UpdateProduct(Some(user), docs, docId, Payload(form));
      w.outcome.Failure? && w.docs == docs && Store.ResetAlways(form, EmptyForm, w.outcome) != form
  {
  }

  /** With the reset evidently intended (`Store.ResetOnSuccess`), a refused update keeps what was typed. */
  lemma FailedUpdateKeepsForm(user: Store.User, docs: Store.Docs, docId: string, form: LegacyForm)
    requires docId !in docs
    ensures Store.ResetOnSuccess(form, EmptyForm, Store.UpdateProduct(Some(user), docs, docId, Payload(form)).outcome) == form
  {
  }

  /** With the intended reset, an update the store applies clears the form. */
  lemma AppliedUpdateClearsForm(user: Store.User, docs: Store.Docs, docId: string, form: LegacyForm)
    requires docId in docs
    ensures var w := Store.UpdateProduct(Some(user), docs, docId, Payload(form));
      w.docs[docId] == Store.Patched(docs[docId], Payload(form)) && Store.ResetOnSuccess(form, EmptyForm, w.outcome) == EmptyForm
  {
  }

  // ---------------------------------------------------------------------------
  // The stats block (CustomerApp.jsx:146-159).

  /** The four figures over the filtered list: what is shown changes with the search. */
  function LegacyStats(products: seq<Product>, searchTerm: string, filterCategory: string): (s: Inventory.Stats)
    ensures var shown := Inventory.FilteredProducts(products, searchTerm, filterCategory);
      s.totalValue == Sum(shown, StockValue) && s.totalProfit == Sum(shown, StockProfit)
    ensures var shown := Inventory.FilteredProducts(products, searchTerm, filterCategory);
      s.lowStockCount == Count(shown, IsLowStock) && s.myAddedCount == Count(shown, IsShopAdded)
    ensures s.lowStockCount <= |products| && s.myAddedCount <= |products|
  {
    var shown := Inventory.FilteredProducts(products, searchTerm, filterCategory);
    FilterCount(shown, IsLowStock);
    FilterCount(shown, IsShopAdded);
    FilterIsSubseq(products, (p: Product) => MatchesSearch(p, searchTerm, filterCategory));
    Inventory.Stats(Sum(shown, StockValue), Sum(shown, StockProfit),
                    |Filter(shown, IsLowStock)|, |Filter(shown, IsShopAdded)|)
  }

  /** With an empty search and 'all', the stats are the customer view's stats over every product. */
  lemma UnfilteredStatsMatch(products: seq<Product>)
    ensures LegacyStats(products, "", "all") == CustomerView.CustomerStats(products)
  {
    Inventory.NoFilterShowsAll(products);
    CustomerView.ListedKeepsAll(products);
  }

  /** The shown low-stock count never exceeds the low-stock count over the whole list. */
  lemma FilteredLowStockBound(products: seq<Product>, searchTerm: string, filterCategory: string)
    ensures LegacyStats(products, searchTerm, filterCategory).lowStockCount <= CustomerView.CustomerStats(products).lowStockCount
  {
    var f := (p: Product) => MatchesSearch(p, searchTerm, filterCategory);
    var both := (p: Product) => f(p) && IsLowStock(p);
    FilterFilter(products, f, IsLowStock, both);
    FilterMono(products, both, IsLowStock);
    CustomerView.ListedKeepsAll(products);
  }
}

=== FILE: monthly.dfy ===
/**
  The month-end inventory report and the stock-taking session
  (components/customer/MonthlyInventory.jsx).

  The report is computed over the active products only. Its category
  breakdown is the object the component fills with `forEach`, modelled as a
  list of (key, totals) pairs in the order the keys were first met. The
  stock-taking session maps each active product id to its counted entry.
 */
module Monthly {
  import opened Seqs
  import opened Records

  // ---------------------------------------------------------------------------
  // Totals per category.

  /** Item count, units, cost value and potential profit of a group of products. */
  datatype Rollup = Rollup(items: int, stock: int, value: int, profit: int)

  const Zero := Rollup(0, 0, 0, 0)

  function Plus(a: Rollup, b: Rollup): Rollup
  {
    Rollup(a.items + b.items, a.stock + b.stock, a.value + b.value, a.profit + b.profit)
  }

  /** `p.stock || 0`. */
  function StockOf(p: Product): int { p.Stock() }

  /** What one product adds to the totals of its group. */
  function Contribution(p: Product): Rollup
  {
    Rollup(1, p.Stock(), StockValue(p), StockProfit(p))
  }

  /** The category breakdown: (key, totals) pairs in first-appearance order. */
  type Analysis = seq<(string, Rollup)>

  predicate UniqueKeys(a: Analysis)
  {
    forall i, j :: 0 <= i < j < |a| ==> a[i].0 != a[j].0
  }

  predicate HasKey(a: Analysis, k: string)
  {
    exists i :: 0 <= i < |a| && a[i].0 == k
  }

  /** Reference definition: the totals of the products filed under `k`. */
  function RollupOf(ps: seq<Product>, k: string): Rollup
  {
    if |ps| == 0 then Zero
    else
      var last := ps[|ps| - 1];
      Plus(RollupOf(ps[..|ps| - 1], k), if CategoryKey(last) == k then Contribution(last) else Zero)
  }

  /** Reference definition: the totals of all products. */
  function Totals(ps: seq<Product>): Rollup
  {
    if |ps| == 0 then Zero else Plus(Totals(ps[..|ps| - 1]), Contribution(ps[|ps| - 1]))
  }

  /** Component-wise sum of the rows of a breakdown. */
  function Total(a: Analysis): Rollup
  {
    if |a| == 0 then Zero else Plus(a[0].1, Total(a[1..]))
  }

  /** One `forEach` step: create the product's row on first sight, then add the product to it. */
  function AddTo(a: Analysis, p: Product): (r: Analysis)
    requires UniqueKeys(a)
    ensures UniqueKeys(r)
    ensures HasKey(a, CategoryKey(p)) ==> |r| == |a|
    ensures !HasKey(a, CategoryKey(p)) ==> |r| == |a| + 1 && r[|a|] == (CategoryKey(p), Contribution(p))
    ensures forall i :: 0 <= i < |a| ==> r[i].0 == a[i].0
    ensures forall i :: 0 <= i < |a| ==>
              r[i].1 == if a[i].0 == CategoryKey(p) then Plus(a[i].1, Contribution(p)) else a[i].1
  {
    var k := CategoryKey(p);
    var i := FirstIndex(a, (e: (string, Rollup)) => e.0 == k);
    if i == -1 then a + [(k, Contribution(p))]
    else a[i := (k, Plus(a[i].1, Contribution(p)))]
  }

  /** `categoryAnalysis` as built by the `forEach` over the products (MonthlyInventory.jsx:26-41). */
  function CategoryAnalysis(ps: seq<Product>): (a: Analysis)
    ensures UniqueKeys(a)
    ensures |a| <= |ps|
  {
    if |ps| == 0 then [] else AddTo(CategoryAnalysis(ps[..|ps| - 1]), ps[|ps| - 1])
  }

  lemma {:induction false} TotalAppend(a: Analysis, e: (string, Rollup))
    ensures Total(a + [e]) == Plus(Total(a), e.1)
  {
    if |a| > 0 {
      TotalAppend(a[1..], e);
      assert (a + [e])[1..] == a[1..] + [e];
    }
  }

  lemma {:induction false} TotalBump(a: Analysis, i: nat, c: Rollup)
    requires i < |a|
    ensures Total(a[i := (a[i].0, Plus(a[i].1, c))]) == Plus(Total(a), c)
  {
    if i > 0 {
      TotalBump(a[1..], i - 1, c);
      assert a[i := (a[i].0, Plus(a[i].1, c))][1..] == a[1..][i - 1 := (a[i].0, Plus(a[i].1, c))];
    }
  }

  /** Adding a product to the breakdown adds its contribution to the grand total. */
  lemma AddToTotal(a: Analysis, p: Product)
    requires UniqueKeys(a)
    ensures Total(AddTo(a, p)) == Plus(Total(a), Contribution(p))
  {
    var k := CategoryKey(p);
    var r := AddTo(a, p);
    if HasKey(a, k) {
      var i :| 0 <= i < |a| && a[i].0 == k;
      assert r == a[i := (a[i].0, Plus(a[i].1, Contribution(p)))];
      TotalBump(a, i, Contribution(p));
    } else {
      assert r == a + [(k, Contribution(p))];
      TotalAppend(a, (k, Contribution(p)));
    }
  }

  /** The rows of the breakdown add up to the totals over all the products. */
  lemma {:induction false} AnalysisTotal(ps: seq<Product>)
    ensures Total(CategoryAnalysis(ps)) == Totals(ps)
  {
    if |ps| > 0 {
      AnalysisTotal(ps[..|ps| - 1]);
      AddToTotal(CategoryAnalysis(ps[..|ps| - 1]), ps[|ps| - 1]);
    }
  }

  /** A key no product is filed under has empty totals. */
  lemma {:induction false} RollupOfAbsent(ps: seq<Product>, k: string)
    requires forall j :: 0 <= j < |ps| ==> CategoryKey(ps[j]) != k
    ensures RollupOf(ps, k) == Zero
  {
    if |ps| > 0 {
      RollupOfAbsent(ps[..|ps| - 1], k);
    }
  }

  /** The keys the products are filed under. */
  function FiledKeys(ps: seq<Product>): (ks: set<string>)
    ensures forall j :: 0 <= j < |ps| ==> CategoryKey(ps[j]) in ks
    ensures forall k :: k in ks ==> exists j :: 0 <= j < |ps| && CategoryKey(ps[j]) == k
  {
    if |ps| == 0 then {}
    else
      var init := ps[..|ps| - 1];
      var ks := FiledKeys(init);
      assert forall k :: k in ks ==> exists j :: 0 <= j < |init| && CategoryKey(ps[j]) == k by {
        forall k | k in ks
          ensures exists j :: 0 <= j < |init| && CategoryKey(ps[j]) == k
        {
          var j :| 0 <= j < |init| && CategoryKey(init[j]) == k;
          assert init[j] == ps[j];
        }
      }
      ks + {CategoryKey(ps[|ps| - 1])}
  }

  /** The breakdown has a row exactly for the keys some product is filed under. */
  lemma {:induction false} AnalysisKeys(ps: seq<Product>, k: string)
    ensures HasKey(CategoryAnalysis(ps), k) <==> k in FiledKeys(ps)
  {
    if |ps| > 0 {
      var init := ps[..|ps| - 1];
      var p := ps[|ps| - 1];
      AnalysisKeys(init, k);
      var a := CategoryAnalysis(init);
      var r := CategoryAnalysis(ps);
      assert r == AddTo(a, p);
      assert FiledKeys(ps) == FiledKeys(init) + {CategoryKey(p)};
      if HasKey(r, k) {
        var i :| 0 <= i < |r| && r[i].0 == k;
        if i < |a| {
          assert HasKey(a, k);
        }
      }
      if k in FiledKeys(init) {
        var i :| 0 <= i < |a| && a[i].0 == k;
        assert r[i].0 == k;
      } else if k == CategoryKey(p) && !HasKey(a, k) {
        assert r[|a|].0 == k;
      }
    }
  }

  /** Each row holds exactly the totals of the products filed under its key. */
  lemma {:induction false} AnalysisRows(ps: seq<Product>)
    ensures forall i :: 0 <= i < |CategoryAnalysis(ps)| ==>
              CategoryAnalysis(ps)[i].1 == RollupOf(ps, CategoryAnalysis(ps)[i].0)
  {
    if |ps| > 0 {
      var init := ps[..|ps| - 1];
      var p := ps[|ps| - 1];
      AnalysisRows(init);
      var a := CategoryAnalysis(init);
      var r := CategoryAnalysis(ps);
      assert r == AddTo(a, p);
      forall i | 0 <= i < |r|
        ensures r[i].1 == RollupOf(ps, r[i].0)
      {
        var k := r[i].0;
        var c := if CategoryKey(p) == k then Contribution(p) else Zero;
        assert RollupOf(ps, k) == Plus(RollupOf(init, k), c);
        if i == |a| {
          assert !HasKey(a, CategoryKey(p)) && k == CategoryKey(p);
          AnalysisKeys(init, k);
          RollupOfAbsent(init, k);
        } else {
          assert r[i].0 == a[i].0 && a[i].1 == RollupOf(init, k);
          assert r[i].1 == Plus(a[i].1, c);
        }
      }
    }
  }

  // ---------------------------------------------------------------------------
  // The report.

  /** `(p.stock || 0) === 0`. */
  predicate IsZeroStock(p: Product) { p.Stock() == 0 }

  /** `(p.stock || 0) > (p.minStock || 0) * 3`: more than three times the minimum. */
  predicate IsOverStock(p: Product) { p.Stock() > p.MinStock() * 3 }

  /** In stock, with a cost, and never updated since it was created. */
  predicate IsDeadStock(p: Product) { p.Stock() > 0 && p.Cost() > 0 && p.NeverUpdated() }

  /** Neither out of stock, low nor over-stocked: the report's "appropriate" class. */
  predicate IsAppropriate(p: Product) { !IsZeroStock(p) && !IsLowStock(p) && !IsOverStock(p) }

  datatype StockAnalysis = StockAnalysis(zeroStock: nat, lowStock: nat, overStock: nat, deadStock: nat)

  datatype Report = Report(
    totalItems: nat,
    totalStock: int,
    totalValue: int,
    totalPotentialProfit: int,
    categoryAnalysis: Analysis,
    stockAnalysis: StockAnalysis,
    products: seq<Product>)

  /**
    `calculateMonthlyInventory()` (MonthlyInventory.jsx:14-71): no report for a
    missing or empty product list; otherwise the totals, breakdown and stock
    classes of the active products.
   */
  function CalculateMonthlyInventory(products: Option<seq<Product>>): (r: Option<Report>)
    ensures r.None? <==> products.None? || |products.value| == 0
    ensures r.Some? ==> r.value.totalItems == |r.value.products| <= |products.value|
    ensures r.Some? ==> forall i :: 0 <= i < |r.value.products| ==> r.value.products[i].IsActive()
    ensures r.Some? ==> forall i :: 0 <= i < |products.value| && products.value[i].IsActive() ==>
              products.value[i] in r.value.products
  {
    if products.None? || |products.value| == 0 then None
    else
      var active := Filter(products.value, IsActiveProduct);
      Some(Report(
        |active|,
        Sum(active, StockOf),
        Sum(active, StockValue),
        Sum(active, StockProfit),
        CategoryAnalysis(active),
        StockAnalysis(
          |Filter(active, IsZeroStock)|,
          |Filter(active, IsLowStock)|,
          |Filter(active, IsOverStock)|,
          |Filter(active, IsDeadStock)|),
        active))
  }

  /** The grand totals of a report are `Totals` of its products. */
  lemma {:induction false} TotalsAreSums(ps: seq<Product>)
    ensures Totals(ps) == Rollup(|ps|, Sum(ps, StockOf), Sum(ps, StockValue), Sum(ps, StockProfit))
  {
    if |ps| > 0 {
      var init := ps[..|ps| - 1];
      var last := [ps[|ps| - 1]];
      TotalsAreSums(init);
      assert ps == init + last;
      SumAppend(init, last, StockOf);
      SumAppend(init, last, StockValue);
      SumAppend(init, last, StockProfit);
    }
  }

  /** The category rows of a report add up to its item count, units, value and profit. */
  lemma ReportCategoriesAddUp(products: seq<Product>)
    requires |products| > 0
    ensures var r := CalculateMonthlyInventory(Some(products)).value;
      Total(r.categoryAnalysis) == Rollup(r.totalItems, r.totalStock, r.totalValue, r.totalPotentialProfit)
  {
    var active := Filter(products, IsActiveProduct);
    AnalysisTotal(active);
    TotalsAreSums(active);
  }

  /** A list of only inactive products still gives a report, with everything zero. */
  lemma AllInactiveReport(products: seq<Product>)
    requires |products| > 0
    requires forall i :: 0 <= i < |products| ==> !products[i].IsActive()
    ensures var r := CalculateMonthlyInventory(Some(products)).value;
      r.totalItems == 0 && r.totalValue == 0 && r.categoryAnalysis == []
  {
    FilterNone(products, IsActiveProduct);
  }

  /**
    When no minimum stock is negative, the classes out-of-stock, low and over
    are disjoint, so the "appropriate" figure the component shows
    (`totalItems - zeroStock - lowStock - overStock`) is the number of
    products in none of them.
   */
  lemma AppropriateCount(products: seq<Product>)
    requires |products| > 0
    requires forall i :: 0 <= i < |products| ==> products[i].MinStock() >= 0
    ensures var r := CalculateMonthlyInventory(Some(products)).value;
      r.totalItems - r.stockAnalysis.zeroStock - r.stockAnalysis.lowStock - r.stockAnalysis.overStock
        == |Filter(r.products, IsAppropriate)|
  {
    var active := Filter(products, IsActiveProduct);
    forall p | p in active
      ensures p.MinStock() >= 0
    {
      var i :| 0 <= i < |products| && products[i] == p;
    }
    var zeroOrLow := (p: Product) => IsZeroStock(p) || IsLowStock(p);
    var flagged := (p: Product) => zeroOrLow(p) || IsOverStock(p);
    FilterDisjoint(active, IsZeroStock, IsLowStock, zeroOrLow);
    FilterDisjointOn(active, zeroOrLow, IsOverStock, flagged);
    FilterComplement(active, flagged, IsAppropriate);
  }

  /** Two predicates disjoint on the elements of `s` count separately under their disjunction. */
  lemma {:induction false} FilterDisjointOn(s: seq<Product>, f: Product -> bool, g: Product -> bool, h: Product -> bool)
    requires forall x :: h(x) == (f(x) || g(x))
    requires forall i :: 0 <= i < |s| ==> !(f(s[i]) && g(s[i]))
    ensures |Filter(s, h)| == |Filter(s, f)| + |Filter(s, g)|
  {
    if |s| > 0 {
      FilterDisjointOn(s[1..], f, g, h);
    }
  }

  // ---------------------------------------------------------------------------
  // Display order and the largest category.

  function NegValue(e: (string, Rollup)): int { -e.1.value }

  /** The breakdown as displayed: by value, largest first; equal values keep their order. */
  function ByValue(a: Analysis): (r: Analysis)
    ensures multiset(r) == multiset(a)
    ensures forall i, j :: 0 <= i < j < |r| ==> r[i].1.value >= r[j].1.value
  {
    var r := SortBy(a, NegValue);
    assert SortedBy(r, NegValue);
    r
  }

  /** Every row before position `m` has a value below `v`. */
  predicate ValuesBelow(a: Analysis, m: int, v: int)
  {
    forall i :: 0 <= i < m && i < |a| ==> a[i].1.value < v
  }

  /**
    The summary's "largest category": the first displayed row, if any
    (MonthlyInventory.jsx:352-356). As the sort is stable, among rows of equal
    value it is the one listed first.
   */
  function LargestCategory(a: Analysis): (r: Option<(string, Rollup)>)
    ensures r.None? <==> |a| == 0
    ensures r.Some? ==> r.value in a
    ensures r.Some? ==> forall i :: 0 <= i < |a| ==> a[i].1.value <= r.value.1.value
    ensures r.Some? ==> exists m :: 0 <= m < |a| && a[m] == r.value && ValuesBelow(a, m, r.value.1.value)
  {
    if |a| == 0 then None
    else
      var s := ByValue(a);
      PermutationSameElements(s, a);
      assert forall i :: 0 <= i < |a| ==> a[i] in s;
      SortByHead(a, NegValue);
      var m :| 0 <= m < |a| && s[0] == a[m] && KeysAbove(a, m, NegValue(a[m]), NegValue);
      assert ValuesBelow(a, m, s[0].1.value);
      Some(s[0])
  }

  // ---------------------------------------------------------------------------
  // Stock-taking.

  /** One product's line of the stock-taking sheet. */
  datatype Entry = Entry(systemStock: int, actualStock: int, difference: int, checked: bool)

  type Session = map<string, Entry>

  /** The entry a product starts with: actual equals system, no difference, not yet counted. */
  function Fresh(p: Product): Entry
  {
    Entry(p.Stock(), p.Stock(), 0, false)
  }

  /** Index of the last product with this id, -1 when there is none. */
  function LastIndex(ps: seq<Product>, id: string): (r: int)
    ensures -1 <= r < |ps|
    ensures r >= 0 ==> ps[r].id == id && forall j :: r < j < |ps| ==> ps[j].id != id
    ensures r == -1 ==> forall j :: 0 <= j < |ps| ==> ps[j].id != id
  {
    if |ps| == 0 then -1
    else if ps[|ps| - 1].id == id then |ps| - 1
    else LastIndex(ps[..|ps| - 1], id)
  }

  /** The sheet the `forEach` builds: one fresh entry per product id, later products overwriting earlier ones. */
  function Sheet(ps: seq<Product>): Session
  {
    if |ps| == 0 then map[] else Sheet(ps[..|ps| - 1])[ps[|ps| - 1].id := Fresh(ps[|ps| - 1])]
  }

  /** An id has an entry exactly when some product has it, and the entry is the fresh entry of the last such product. */
  lemma {:induction false} SheetEntries(ps: seq<Product>, id: string)
    ensures id in Sheet(ps) <==> LastIndex(ps, id) >= 0
    ensures id in Sheet(ps) ==> Sheet(ps)[id] == Fresh(ps[LastIndex(ps, id)])
  {
    if |ps| > 0 && ps[|ps| - 1].id != id {
      var init := ps[..|ps| - 1];
      SheetEntries(init, id);
      if LastIndex(init, id) >= 0 {
        assert init[LastIndex(init, id)] == ps[LastIndex(init, id)];
      }
    }
  }

  /** `startStockTaking()` (MonthlyInventory.jsx:74-88): a sheet over the active products. */
  function StartStockTaking(products: seq<Product>): (s: Session)
    ensures forall id :: id in s <==> exists i :: 0 <= i < |products| && products[i].IsActive() && products[i].id == id
  {
    var active := Filter(products, IsActiveProduct);
    SheetKeys(active);
    assert forall i :: 0 <= i < |active| ==> active[i] in products && active[i].IsActive();
    Sheet(active)
  }

  /** The sheet has an entry for exactly the ids of the products it was built from. */
  lemma SheetKeys(ps: seq<Product>)
    ensures forall id :: id in Sheet(ps) <==> exists i :: 0 <= i < |ps| && ps[i].id == id
  {
    forall id
      ensures id in Sheet(ps) <==> exists i :: 0 <= i < |ps| && ps[i].id == id
    {
      SheetEntries(ps, id);
      if LastIndex(ps, id) >= 0 {
        assert ps[LastIndex(ps, id)].id == id;
      }
    }
  }

  /**
    A sheet is consistent when every difference is the actual count minus the
    system stock, and an entry not yet counted still shows the system stock.
   */
  predicate Consistent(s: Session)
  {
    forall id :: id in s ==>
      && s[id].difference == s[id].actualStock - s[id].systemStock
      && (!s[id].checked ==> s[id].actualStock == s[id].systemStock)
  }

  /**
    `updateActualStock(productId, value)` (MonthlyInventory.jsx:91-105). The
    input is the number field's value: `None` for an empty field, which
    `Number` and `parseInt(...) || 0` both read as 0. The component only
    calls it for products on the sheet.
   */
  function UpdateActualStock(s: Session, productId: string, value: Option<int>): (s': Session)
    requires productId in s
    ensures s'.Keys == s.Keys
    ensures forall id :: id in s && id != productId ==> s'[id] == s[id]
    ensures s'[productId].systemStock == s[productId].systemStock
    ensures s'[productId].actualStock == value.GetOr(0)
    ensures s'[productId].checked
    ensures Consistent(s) ==> Consistent(s')
  {
    var e := s[productId];
    var actual := value.GetOr(0);
    s[productId := Entry(e.systemStock, actual, actual - e.systemStock, true)]
  }

  /** What `completeStockTaking()` reports (MonthlyInventory.jsx:108-118). */
  datatype Completion = NoDifferences | Differences(count: nat)

  /**
    The products whose entry shows a difference. The sheet holds one entry per
    product id, so `Object.values(...).filter(item => item.difference !== 0)`
    has one element per member of this set.
   */
  function Discrepant(s: Session): set<string>
  {
    set id | id in s && s[id].difference != 0
  }

  function Counted(s: Session): set<string>
  {
    set id | id in s && s[id].checked
  }

  lemma DiscrepantEmpty(s: Session)
    ensures Discrepant(s) == {} <==> forall id :: id in s ==> s[id].difference == 0
  {
    if !(forall id :: id in s ==> s[id].difference == 0) {
      var id :| id in s && s[id].difference != 0;
      assert id in Discrepant(s);
    }
  }

  /** The report: no differences, or the number of products whose entry differs. */
  function CompleteStockTaking(s: Session): (c: Completion)
    ensures c.NoDifferences? <==> forall id :: id in s ==> s[id].difference == 0
    ensures c.Differences? ==> c.count == |Discrepant(s)| && 0 < c.count <= |s|
  {
    var d := Discrepant(s);
    SubsetCard(d, s.Keys);
    DiscrepantEmpty(s);
    if |d| == 0 then NoDifferences
    else
      assert d != {};
      Differences(|d|)
  }

  /** A freshly started sheet is consistent, so completing it at once reports no differences. */
  lemma StartThenComplete(products: seq<Product>)
    ensures Consistent(StartStockTaking(products))
    ensures CompleteStockTaking(StartStockTaking(products)) == NoDifferences
  {
    var s := Sheet(Filter(products, IsActiveProduct));
    forall id | id in s
      ensures s[id].difference == 0 && s[id].actualStock == s[id].systemStock
    {
      SheetEntries(Filter(products, IsActiveProduct), id);
    }
  }

  /** On a consistent sheet only counted products can differ: at most as many as were counted. */
  lemma DifferencesAtMostCounted(s: Session)
    requires Consistent(s)
    ensures Discrepant(s) <= Counted(s)
    ensures CompleteStockTaking(s).Differences? ==> CompleteStockTaking(s).count <= |Counted(s)|
  {
    assert Discrepant(s) <= Counted(s);
    SubsetCard(Discrepant(s), Counted(s));
  }

  lemma SubsetCard(a: set<string>, b: set<string>)
    requires a <= b
    ensures |a| <= |b|
  {
    assert b == a + (b - a);
  }

  /** Counting a product as exactly its system stock leaves the sheet without differences. */
  lemma CountAsSystemKeepsClean(s: Session, productId: string)
    requires productId in s && Consistent(s)
    requires CompleteStockTaking(s) == NoDifferences
    ensures CompleteStockTaking(UpdateActualStock(s, productId, Some(s[productId].systemStock))) == NoDifferences
  {
  }

  // ---------------------------------------------------------------------------
  // A whole count: several `updateActualStock` calls, then `completeStockTaking`.

  /** Entering a list of counts, one `updateActualStock` after another. */
  function CountAll(s: Session, counts: seq<(string, int)>): (s': Session)
    requires forall i :: 0 <= i < |counts| ==> counts[i].0 in s
    ensures s'.Keys == s.Keys
    ensures forall id :: id in s ==> s'[id].systemStock == s[id].systemStock
    decreases |counts|
  {
    if |counts| == 0 then s
    else CountAll(UpdateActualStock(s, counts[0].0, Some(counts[0].1)), counts[1..])
  }

  /** The products a list of counts is about. */
  function CountedIds(counts: seq<(string, int)>): set<string>
  {
    set i | 0 <= i < |counts| :: counts[i].0
  }

  /** Counts that each differ from the system stock add exactly their products to the discrepant ones. */
  lemma {:induction false} CountAllDiscrepant(s: Session, counts: seq<(string, int)>)
    requires forall i :: 0 <= i < |counts| ==> counts[i].0 in s && counts[i].1 != s[counts[i].0].systemStock
    ensures Discrepant(CountAll(s, counts)) == Discrepant(s) + CountedIds(counts)
    decreases |counts|
  {
    if |counts| > 0 {
      var s1 := UpdateActualStock(s, counts[0].0, Some(counts[0].1));
      assert Discrepant(s1) == Discrepant(s) + {counts[0].0};
      var rest := counts[1..];
      assert forall i :: 0 <= i < |rest| ==> rest[i] == counts[i + 1];
      CountAllDiscrepant(s1, rest);
      assert CountedIds(counts) == {counts[0].0} + CountedIds(rest) by {
        forall x | x in CountedIds(counts) ensures x in {counts[0].0} + CountedIds(rest) {
          var i :| 0 <= i < |counts| && counts[i].0 == x;
          if i > 0 { assert rest[i - 1].0 == x; }
        }
      }
    }
  }

  /** Counts for different products name as many products as there are counts. */
  lemma {:induction false} CountedIdsCard(counts: seq<(string, int)>)
    requires forall i, j :: 0 <= i < j < |counts| ==> counts[i].0 != counts[j].0
    ensures |CountedIds(counts)| == |counts|
  {
    if |counts| > 0 {
      var rest := counts[1..];
      assert forall i :: 0 <= i < |rest| ==> rest[i] == counts[i + 1];
      CountedIdsCard(rest);
      assert CountedIds(counts) == {counts[0].0} + CountedIds(rest) by {
        forall x | x in CountedIds(counts) ensures x in {counts[0].0} + CountedIds(rest) {
          var i :| 0 <= i < |counts| && counts[i].0 == x;
          if i > 0 { assert rest[i - 1].0 == x; }
        }
      }
      assert counts[0].0 !in CountedIds(rest);
    }
  }

  /**
    On a freshly started sheet, counting k different products each away from
    its system stock and then completing reports exactly k differences (and
    none when nothing was counted).
   */
  lemma CountingReportsDifferences(products: seq<Product>, counts: seq<(string, int)>)
    requires forall i :: 0 <= i < |counts| ==>
      counts[i].0 in StartStockTaking(products) && counts[i].1 != StartStockTaking(products)[counts[i].0].systemStock
    requires forall i, j :: 0 <= i < j < |counts| ==> counts[i].0 != counts[j].0
    ensures CompleteStockTaking(CountAll(StartStockTaking(products), counts))
         == if |counts| == 0 then NoDifferences else Differences(|counts|)
  {
    var s := StartStockTaking(products);
    StartThenComplete(products);
    DiscrepantEmpty(s);
    CountAllDiscrepant(s, counts);
    CountedIdsCard(counts);
    var s' := CountAll(s, counts);
    DiscrepantEmpty(s');
  }
}

=== FILE: profile.dfy ===
/**
  The profile hook (hooks/useProfile.js): the single profile document
  `users/{uid}/profile/main`, the local copy the hook keeps of it, and the
  readers the app asks about it.

  The profile's fields are open-ended (the wizard writes whatever it
  collected), so a profile is a map from key to value.
 */
module Profile {
  import opened Records
  import Store
  import Setup

  /** A profile value: text, a flag, a number, a list of names, a list of product records, or a timestamp. */
  datatype PValue = PStr(s: string) | PBool(b: bool) | PNum(n: int) | PList(items: seq<string>) | PRecords(records: seq<Data>) | PTime(t: Stamp)

  type ProfileData = map<string, PValue>

  /** What a profile write reports, the data sent to the store (if any), and the local profile after it. */
  datatype Saved = Saved(outcome: Store.Outcome, written: Option<ProfileData>, profile: Option<ProfileData>)

  /** `{ ...a, ...b }`: the keys of `b` win. */
  function Merge(a: ProfileData, b: ProfileData): (r: ProfileData)
    ensures r.Keys == a.Keys + b.Keys
    ensures forall k :: k in b ==> r[k] == b[k]
    ensures forall k :: k in a && k !in b ==> r[k] == a[k]
  {
    a + b
  }

  /**
    The fetch effect (useProfile.js:17-50): no user or no stored document
    gives no profile; otherwise `{ id: snap.id, ...snap.data() }`.
   */
  function Fetch(user: Option<Store.User>, stored: Option<ProfileData>): (r: Option<ProfileData>)
    ensures r.Some? <==> user.Some? && stored.Some?
    ensures r.Some? ==> "id" in r.value && forall k :: k in stored.value ==> k in r.value && r.value[k] == stored.value[k]
  {
    if user.None? || stored.None? then None
    else Some(Merge(map["id" := PStr("main")], stored.value))
  }

  /** The fields `createProfile` sets over the caller's data. */
  function Owner(user: Store.User): ProfileData
  {
    map["userId" := PStr(user.uid), "userEmail" := PStr(user.email),
        "createdAt" := PTime(ServerTime), "updatedAt" := PTime(ServerTime)]
  }

  /**
    `createProfile(profileData)` (useProfile.js:53-81): fails without a
    signed-in user; otherwise writes the data with the user's id and e-mail
    and both timestamps over whatever the data held under those keys, and
    keeps the written document, with id 'main', as the local profile.
   */
  function CreateProfile(user: Option<Store.User>, profile: Option<ProfileData>, input: ProfileData): (r: Saved)
    ensures user.None? <==> r.outcome == Store.Failure(Store.NotSignedIn)
    ensures user.None? ==> r.written.None? && r.profile == profile
    ensures user.Some? ==> (
      && r.written.Some? && r.profile.Some?
      && "userId" in r.written.value && r.written.value["userId"] == PStr(user.value.uid)
      && "userEmail" in r.written.value && r.written.value["userEmail"] == PStr(user.value.email)
      && r.profile.value == Merge(map["id" := PStr("main")], r.written.value))
  {
    if user.None? then Saved(Store.Failure(Store.NotSignedIn), None, profile)
    else
      var w := Merge(input, Owner(user.value));
      Saved(Store.Success, Some(w), Some(Merge(map["id" := PStr("main")], w)))
  }

  /** A created profile keeps every key of the data other than the four the hook sets. */
  lemma CreateKeepsInput(user: Store.User, profile: Option<ProfileData>, input: ProfileData, k: string)
    requires k in input && k !in Owner(user)
    ensures var w := CreateProfile(Some(user), profile, input).written.value; k in w && w[k] == input[k]
  {
  }

  /**
    `updateProfile(updateData)` (useProfile.js:84-109): fails without a user
    or without a profile; otherwise sends the data with a fresh `updatedAt`
    and merges it into the local profile.
   */
  function UpdateProfile(user: Option<Store.User>, profile: Option<ProfileData>, update: ProfileData): (r: Saved)
    ensures user.None? || profile.None? <==> r.outcome == Store.Failure(Store.NoSuchDocument)
    ensures r.outcome.Failure? ==> r.written.None? && r.profile == profile
    ensures r.outcome.Success? ==> r.written.Some? && r.profile.Some? && "updatedAt" in r.written.value && r.written.value["updatedAt"] == PTime(ServerTime)
  {
    if user.None? || profile.None? then Saved(Store.Failure(Store.NoSuchDocument), None, profile)
    else
      var w := Merge(update, map["updatedAt" := PTime(ServerTime)]);
      Saved(Store.Success, Some(w), Some(Merge(profile.value, w)))
  }

  /** An update overwrites exactly the keys it gives and `updatedAt`; every other key keeps its value. */
  lemma UpdateMerges(user: Store.User, profile: ProfileData, update: ProfileData, k: string)
    requires k != "updatedAt"
    ensures var p := UpdateProfile(Some(user), Some(profile), update).profile.value;
      && (k in p <==> k in profile || k in update)
      && (k in update ==> p[k] == update[k])
      && (k !in update && k in profile ==> p[k] == profile[k])
  {
  }

  /** Sending the same update twice leaves the same local profile as sending it once. */
  lemma UpdateIdempotent(user: Store.User, profile: ProfileData, update: ProfileData)
    ensures var once := UpdateProfile(Some(user), Some(profile), update).profile;
      UpdateProfile(Some(user), once, update).profile == once
  {
    var w := Merge(update, map["updatedAt" := PTime(ServerTime)]);
    var p1 := Merge(profile, w);
    assert Merge(p1, w) == p1;
  }

  // ---------------------------------------------------------------------------
  // Readers (useProfile.js:111-128).

  /** `profile && profile.setupCompleted === true`. */
  predicate IsSetupCompleted(profile: Option<ProfileData>)
  {
    profile.Some? && "setupCompleted" in profile.value && profile.value["setupCompleted"] == PBool(true)
  }

  /** `profile?.selectedCategories || []`: the stored list, or none. */
  function GetSelectedCategories(profile: Option<ProfileData>): (r: seq<string>)
    ensures profile.None? || "selectedCategories" !in profile.value ==> r == []
    ensures profile.Some? && "selectedCategories" in profile.value && profile.value["selectedCategories"].PList? ==>
              r == profile.value["selectedCategories"].items
  {
    if profile.Some? && "selectedCategories" in profile.value && profile.value["selectedCategories"].PList?
    then profile.value["selectedCategories"].items
    else []
  }

  /** `profile?.[k] || ''` for a text field. */
  function TextIn(profile: Option<ProfileData>, k: string): string
  {
    if profile.Some? && k in profile.value && profile.value[k].PStr? then profile.value[k].s else ""
  }

  /**
    `getShopInfo()` (useProfile.js:121-127): always the three fields, each the
    stored text, or '' when there is no profile or the profile lacks it.
   */
  function GetShopInfo(profile: Option<ProfileData>): (r: Setup.ShopInfo)
    ensures profile.None? ==> r == Setup.ShopInfo("", "", "")
    ensures forall v :: profile.Some? && "shopName" in profile.value && profile.value["shopName"] == PStr(v) ==> r.shopName == v
    ensures forall v :: profile.Some? && "address" in profile.value && profile.value["address"] == PStr(v) ==> r.address == v
    ensures forall v :: profile.Some? && "phone" in profile.value && profile.value["phone"] == PStr(v) ==> r.phone == v
    ensures profile.Some? ==>
      && ("shopName" !in profile.value ==> r.shopName == "")
      && ("address" !in profile.value ==> r.address == "")
      && ("phone" !in profile.value ==> r.phone == "")
  {
    Setup.ShopInfo(TextIn(profile, "shopName"), TextIn(profile, "address"), TextIn(profile, "phone"))
  }

  /**
    The wizard's `setupData` as profile data, key for key: the shop details,
    `selectedCategories`, and the assembled records as `selectedProducts`.
    It carries no `setupCompleted` flag.
   */
  function SetupProfile(s: Setup.SetupData): (p: ProfileData)
    ensures |p| == 5 && "setupCompleted" !in p
    ensures "shopName" in p && "address" in p && "phone" in p
    ensures "selectedCategories" in p && p["selectedCategories"] == PList(s.categories)
    ensures "selectedProducts" in p && p["selectedProducts"] == PRecords(s.products)
  {
    assert |"setupCompleted"| == 14;
    map["shopName" := PStr(s.shop.shopName), "address" := PStr(s.shop.address), "phone" := PStr(s.shop.phone),
        "selectedCategories" := PList(s.categories), "selectedProducts" := PRecords(s.products)]
  }

  /**
    Creating the profile from the wizard's data alone and reading it back
    gives the chosen categories, but not a completed setup: the data has no
    `setupCompleted` flag.
   */
  lemma CreateThenRead(user: Store.User, profile: Option<ProfileData>, s: Setup.SetupData)
    ensures var p := CreateProfile(Some(user), profile, SetupProfile(s)).profile;
      !IsSetupCompleted(p) && GetSelectedCategories(p) == s.categories
  {
    CreateKeepsInput(user, profile, SetupProfile(s), "selectedCategories");
    OwnerLacksFlag(user);
    CreateLacksKey(user, profile, SetupProfile(s), "setupCompleted");
  }

  /** The fields the hook adds on creation do not include `setupCompleted`. */
  lemma OwnerLacksFlag(user: Store.User)
    ensures "setupCompleted" !in Owner(user)
  {
    assert |"setupCompleted"| == 14;
    assert forall k :: k in Owner(user).Keys ==> |k| != 14;
  }

  /** A key that neither the data nor the hook supplies is absent from the created profile. */
  lemma CreateLacksKey(user: Store.User, profile: Option<ProfileData>, input: ProfileData, k: string)
    requires k !in input && k !in Owner(user) && k != "id"
    ensures var p := CreateProfile(Some(user), profile, input).profile; p.Some? && k !in p.value
  {
  }

  /** The created profile holds the assembled records under `selectedProducts`. */
  lemma CreateKeepsProducts(user: Store.User, profile: Option<ProfileData>, s: Setup.SetupData)
    ensures var p := CreateProfile(Some(user), profile, SetupProfile(s)).profile;
      p.Some? && "selectedProducts" in p.value && p.value["selectedProducts"] == PRecords(s.products)
  {
    CreateKeepsInput(user, profile, SetupProfile(s), "selectedProducts");
  }

  /**
    Creating the profile from the wizard's data and then updating it with
    `setupCompleted: true` reads back as completed, still with the chosen
    categories.
   */
  lemma CreateThenComplete(user: Store.User, profile: Option<ProfileData>, s: Setup.SetupData)
    ensures var created := CreateProfile(Some(user), profile, SetupProfile(s)).profile;
      var p := UpdateProfile(Some(user), created, map["setupCompleted" := PBool(true)]).profile;
      IsSetupCompleted(p) && GetSelectedCategories(p) == s.categories
  {
    CompleteAfterCreate(user, profile, SetupProfile(s), s.categories);
  }

  /** Creating a profile from data holding a category list, then marking it completed, reads that list back. */
  lemma CompleteAfterCreate(user: Store.User, profile: Option<ProfileData>, input: ProfileData, cats: seq<string>)
    requires "selectedCategories" in input && input["selectedCategories"] == PList(cats)
    ensures var created := CreateProfile(Some(user), profile, input).profile;
      var p := UpdateProfile(Some(user), created, map["setupCompleted" := PBool(true)]).profile;
      IsSetupCompleted(p) && GetSelectedCategories(p) == cats
  {
    var created := CreateProfile(Some(user), profile, input).profile;
    CreateKeepsInput(user, profile, input, "selectedCategories");
    UpdateMerges(user, created.value, map["setupCompleted" := PBool(true)], "selectedCategories");
  }

  /** Creating the profile from the wizard's output and reading the shop details back gives the details entered. */
  lemma CreateThenReadShop(user: Store.User, profile: Option<ProfileData>, s: Setup.SetupData)
    ensures GetShopInfo(CreateProfile(Some(user), profile, SetupProfile(s)).profile) == s.shop
  {
    CreateKeepsInput(user, profile, SetupProfile(s), "shopName");
    CreateKeepsInput(user, profile, SetupProfile(s), "address");
    CreateKeepsInput(user, profile, SetupProfile(s), "phone");
  }

  /** Without a profile, the setup is not completed and nothing is chosen. */
  lemma NoProfileReadsEmpty()
    ensures !IsSetupCompleted(None) && GetSelectedCategories(None) == []
    ensures GetShopInfo(None) == Setup.ShopInfo("", "", "")
  {
  }

  /** Marking the setup completed through an update makes it read as completed, whatever the profile held. */
  lemma UpdateCompletesSetup(user: Store.User, profile: ProfileData)
    ensures IsSetupCompleted(UpdateProfile(Some(user), Some(profile), map["setupCompleted" := PBool(true)]).profile)
  {
  }
}

=== FILE: records.dfy ===
/**
  Product records as the store holds them and as the components read them.

  A stored document is a map from field name to value, as in the document
  store: a field is either present with a value or absent. A listed product is
  the document's id together with its data, built as `{ id: doc.id, ...doc.data() }`.
  The components read fields through JavaScript truthiness, so an absent text
  field reads as "", an absent number as 0 and an absent flag as false.
 */
module Records {
  import opened Seqs
  import opened Text

  datatype Option<T> = None | Some(value: T)
  {
    /** `x || d` for a value that is either present or absent. */
    function GetOr(d: T): T
    {
      if Some? then value else d
    }
  }

  /** The field names of a product document, spelled as in the source. */
  datatype Field =
    | id | name | manufacturer | category | description | image | productCode
    | volume | volumeUnit | container
    | cost | price | profit | stock | minStock
    | isMaster | isPopular | isNomihodai | isActive
    | addedBy | createdAt | updatedAt

  /** A timestamp field: the store's `serverTimestamp()` sentinel, or a client clock reading. */
  datatype Stamp = ServerTime | At(millis: int)

  datatype Value = Str(s: string) | Num(n: int) | Bool(b: bool) | Time(t: Stamp)

  /** The data of one document. */
  type Data = map<Field, Value>

  /** A product as listed by the store subscription. */
  datatype Product = Product(id: string, data: Data)
  {
    function TextOf(f: Field): string
    {
      if f in data && data[f].Str? then data[f].s else ""
    }

    function NumberOf(f: Field): int
    {
      if f in data && data[f].Num? then data[f].n else 0
    }

    function FlagOf(f: Field): bool
    {
      f in data && data[f] == Bool(true)
    }

    function Name(): string { TextOf(name) }
    function Manufacturer(): string { TextOf(manufacturer) }
    function Category(): string { TextOf(category) }
    function ProductCode(): string { TextOf(productCode) }
    function Container(): string { TextOf(container) }
    function Cost(): int { NumberOf(cost) }
    function Price(): int { NumberOf(price) }
    function Profit(): int { NumberOf(profit) }
    function Stock(): int { NumberOf(stock) }
    function MinStock(): int { NumberOf(minStock) }
    function IsMaster(): bool { FlagOf(isMaster) }
    function IsPopular(): bool { FlagOf(isPopular) }
    function IsNomihodai(): bool { FlagOf(isNomihodai) }

    /** `product.manufacturer` when it is a string, None when it is absent. */
    function ManufacturerField(): Option<string>
    {
      if manufacturer in data && data[manufacturer].Str? then Some(data[manufacturer].s) else None
    }

    /** `isActive !== false`: a product without the flag counts as active. */
    predicate IsActive()
    {
      !(isActive in data && data[isActive] == Bool(false))
    }

    /** `isActive === false`. */
    predicate IsInactive()
    {
      isActive in data && data[isActive] == Bool(false)
    }

    /** `!p.updatedAt`. */
    predicate NeverUpdated()
    {
      updatedAt !in data
    }
  }

  /** `{ ...d, ...patch }`: the fields of `patch` replace those of `d`, the rest are kept. */
  function Overlay(d: Data, patch: Data): (r: Data)
    ensures r.Keys == d.Keys + patch.Keys
    ensures forall f :: f in patch ==> r[f] == patch[f]
    ensures forall f :: f !in patch && f in d ==> r[f] == d[f]
  {
    map f | f in d.Keys + patch.Keys :: if f in patch then patch[f] else d[f]
  }

  /** `{ id: doc.id, ...doc.data() }`: a stored `id` field overrides the document id. */
  function View(docId: string, d: Data): (p: Product)
    ensures p.data == d
    ensures Field.id !in d ==> p.id == docId
  {
    var listed := if Field.id in d && d[Field.id].Str? then d[Field.id].s else docId;
    Product(listed, d)
  }

  /** `{ ...product }`: the listed product as a plain object, its id included. */
  function Spread(p: Product): (d: Data)
    ensures Field.id in d && d[Field.id] == Str(p.id)
    ensures forall f :: f != Field.id ==> (f in d <==> f in p.data)
    ensures forall f :: f != Field.id && f in p.data ==> d[f] == p.data[f]
  {
    p.data[Field.id := Str(p.id)]
  }

  /** Reading back a spread product, under any document id, gives the same product. */
  lemma SpreadView(p: Product, docId: string)
    ensures View(docId, Spread(p)) == Product(p.id, Spread(p))
  {
  }

  /** `Math.max(0, stock + change)`: the clamped stock after a change. */
  function NewStock(current: int, change: int): (r: int)
    ensures r >= 0
    ensures current + change >= 0 ==> r == current + change
    ensures current + change < 0 ==> r == 0
  {
    if current + change < 0 then 0 else current + change
  }

  /** `products.find(p => p.id === productId)`. */
  function Find(products: seq<Product>, productId: string): (r: Option<Product>)
    ensures r.Some? ==> r.value in products && r.value.id == productId
    ensures r.None? ==> forall i :: 0 <= i < |products| ==> products[i].id != productId
    ensures r.Some? ==> exists i :: 0 <= i < |products| && products[i] == r.value
                          && forall j :: 0 <= j < i ==> products[j].id != productId
  {
    var k := FirstIndex(products, (p: Product) => p.id == productId);
    if k == -1 then None else Some(products[k])
  }

  /**
    The key a grouping files the product under: its category, or "undefined" when the
    document has none (the property name a missing value becomes).
   */
  function CategoryKey(p: Product): string
  {
    if category in p.data && p.data[category].Str? then p.data[category].s else "undefined"
  }

  // ---------------------------------------------------------------------------
  // Per-record readings shared by several components.

  /** `product.cost * product.stock`. */
  function StockValue(p: Product): int { p.Cost() * p.Stock() }

  /** `product.profit * product.stock`. */
  function StockProfit(p: Product): int { p.Profit() * p.Stock() }

  /** `product.stock <= product.minStock && product.stock > 0`. */
  predicate IsLowStock(p: Product) { 0 < p.Stock() <= p.MinStock() }

  /** `!product.isMaster`: a product the shop added itself. */
  predicate IsShopAdded(p: Product) { !p.IsMaster() }

  predicate IsMasterProduct(p: Product) { p.IsMaster() }

  predicate IsActiveProduct(p: Product) { p.IsActive() }

  predicate IsInactiveProduct(p: Product) { p.IsInactive() }

  /**
    The customer list filter: the lower-cased search term occurs in the
    lower-cased name or (when there is one) manufacturer, and the category
    filter is 'all' or equal to the product's category.
   */
  predicate MatchesSearch(p: Product, term: string, categoryFilter: string)
  {
    var t := ToLower(term);
    && (Includes(ToLower(p.Name()), t)
        || (p.Manufacturer() != "" && Includes(ToLower(p.Manufacturer()), t)))
    && (categoryFilter == "all" || p.Category() == categoryFilter)
  }

  /** An empty search with the 'all' category matches every product. */
  lemma EmptySearchMatchesAll(p: Product)
    ensures MatchesSearch(p, "", "all")
  {
    IncludesEmpty(ToLower(p.Name()));
  }

  // ---------------------------------------------------------------------------
  // The fixed beverage categories, in their display order.

  const Beer: string := "ビール"
  const Categories: seq<string> := [
    "ビール", "カクテル・チューハイ", "日本酒", "焼酎", "ウイスキー・ブランデー",
    "ワイン", "シャンパン・スパークリング", "泡盛", "ソフトドリンク", "ノンアルコール"
  ]

  lemma CategoriesDistinct()
    ensures |Categories| == 10 && NoDup(Categories)
    ensures Categories[0] == Beer
  {
  }
}

=== FILE: seqs.dfy ===
/**
  The list vocabulary the components are written in: `Array.prototype.filter`,
  `reduce` used as a sum, `slice(0, n)`, `find`, and a stable `sort` by a numeric key.
  The components' own rules live in the per-file modules; this module holds
  only what is generic over the element type.
 */
module Seqs {

  /** `s.filter(f)`: the elements satisfying `f`, in their original order. */
  function Filter<T>(s: seq<T>, f: T -> bool): (r: seq<T>)
    ensures |r| <= |s|
    ensures forall i :: 0 <= i < |r| ==> r[i] in s && f(r[i])
    ensures forall i :: 0 <= i < |s| && f(s[i]) ==> s[i] in r
  {
    if |s| == 0 then []
    else if f(s[0]) then [s[0]] + Filter(s[1..], f)
    else Filter(s[1..], f)
  }

  /** `s.reduce((sum, x) => sum + g(x), 0)`. */
  function Sum<T>(s: seq<T>, g: T -> int): int
  {
    if |s| == 0 then 0 else g(s[0]) + Sum(s[1..], g)
  }

  /** How many positions of `s` satisfy `f`, counted one at a time. */
  function Count<T>(s: seq<T>, f: T -> bool): (n: nat)
    ensures n <= |s|
    ensures n == 0 <==> forall i :: 0 <= i < |s| ==> !f(s[i])
  {
    if |s| == 0 then 0
    else
      var rest := Count(s[1..], f);
      assert forall i :: 1 <= i < |s| ==> s[i] == s[1..][i - 1];
      (if f(s[0]) then 1 else 0) + rest
  }

  /** `s.slice(0, n)`. */
  function Take<T>(s: seq<T>, n: nat): (r: seq<T>)
    ensures |r| <= n && |r| <= |s|
    ensures r == s[..|r|]
    ensures |s| <= n ==> r == s
  {
    if |s| <= n then s else s[..n]
  }

  /** `a` is `b` with some elements dropped and the rest kept in order. */
  predicate IsSubseq<T(==)>(a: seq<T>, b: seq<T>)
    decreases |b|
  {
    if |a| == 0 then true
    else if |b| == 0 then false
    else if a[0] == b[0] then IsSubseq(a[1..], b[1..])
    else IsSubseq(a, b[1..])
  }

  /** No element occurs twice. */
  predicate NoDup<T(==)>(s: seq<T>)
  {
    forall i, j :: 0 <= i < j < |s| ==> s[i] != s[j]
  }

  /** Index of the first element satisfying `f`, as `findIndex` (None for -1). */
  function FirstIndex<T>(s: seq<T>, f: T -> bool): (r: int)
    ensures -1 <= r < |s|
    ensures r >= 0 ==> f(s[r]) && forall j :: 0 <= j < r ==> !f(s[j])
    ensures r == -1 ==> forall j :: 0 <= j < |s| ==> !f(s[j])
  {
    if |s| == 0 then -1
    else if f(s[0]) then 0
    else var k := FirstIndex(s[1..], f); if k == -1 then -1 else k + 1
  }

  /** `s.indexOf(x)`: the position of the first occurrence of `x`, -1 when there is none. */
  function IndexOf<T(==)>(s: seq<T>, x: T): (r: int)
    ensures -1 <= r < |s|
    ensures r >= 0 ==> s[r] == x && forall j :: 0 <= j < r ==> s[j] != x
    ensures r == -1 <==> x !in s
  {
    if |s| == 0 then -1
    else if s[0] == x then 0
    else
      var k := IndexOf(s[1..], x);
      assert forall j :: 1 <= j < |s| ==> s[j] == s[1..][j - 1];
      if k == -1 then -1 else k + 1
  }

  /** Appending an element does not move the first occurrence of anything already present. */
  lemma IndexOfSnoc<T>(s: seq<T>, y: T, x: T)
    requires x in s
    ensures IndexOf(s + [y], x) == IndexOf(s, x)
  {
    var k := IndexOf(s, x);
    var r := IndexOf(s + [y], x);
    assert (s + [y])[k] == x;
  }

  /** An element appended for the first time occurs first at the end. */
  lemma IndexOfLast<T>(s: seq<T>, y: T)
    requires y !in s
    ensures IndexOf(s + [y], y) == |s|
  {
    assert (s + [y])[|s|] == y;
  }

  lemma {:induction false} FilterIsSubseq<T>(s: seq<T>, f: T -> bool)
    ensures IsSubseq(Filter(s, f), s)
  {
    if |s| > 0 {
      FilterIsSubseq(s[1..], f);
      if f(s[0]) {
        assert Filter(s, f)[1..] == Filter(s[1..], f);
      } else {
        var r := Filter(s[1..], f);
        if |r| > 0 && r[0] == s[0] {
          assert s[0] in r;
        }
      }
    }
  }

  /** Two filters in a row keep a subsequence of the input. */
  lemma FilterFilterSubseq<T>(s: seq<T>, f: T -> bool, g: T -> bool)
    ensures IsSubseq(Filter(Filter(s, f), g), s)
  {
    var h := (x: T) => f(x) && g(x);
    FilterFilter(s, f, g, h);
    FilterIsSubseq(s, h);
  }

  lemma {:induction false} SubseqPrefix<T>(a: seq<T>, b: seq<T>, n: nat)
    requires IsSubseq(a, b) && n <= |a|
    ensures IsSubseq(a[..n], b)
    decreases |b|
  {
    if n > 0 && |a| > 0 && |b| > 0 {
      if a[0] == b[0] {
        SubseqPrefix(a[1..], b[1..], n - 1);
        assert a[..n][1..] == a[1..][..n - 1];
      } else {
        SubseqPrefix(a, b[1..], n);
      }
    }
  }

  lemma {:induction false} SubseqRefl<T>(s: seq<T>)
    ensures IsSubseq(s, s)
  {
    if |s| > 0 {
      SubseqRefl(s[1..]);
    }
  }

  /** Filtering a list without repeats gives a list without repeats. */
  lemma {:induction false} FilterNoDup<T>(s: seq<T>, f: T -> bool)
    requires NoDup(s)
    ensures NoDup(Filter(s, f))
  {
    if |s| > 0 {
      assert NoDup(s[1..]) by {
        forall i, j | 0 <= i < j < |s[1..]| ensures s[1..][i] != s[1..][j] {
          assert s[1..][i] == s[i + 1] && s[1..][j] == s[j + 1];
        }
      }
      FilterNoDup(s[1..], f);
      if f(s[0]) {
        var r := Filter(s[1..], f);
        assert s[0] !in s[1..] by {
          forall i | 0 <= i < |s[1..]| ensures s[1..][i] != s[0] {
            assert s[1..][i] == s[i + 1];
          }
        }
        assert forall i :: 0 <= i < |r| ==> r[i] != s[0];
        assert Filter(s, f) == [s[0]] + r;
      }
    }
  }

  /** A filter whose predicate holds everywhere returns its input unchanged. */
  lemma {:induction false} FilterAll<T>(s: seq<T>, f: T -> bool)
    requires forall x :: x in s ==> f(x)
    ensures Filter(s, f) == s
  {
    if |s| > 0 {
      FilterAll(s[1..], f);
    }
  }

  /** A filter whose predicate holds nowhere returns the empty list. */
  lemma {:induction false} FilterNone<T>(s: seq<T>, f: T -> bool)
    requires forall x :: x in s ==> !f(x)
    ensures Filter(s, f) == []
  {
    if |s| > 0 {
      FilterNone(s[1..], f);
    }
  }

  /** Filtering twice is filtering once by the conjunction. */
  lemma {:induction false} FilterFilter<T>(s: seq<T>, f: T -> bool, g: T -> bool, h: T -> bool)
    requires forall x :: h(x) == (f(x) && g(x))
    ensures Filter(Filter(s, f), g) == Filter(s, h)
  {
    if |s| > 0 {
      FilterFilter(s[1..], f, g, h);
    }
  }

  /** Filters by predicates that agree everywhere give the same list. */
  lemma {:induction false} FilterSame<T>(s: seq<T>, f: T -> bool, g: T -> bool)
    requires forall x :: f(x) == g(x)
    ensures Filter(s, f) == Filter(s, g)
  {
    if |s| > 0 {
      FilterSame(s[1..], f, g);
    }
  }

  /** Two complementary filters split a list: lengths and contents add up. */
  lemma {:induction false} FilterComplement<T>(s: seq<T>, f: T -> bool, g: T -> bool)
    requires forall x :: g(x) == !f(x)
    ensures |Filter(s, f)| + |Filter(s, g)| == |s|
    ensures multiset(Filter(s, f)) + multiset(Filter(s, g)) == multiset(s)
  {
    if |s| > 0 {
      FilterComplement(s[1..], f, g);
      assert s == [s[0]] + s[1..];
    }
  }

  /** Two complementary filters split a sum. */
  lemma {:induction false} SumComplement<T>(s: seq<T>, f: T -> bool, g: T -> bool, v: T -> int)
    requires forall x :: g(x) == !f(x)
    ensures Sum(s, v) == Sum(Filter(s, f), v) + Sum(Filter(s, g), v)
  {
    if |s| > 0 {
      SumComplement(s[1..], f, g, v);
      if f(s[0]) {
        assert Filter(s, f) == [s[0]] + Filter(s[1..], f);
      } else {
        assert Filter(s, g) == [s[0]] + Filter(s[1..], g);
      }
    }
  }

  /** Taking the same element out of two lists with the same elements leaves lists with the same elements. */
  lemma RemoveMatching<T>(a: seq<T>, b: seq<T>, j: int)
    requires |a| > 0 && 0 <= j < |b| && b[j] == a[0]
    requires multiset(a) == multiset(b)
    ensures multiset(a[1..]) == multiset(b[..j] + b[j + 1..])
  {
    var x := a[0];
    var rest := b[..j] + b[j + 1..];
    assert b == b[..j] + ([x] + b[j + 1..]);
    assert a == [x] + a[1..];
    assert multiset(a) == multiset{x} + multiset(a[1..]);
    assert multiset(b) == multiset(b[..j]) + multiset{x} + multiset(b[j + 1..]);
    assert multiset(rest) == multiset(b[..j]) + multiset(b[j + 1..]);
    forall y
      ensures multiset(a[1..])[y] == multiset(rest)[y]
    {
      assert multiset(a)[y] == multiset{x}[y] + multiset(a[1..])[y];
      assert multiset(b)[y] == multiset(b[..j])[y] + multiset{x}[y] + multiset(b[j + 1..])[y];
    }
  }

  /** The sum over a list is one element's term plus the sum over the rest. */
  lemma {:induction false} SumRemove<T>(b: seq<T>, j: int, g: T -> int)
    requires 0 <= j < |b|
    ensures Sum(b, g) == g(b[j]) + Sum(b[..j] + b[j + 1..], g)
  {
    if j == 0 {
      assert b[..j] + b[j + 1..] == b[1..];
    } else {
      var t := b[1..];
      SumRemove(t, j - 1, g);
      var rest := b[..j] + b[j + 1..];
      assert rest[0] == b[0];
      assert rest[1..] == t[..j - 1] + t[j..];
    }
  }

  /** A sum does not depend on the order of the elements. */
  lemma {:induction false} SumPermutation<T>(a: seq<T>, b: seq<T>, g: T -> int)
    requires multiset(a) == multiset(b)
    ensures Sum(a, g) == Sum(b, g)
    decreases |a|
  {
    if |a| == 0 {
      assert |b| == |multiset(b)| == 0;
    } else {
      assert a[0] in multiset(b);
      var j :| 0 <= j < |b| && b[j] == a[0];
      RemoveMatching(a, b, j);
      SumPermutation(a[1..], b[..j] + b[j + 1..], g);
      SumRemove(b, j, g);
    }
  }

  /** Summing over the kept elements is summing over all of them with the dropped ones counted as 0. */
  lemma {:induction false} SumFilter<T>(s: seq<T>, f: T -> bool, g: T -> int, h: T -> int)
    requires forall x :: h(x) == if f(x) then g(x) else 0
    ensures Sum(Filter(s, f), g) == Sum(s, h)
  {
    if |s| > 0 {
      SumFilter(s[1..], f, g, h);
      if f(s[0]) {
        assert Filter(s, f) == [s[0]] + Filter(s[1..], f);
      }
    }
  }

  /** A sum of non-negative terms is non-negative. */
  lemma {:induction false} SumNonNegative<T>(s: seq<T>, g: T -> int)
    ensures (forall i :: 0 <= i < |s| ==> g(s[i]) >= 0) ==> Sum(s, g) >= 0
  {
    if |s| > 0 && forall i :: 0 <= i < |s| ==> g(s[i]) >= 0 {
      assert forall i :: 0 <= i < |s[1..]| ==> s[1..][i] == s[i + 1];
      SumNonNegative(s[1..], g);
    }
  }

  /** Counting under two disjoint predicates counts under their disjunction. */
  lemma {:induction false} FilterDisjoint<T>(s: seq<T>, f: T -> bool, g: T -> bool, h: T -> bool)
    requires forall x :: h(x) == (f(x) || g(x))
    requires forall x :: !(f(x) && g(x))
    ensures |Filter(s, h)| == |Filter(s, f)| + |Filter(s, g)|
  {
    if |s| > 0 {
      FilterDisjoint(s[1..], f, g, h);
    }
  }

  /** A sum over a concatenation is the sum of the parts. */
  lemma {:induction false} SumAppend<T>(a: seq<T>, b: seq<T>, g: T -> int)
    ensures Sum(a + b, g) == Sum(a, g) + Sum(b, g)
  {
    if |a| > 0 {
      SumAppend(a[1..], b, g);
      assert (a + b)[1..] == a[1..] + b;
    } else {
      assert a + b == b;
    }
  }

  /**
    `s.filter(f).length` is the number of satisfying positions, and the filter
    keeps every satisfying element as often as `s` holds it and no other.
   */
  lemma FilterCount<T>(s: seq<T>, f: T -> bool)
    ensures |Filter(s, f)| == Count(s, f)
    ensures forall x :: multiset(Filter(s, f))[x] == if f(x) then multiset(s)[x] else 0
  {
    FilterLength(s, f);
    FilterMultiplicity(s, f);
  }

  /** `s.filter(f).length` counts the satisfying positions. */
  lemma {:induction false} FilterLength<T>(s: seq<T>, f: T -> bool)
    ensures |Filter(s, f)| == Count(s, f)
  {
    if |s| > 0 {
      FilterLength(s[1..], f);
    }
  }

  /** The filter keeps every satisfying element as often as `s` holds it, and no other. */
  lemma {:induction false} FilterMultiplicity<T>(s: seq<T>, f: T -> bool)
    ensures forall x :: multiset(Filter(s, f))[x] == if f(x) then multiset(s)[x] else 0
  {
    if |s| > 0 {
      FilterMultiplicity(s[1..], f);
      assert s == [s[0]] + s[1..];
      assert multiset(s) == multiset{s[0]} + multiset(s[1..]);
      if f(s[0]) {
        assert Filter(s, f) == [s[0]] + Filter(s[1..], f);
        assert multiset(Filter(s, f)) == multiset{s[0]} + multiset(Filter(s[1..], f));
      }
    }
  }

  /** Counting over a concatenation adds the counts of the parts. */
  lemma {:induction false} CountAppend<T>(a: seq<T>, b: seq<T>, f: T -> bool)
    ensures Count(a + b, f) == Count(a, f) + Count(b, f)
  {
    if |a| > 0 {
      CountAppend(a[1..], b, f);
      assert (a + b)[1..] == a[1..] + b;
    } else {
      assert a + b == b;
    }
  }

  /** A weaker predicate keeps at least as many elements. */
  lemma {:induction false} FilterMono<T>(s: seq<T>, f: T -> bool, g: T -> bool)
    requires forall x :: f(x) ==> g(x)
    ensures |Filter(s, f)| <= |Filter(s, g)|
  {
    if |s| > 0 {
      FilterMono(s[1..], f, g);
    }
  }

  /** Filtering distributes over concatenation. */
  lemma {:induction false} FilterAppend<T>(a: seq<T>, b: seq<T>, f: T -> bool)
    ensures Filter(a + b, f) == Filter(a, f) + Filter(b, f)
  {
    if |a| > 0 {
      FilterAppend(a[1..], b, f);
      assert (a + b)[1..] == a[1..] + b;
    } else {
      assert a + b == b;
    }
  }

  // ---------------------------------------------------------------------------
  // Stable sort by an integer key, the behaviour of `Array.prototype.sort`
  // with the comparator `(a, b) => key(a) - key(b)`.

  /** Non-decreasing in `key`. */
  predicate SortedBy<T>(s: seq<T>, key: T -> int)
  {
    forall i, j :: 0 <= i < j < |s| ==> key(s[i]) <= key(s[j])
  }

  /** Places `x` before the first element whose key is not smaller. */
  function Insert<T(==)>(x: T, s: seq<T>, key: T -> int): (r: seq<T>)
    ensures multiset(r) == multiset(s) + multiset{x}
  {
    if |s| == 0 then [x]
    else if key(x) <= key(s[0]) then [x] + s
    else
      assert s == [s[0]] + s[1..];
      [s[0]] + Insert(x, s[1..], key)
  }

  /** Inserting into a sorted list keeps it sorted. */
  lemma {:induction false} InsertSorted<T>(x: T, s: seq<T>, key: T -> int)
    requires SortedBy(s, key)
    ensures SortedBy(Insert(x, s, key), key)
  {
    if |s| > 0 && key(x) > key(s[0]) {
      var t := Insert(x, s[1..], key);
      InsertSorted(x, s[1..], key);
      forall i | 0 <= i < |t|
        ensures key(s[0]) <= key(t[i])
      {
        assert t[i] in multiset(s[1..]) + multiset{x};
      }
    }
  }

  /** Insertion sort, stable: equal keys keep their input order. */
  function SortBy<T(==)>(s: seq<T>, key: T -> int): (r: seq<T>)
    ensures multiset(r) == multiset(s)
    ensures SortedBy(r, key)
  {
    if |s| == 0 then []
    else
      assert s == [s[0]] + s[1..];
      var t := SortBy(s[1..], key);
      InsertSorted(s[0], t, key);
      Insert(s[0], t, key)
  }

  /** Every element before position `m` has a key above `k`. */
  predicate KeysAbove<T>(s: seq<T>, m: int, k: int, key: T -> int)
  {
    forall i :: 0 <= i < m && i < |s| ==> key(s[i]) > k
  }

  /**
    The sort is stable at the front: its first element is the first element
    of the input with the smallest key.
   */
  lemma {:induction false} SortByHead<T>(s: seq<T>, key: T -> int)
    requires |s| > 0
    ensures exists m :: 0 <= m < |s| && SortBy(s, key)[0] == s[m] && KeysAbove(s, m, key(s[m]), key)
  {
    var t := SortBy(s[1..], key);
    assert SortBy(s, key) == Insert(s[0], t, key);
    if |t| == 0 || key(s[0]) <= key(t[0]) {
      assert KeysAbove(s, 0, key(s[0]), key);
    } else {
      PermutationSameElements(t, s[1..]);
      SortByHead(s[1..], key);
      var m :| 0 <= m < |s[1..]| && t[0] == s[1..][m] && KeysAbove(s[1..], m, key(s[1..][m]), key);
      KeysAboveShift(s, m, key(t[0]), key);
      assert s[m + 1] == t[0];
    }
  }

  /** A first element whose key is above `k` extends `KeysAbove` from the tail to the whole list. */
  lemma KeysAboveShift<T>(s: seq<T>, m: int, k: int, key: T -> int)
    requires |s| > 0 && key(s[0]) > k && KeysAbove(s[1..], m, k, key)
    ensures KeysAbove(s, m + 1, k, key)
  {
    forall i | 0 < i < m + 1 && i < |s|
      ensures key(s[i]) > k
    {
      assert s[i] == s[1..][i - 1];
    }
  }

  /** A permutation has the same length and the same elements. */
  lemma PermutationSameElements<T>(a: seq<T>, b: seq<T>)
    requires multiset(a) == multiset(b)
    ensures |a| == |b|
    ensures forall x :: x in a <==> x in b
  {
    assert |multiset(a)| == |multiset(b)|;
    forall x
      ensures x in a <==> x in b
    {
      assert x in a <==> x in multiset(a);
      assert x in b <==> x in multiset(b);
    }
  }
}

=== FILE: setup.dfy ===
/**
  The onboarding wizard (components/setup/InitialSetup.jsx): the master
  products grouped by category, the three steps (shop details, categories,
  products by category with beer split by container), and the product
  records assembled when the wizard completes.
 */
module Setup {
  import opened Seqs
  import opened Text
  import opened Records

  // ---------------------------------------------------------------------------
  // Grouping the fetched masters by category (InitialSetup.jsx:57-66).

  /** Filed under category key `c`. */
  function Under(c: string): Product -> bool
  {
    (p: Product) => CategoryKey(p) == c
  }

  /** `products[category].push(product)` over the fetched list. */
  function Group(ps: seq<Product>): map<string, seq<Product>>
  {
    if |ps| == 0 then map[]
    else
      var g := Group(ps[..|ps| - 1]);
      var k := CategoryKey(ps[|ps| - 1]);
      g[k := (if k in g then g[k] else []) + [ps[|ps| - 1]]]
  }

  /** Each category's list holds the products filed under it, in the order fetched; an absent category has none. */
  lemma {:induction false} GroupLists(ps: seq<Product>, c: string)
    ensures c in Group(ps) ==> Group(ps)[c] == Filter(ps, Under(c)) && |Group(ps)[c]| > 0
    ensures c !in Group(ps) ==> Filter(ps, Under(c)) == []
  {
    if |ps| > 0 {
      var init, last := ps[..|ps| - 1], ps[|ps| - 1];
      assert ps == init + [last];
      GroupLists(init, c);
      FilterAppend(init, [last], Under(c));
    }
  }

  /** A category has a list exactly when some fetched product is filed under it. */
  lemma GroupKeys(ps: seq<Product>, c: string)
    ensures c in Group(ps) <==> exists i :: 0 <= i < |ps| && CategoryKey(ps[i]) == c
  {
    GroupLists(ps, c);
    if c in Group(ps) {
      var r := Group(ps)[c];
      assert r[0] in ps && Under(c)(r[0]);
    } else {
      assert forall i :: 0 <= i < |ps| && Under(c)(ps[i]) ==> ps[i] in Filter(ps, Under(c));
    }
  }

  // ---------------------------------------------------------------------------
  // Selections.

  /** `prev.includes(x) ? prev.filter(y => y !== x) : [...prev, x]`. */
  function Toggle<T(==,!new)>(s: seq<T>, x: T): (r: seq<T>)
    ensures x in r <==> x !in s
    ensures forall y :: y != x ==> (y in r <==> y in s)
    ensures NoDup(s) ==> NoDup(r)
  {
    if x in s then
      var r := Filter(s, (y: T) => y != x);
      assert forall y :: y != x && y in s ==> y in r by {
        forall y | y != x && y in s ensures y in r {
          var i :| 0 <= i < |s| && s[i] == y;
        }
      }
      if NoDup(s) then FilterNoDup(s, (y: T) => y != x); r else r
    else
      s + [x]
  }

  /** Toggling an unselected item twice restores the list; toggling any item twice restores the selection as a set. */
  lemma ToggleTwice<T(!new)>(s: seq<T>, x: T)
    ensures x !in s ==> Toggle(Toggle(s, x), x) == s
    ensures forall y :: y in Toggle(Toggle(s, x), x) <==> y in s
  {
    if x !in s {
      var keep := (y: T) => y != x;
      FilterAppend(s, [x], keep);
      FilterAll(s, keep);
      assert Filter([x], keep) == [];
    }
  }

  /** The product choices: for each key (a category, or a beer container key), the list positions ticked. */
  type Selection = map<string, set<int>>

  /** `selectedProducts[key] || {}`. */
  function Ticked(sel: Selection, key: string): set<int>
  {
    if key in sel then sel[key] else {}
  }

  /** `[key]: { ...prev[key], [index]: !prev[key]?.[index] }`: flips one position under one key. */
  function TogglePick(sel: Selection, key: string, index: int): (r: Selection)
    ensures r.Keys == sel.Keys + {key}
    ensures index in Ticked(r, key) <==> index !in Ticked(sel, key)
    ensures forall j :: j != index ==> (j in Ticked(r, key) <==> j in Ticked(sel, key))
    ensures forall k :: k != key ==> Ticked(r, k) == Ticked(sel, k)
  {
    var t := Ticked(sel, key);
    sel[key := if index in t then t - {index} else t + {index}]
  }

  /** The key of a beer container's choices, `ビール_${container}`. */
  function BeerKey(container: string): string { Beer + "_" + container }

  // ---------------------------------------------------------------------------
  // The wizard (InitialSetup.jsx:94-237).

  datatype ShopInfo = ShopInfo(shopName: string, address: string, phone: string)

  datatype Wizard = Wizard(
    step: int, shop: ShopInfo,
    categories: seq<string>, categoryIndex: int, picks: Selection,
    showContainers: bool, containers: seq<string>, containerIndex: int)

  const Start := Wizard(1, ShopInfo("", "", ""), [], 0, map[], false, [], 0)

  /** What the wizard needs from outside: the grouped masters, the user's e-mail, the clock. */
  datatype Context = Context(masters: map<string, seq<Product>>, email: string, now: int)

  /** `setupData`, handed to `onComplete`. */
  datatype SetupData = SetupData(shop: ShopInfo, categories: seq<string>, products: seq<Data>)

  /** The wizard after an event, and the setup data when the event completes the wizard. */
  datatype After = After(w: Wizard, done: Option<SetupData>)

  /** `selectedCategories[currentCategoryIndex]`, "undefined" outside the list. */
  function CurrentCategory(w: Wizard): string
  {
    if 0 <= w.categoryIndex < |w.categories| then w.categories[w.categoryIndex] else "undefined"
  }

  /** `selectedBeerContainers[currentBeerContainerIndex]`, "undefined" outside the list. */
  function CurrentContainer(w: Wizard): string
  {
    if 0 <= w.containerIndex < |w.containers| then w.containers[w.containerIndex] else "undefined"
  }

  /** `handleShopInfoSubmit`: a blank shop name keeps the wizard at step 1. */
  function SubmitShop(w: Wizard): (w': Wizard)
    ensures IsBlank(w.shop.shopName) ==> w' == w
    ensures !IsBlank(w.shop.shopName) ==> w' == w.(step := 2)
  {
    TrimEmptyIffBlank(w.shop.shopName);
    if |Trim(w.shop.shopName)| == 0 then w else w.(step := 2)
  }

  /** `handleCategoryToggle(category)`. */
  function ToggleCategory(w: Wizard, c: string): (w': Wizard)
    ensures c in w'.categories <==> c !in w.categories
    ensures NoDup(w.categories) ==> NoDup(w'.categories)
  {
    w.(categories := Toggle(w.categories, c))
  }

  /**
    `proceedToNextCategory()`: the next category, or completion after the
    last. `picks` is the selection completion reads.
   */
  function Proceed(w: Wizard, picks: Selection, ctx: Context): (a: After)
    ensures w.categoryIndex < |w.categories| - 1 ==> a == After(w.(categoryIndex := w.categoryIndex + 1), None)
    ensures w.categoryIndex >= |w.categories| - 1 ==> a.w == w && a.done == Some(Complete(w, picks, ctx))
  {
    if w.categoryIndex < |w.categories| - 1 then After(w.(categoryIndex := w.categoryIndex + 1), None)
    else After(w, Some(Complete(w, picks, ctx)))
  }

  /** `handleCategorySubmit`: with no category, completion once the user confirms; otherwise step 3 at the first category. */
  function SubmitCategories(w: Wizard, confirmed: bool, ctx: Context): (a: After)
    ensures |w.categories| > 0 ==> a == After(w.(step := 3, categoryIndex := 0), None)
    ensures |w.categories| == 0 && !confirmed ==> a == After(w, None)
    ensures |w.categories| == 0 && confirmed ==> a.done.Some? && a.done.value.products == []
  {
    if |w.categories| == 0 then
      if confirmed then After(w, Some(Complete(w, w.picks, ctx))) else After(w, None)
    else After(w.(step := 3, categoryIndex := 0), None)
  }

  /** `handleProductToggle(index)`: flips a position under the current category. */
  function ToggleProduct(w: Wizard, index: int): (w': Wizard)
    ensures w'.picks == TogglePick(w.picks, CurrentCategory(w), index)
    ensures w' == w.(picks := w'.picks)
  {
    w.(picks := TogglePick(w.picks, CurrentCategory(w), index))
  }

  /** `handleNextCategory`: beer first asks for the containers; any other category proceeds. */
  function Next(w: Wizard, ctx: Context): (a: After)
    ensures CurrentCategory(w) == Beer ==> a == After(w.(showContainers := true), None)
    ensures CurrentCategory(w) != Beer ==> a == Proceed(w, w.picks, ctx)
  {
    if CurrentCategory(w) == Beer then After(w.(showContainers := true), None)
    else Proceed(w, w.picks, ctx)
  }

  /** `handlePrevCategory`: the previous category, or back to step 2 from the first. */
  function Prev(w: Wizard): (w': Wizard)
    ensures w.categoryIndex > 0 ==> w' == w.(categoryIndex := w.categoryIndex - 1)
    ensures w.categoryIndex <= 0 ==> w' == w.(step := 2)
  {
    if w.categoryIndex > 0 then w.(categoryIndex := w.categoryIndex - 1) else w.(step := 2)
  }

  /**
    `handleSkipCategory`, as written: the current category's choices are
    emptied, but completion after the last category reads the choices the
    handler saw before emptying them.
   */
  function SkipAsWritten(w: Wizard, ctx: Context): (a: After)
    ensures Ticked(a.w.picks, CurrentCategory(w)) == {}
    ensures a.done.Some? ==> a.done.value == Complete(w, w.picks, ctx)
  {
    var cleared := w.(picks := w.picks[CurrentCategory(w) := {}]);
    Proceed(cleared, w.picks, ctx)
  }

  /** The keys completion reads the beer choices under, one per chosen container. */
  function BeerKeys(containers: seq<string>): set<string>
  {
    set c | c in containers :: BeerKey(c)
  }

  /** Every chosen container's choices emptied; every other key kept. */
  function ClearBeer(picks: Selection, containers: seq<string>): (r: Selection)
    ensures forall c :: c in containers ==> Ticked(r, BeerKey(c)) == {}
    ensures forall k :: k !in BeerKeys(containers) ==> Ticked(r, k) == Ticked(picks, k)
  {
    picks + map c | c in containers :: BeerKey(c) := {}
  }

  /**
    `handleSkipCategory` as evidently intended: completion reads the emptied
    choices, and skipping beer (the "ビールをスキップ" button on the container
    screen) empties the container keys completion reads beer under.
   */
  function Skip(w: Wizard, ctx: Context): (a: After)
    ensures Ticked(a.w.picks, CurrentCategory(w)) == {}
    ensures CurrentCategory(w) == Beer ==> forall c :: c in w.containers ==> Ticked(a.w.picks, BeerKey(c)) == {}
    ensures CurrentCategory(w) != Beer ==> forall k :: k != CurrentCategory(w) ==> Ticked(a.w.picks, k) == Ticked(w.picks, k)
    ensures a.w.categories == w.categories && a.w.containers == w.containers
    ensures a.done.Some? ==> a.done.value == Complete(a.w, a.w.picks, ctx)
  {
    var cat := CurrentCategory(w);
    var kept := if cat == Beer then ClearBeer(w.picks, w.containers) else w.picks;
    var cleared := w.(picks := kept[cat := {}]);
    Proceed(cleared, cleared.picks, ctx)
  }

  /** `handleBeerContainerToggle(container)`. */
  function ToggleContainer(w: Wizard, c: string): (w': Wizard)
    ensures c in w'.containers <==> c !in w.containers
    ensures NoDup(w.containers) ==> NoDup(w'.containers)
  {
    w.(containers := Toggle(w.containers, c))
  }

  /** `handleBeerContainerSubmit`: refuses an empty choice; otherwise the first container's products. */
  function SubmitContainers(w: Wizard): (w': Wizard)
    ensures |w.containers| == 0 ==> w' == w
    ensures |w.containers| > 0 ==> w' == w.(containerIndex := 0, showContainers := false)
  {
    if |w.containers| == 0 then w else w.(containerIndex := 0, showContainers := false)
  }

  /** `handleBeerProductToggle(index)`: flips a position under the current container's key. */
  function ToggleBeerProduct(w: Wizard, index: int): (w': Wizard)
    ensures w'.picks == TogglePick(w.picks, BeerKey(CurrentContainer(w)), index)
    ensures w' == w.(picks := w'.picks)
  {
    w.(picks := TogglePick(w.picks, BeerKey(CurrentContainer(w)), index))
  }

  /** `handleNextBeerContainer`: the next container, or on to the next category after the last. */
  function NextContainer(w: Wizard, picks: Selection, ctx: Context): (a: After)
    ensures w.containerIndex < |w.containers| - 1 ==> a == After(w.(containerIndex := w.containerIndex + 1), None)
    ensures w.containerIndex >= |w.containers| - 1 ==> a == Proceed(w, picks, ctx)
  {
    if w.containerIndex < |w.containers| - 1 then After(w.(containerIndex := w.containerIndex + 1), None)
    else Proceed(w, picks, ctx)
  }

  /** `handlePrevBeerContainer`: the previous container, or back to the container choice from the first. */
  function PrevContainer(w: Wizard): (w': Wizard)
    ensures w.containerIndex > 0 ==> w' == w.(containerIndex := w.containerIndex - 1)
    ensures w.containerIndex <= 0 ==> w' == w.(showContainers := true)
  {
    if w.containerIndex > 0 then w.(containerIndex := w.containerIndex - 1) else w.(showContainers := true)
  }

  /** `handleSkipBeerContainer`, as written: completion reads the choices from before the skip. */
  function SkipContainerAsWritten(w: Wizard, ctx: Context): (a: After)
    ensures Ticked(a.w.picks, BeerKey(CurrentContainer(w))) == {}
    ensures a.done.Some? ==> a.done.value == Complete(w, w.picks, ctx)
  {
    var cleared := w.(picks := w.picks[BeerKey(CurrentContainer(w)) := {}]);
    NextContainer(cleared, w.picks, ctx)
  }

  /** `handleSkipBeerContainer` as evidently intended: completion reads the emptied choices. */
  function SkipContainer(w: Wizard, ctx: Context): (a: After)
    ensures Ticked(a.w.picks, BeerKey(CurrentContainer(w))) == {}
    ensures a.done.Some? ==> a.done.value == Complete(a.w, a.w.picks, ctx)
  {
    var cleared := w.(picks := w.picks[BeerKey(CurrentContainer(w)) := {}]);
    NextContainer(cleared, cleared.picks, ctx)
  }

  /** The user's actions. */
  datatype Event =
    | EditShop(info: ShopInfo) | SubmitShopInfo | BackToShop
    | ToggleCategoryOf(category: string) | PopularCategories | AllCategories | ClearCategories
    | SubmitCategoryChoice(confirmed: bool)
    | ToggleProductAt(index: int) | NextCategory | PrevCategory | SkipCategory
    | ToggleContainerOf(container: string) | SubmitContainerChoice
    | ToggleBeerProductAt(beerIndex: int) | NextBeerContainer | PrevBeerContainer | SkipBeerContainer

  /**
    One event, with the skips as evidently intended. A category card with no
    master product ignores the click; the three shortcut buttons choose the
    first four categories, all of them, or none.
   */
  function Step(w: Wizard, e: Event, ctx: Context): After
  {
    match e
    case EditShop(info) => After(w.(shop := info), None)
    case SubmitShopInfo => After(SubmitShop(w), None)
    case BackToShop => After(w.(step := 1), None)
    case ToggleCategoryOf(c) => After(if |MastersOf(ctx.masters, c)| > 0 then ToggleCategory(w, c) else w, None)
    case PopularCategories => After(w.(categories := Take(Categories, 4)), None)
    case AllCategories => After(w.(categories := Categories), None)
    case ClearCategories => After(w.(categories := []), None)
    case SubmitCategoryChoice(confirmed) => SubmitCategories(w, confirmed, ctx)
    case ToggleProductAt(i) => After(ToggleProduct(w, i), None)
    case NextCategory => Next(w, ctx)
    case PrevCategory => After(Prev(w), None)
    case SkipCategory => Skip(w, ctx)
    case ToggleContainerOf(c) => After(ToggleContainer(w, c), None)
    case SubmitContainerChoice => After(SubmitContainers(w), None)
    case ToggleBeerProductAt(i) => After(ToggleBeerProduct(w, i), None)
    case NextBeerContainer => NextContainer(w, w.picks, ctx)
    case PrevBeerContainer => After(PrevContainer(w), None)
    case SkipBeerContainer => SkipContainer(w, ctx)
  }

  /** The wizard after a sequence of events. */
  function Run(w: Wizard, es: seq<Event>, ctx: Context): Wizard
    decreases |es|
  {
    if |es| == 0 then w else Run(Step(w, es[0], ctx).w, es[1..], ctx)
  }

  /** The chosen categories and containers never repeat. */
  predicate Distinctive(w: Wizard)
  {
    NoDup(w.categories) && NoDup(w.containers)
  }

  /** No single event makes a category or a container repeat. */
  lemma StepKeepsChoicesDistinct(w: Wizard, e: Event, ctx: Context)
    requires Distinctive(w)
    ensures Distinctive(Step(w, e, ctx).w)
  {
    match e
    case ToggleCategoryOf(c) =>
    case PopularCategories => CategoriesDistinct();
    case AllCategories => CategoriesDistinct();
    case ToggleContainerOf(c) =>
    case SubmitCategoryChoice(confirmed) =>
    case NextCategory =>
    case SkipCategory =>
    case NextBeerContainer =>
    case SkipBeerContainer =>
    case _ =>
  }

  /** Whatever the user does, no category or container is chosen twice. */
  lemma {:induction false} RunKeepsChoicesDistinct(w: Wizard, es: seq<Event>, ctx: Context)
    requires Distinctive(w)
    ensures Distinctive(Run(w, es, ctx))
    decreases |es|
  {
    if |es| > 0 {
      var w1 := Step(w, es[0], ctx).w;
      StepKeepsChoicesDistinct(w, es[0], ctx);
      RunKeepsChoicesDistinct(w1, es[1..], ctx);
    }
  }

  // ---------------------------------------------------------------------------
  // The assembled products (InitialSetup.jsx:242-307).

  /** `{ ...product, category, stock: 0, minStock: 0, profit, isMaster: true, isNomihodai: false, addedBy, createdAt, updatedAt }`, the clock reading stamping both dates. */
  function SetupRecord(p: Product, cat: string, email: string, now: int): Data
  {
    Spread(p)[category := Str(cat)][stock := Num(0)][minStock := Num(0)]
      [profit := Num(p.Price() - p.Cost())][isMaster := Bool(true)][isNomihodai := Bool(false)]
      [addedBy := Str(email)][createdAt := Time(At(now))][updatedAt := Time(At(now))]
  }

  /**
    The shape every assembled record has, read as the components read it: no
    stock, a master, not all-you-can-drink, the user's, profit = price − cost.
   */
  predicate IsSetupRecord(d: Data, email: string)
  {
    var q := Product("", d);
    && q.Stock() == 0 && q.MinStock() == 0 && q.IsMaster() && !q.IsNomihodai()
    && q.TextOf(addedBy) == email && q.Profit() == q.Price() - q.Cost()
  }

  /** The record is filed under this category. */
  predicate InCategory(d: Data, cat: string)
  {
    category in d && d[category] == Str(cat)
  }

  /** The record's container is one of these. */
  predicate ContainerIn(d: Data, cs: seq<string>)
  {
    container in d && d[container].Str? && d[container].s in cs
  }

  /** `product.container === container`. */
  predicate HasContainer(p: Product, c: string)
  {
    container in p.data && p.data[container] == Str(c)
  }

  /** A record built from a master has the setup shape, the chosen category, and the master's prices. */
  lemma SetupRecordShape(p: Product, cat: string, email: string, now: int)
    ensures IsSetupRecord(SetupRecord(p, cat, email, now), email)
    ensures InCategory(SetupRecord(p, cat, email, now), cat)
    ensures var q := Product("", SetupRecord(p, cat, email, now)); q.Price() == p.Price() && q.Cost() == p.Cost()
  {
    SetupRecordPrices(p, cat, email, now);
    var d := SetupRecord(p, cat, email, now);
    assert d[stock] == Num(0) && d[minStock] == Num(0) && d[profit] == Num(p.Price() - p.Cost());
    assert d[isMaster] == Bool(true) && d[isNomihodai] == Bool(false) && d[addedBy] == Str(email);
  }

  /** The record holds the master's price and cost fields exactly as the master does. */
  lemma SetupRecordPrices(p: Product, cat: string, email: string, now: int)
    ensures var d := SetupRecord(p, cat, email, now);
      (price in d <==> price in p.data) && (price in d ==> d[price] == p.data[price])
    ensures var d := SetupRecord(p, cat, email, now);
      (cost in d <==> cost in p.data) && (cost in d ==> d[cost] == p.data[cost])
  {
  }

  /** The record keeps the master's container. */
  lemma SetupRecordContainer(p: Product, cat: string, email: string, now: int)
    ensures container in p.data ==> var d := SetupRecord(p, cat, email, now); container in d && d[container] == p.data[container]
  {
  }

  /** A ticked product is taken; under a container key only a product in that container is. */
  predicate Accepts(p: Product, onlyContainer: Option<string>)
  {
    onlyContainer.None? || HasContainer(p, onlyContainer.value)
  }

  /** The positions of the list that are ticked and that the key accepts, in list order. */
  function PickedAt(ps: seq<Product>, ticked: set<int>, onlyContainer: Option<string>): (idx: seq<int>)
    ensures forall k :: 0 <= k < |idx| ==> 0 <= idx[k] < |ps|
    ensures forall k, l :: 0 <= k < l < |idx| ==> idx[k] < idx[l]
    ensures forall i :: 0 <= i < |ps| ==> (i in idx <==> i in ticked && Accepts(ps[i], onlyContainer))
    decreases |ps|
  {
    if |ps| == 0 then []
    else
      var i := |ps| - 1;
      var front := PickedAt(ps[..i], ticked, onlyContainer);
      assert forall j :: 0 <= j < i ==> ps[..i][j] == ps[j];
      front + (if i in ticked && Accepts(ps[i], onlyContainer) then [i] else [])
  }

  /**
    `list?.forEach((product, index) => { if (ticked[index] ...) push(...) })`:
    the picked positions' records, in list order.
   */
  function Picks(ps: seq<Product>, ticked: set<int>, cat: string, onlyContainer: Option<string>, email: string, now: int): (r: seq<Data>)
    ensures |r| <= |ps|
    ensures forall k :: 0 <= k < |r| ==> IsSetupRecord(r[k], email) && InCategory(r[k], cat)
    ensures onlyContainer.Some? ==> forall k :: 0 <= k < |r| ==> container in r[k] && r[k][container] == Str(onlyContainer.value)
    decreases |ps|
  {
    if |ps| == 0 then []
    else
      var i := |ps| - 1;
      var p := ps[i];
      var front := Picks(ps[..i], ticked, cat, onlyContainer, email, now);
      SetupRecordShape(p, cat, email, now);
      SetupRecordContainer(p, cat, email, now);
      front + (if i in ticked && Accepts(p, onlyContainer) then [SetupRecord(p, cat, email, now)] else [])
  }

  /** One record per picked position: as many records as positions. */
  lemma {:induction false} PicksCount(ps: seq<Product>, ticked: set<int>, cat: string, onlyContainer: Option<string>, email: string, now: int)
    ensures |Picks(ps, ticked, cat, onlyContainer, email, now)| == |PickedAt(ps, ticked, onlyContainer)|
    decreases |ps|
  {
    if |ps| > 0 {
      PicksCount(ps[..|ps| - 1], ticked, cat, onlyContainer, email, now);
    }
  }

  /** The record is built from a ticked product of the list that the key accepts. */
  predicate FromTicked(d: Data, ps: seq<Product>, ticked: set<int>, cat: string, onlyContainer: Option<string>, email: string, now: int)
  {
    exists i :: 0 <= i < |ps| && i in ticked && Accepts(ps[i], onlyContainer) && d == SetupRecord(ps[i], cat, email, now)
  }

  /** A record built from a ticked product of a prefix of the list is built from one of the list. */
  lemma FromTickedExtend(d: Data, ps: seq<Product>, n: int, ticked: set<int>, cat: string, onlyContainer: Option<string>, email: string, now: int)
    requires 0 <= n <= |ps| && FromTicked(d, ps[..n], ticked, cat, onlyContainer, email, now)
    ensures FromTicked(d, ps, ticked, cat, onlyContainer, email, now)
  {
    var i :| 0 <= i < |ps[..n]| && i in ticked && Accepts(ps[..n][i], onlyContainer) && d == SetupRecord(ps[..n][i], cat, email, now);
    assert ps[..n][i] == ps[i];
  }

  /** The record of a ticked product the key accepts is built from a ticked product. */
  lemma FromTickedAt(ps: seq<Product>, i: int, ticked: set<int>, cat: string, onlyContainer: Option<string>, email: string, now: int)
    requires 0 <= i < |ps| && i in ticked && Accepts(ps[i], onlyContainer)
    ensures FromTicked(SetupRecord(ps[i], cat, email, now), ps, ticked, cat, onlyContainer, email, now)
  {
  }

  /** Every record taken is built from a ticked product the key accepts. */
  lemma {:induction false} PicksSound(ps: seq<Product>, ticked: set<int>, cat: string, onlyContainer: Option<string>, email: string, now: int)
    ensures forall d :: d in Picks(ps, ticked, cat, onlyContainer, email, now) ==> FromTicked(d, ps, ticked, cat, onlyContainer, email, now)
    decreases |ps|
  {
    if |ps| > 0 {
      var n := |ps| - 1;
      PicksSound(ps[..n], ticked, cat, onlyContainer, email, now);
      var front := Picks(ps[..n], ticked, cat, onlyContainer, email, now);
      forall d | d in Picks(ps, ticked, cat, onlyContainer, email, now)
        ensures FromTicked(d, ps, ticked, cat, onlyContainer, email, now)
      {
        if d in front {
          FromTickedExtend(d, ps, n, ticked, cat, onlyContainer, email, now);
        } else {
          FromTickedAt(ps, n, ticked, cat, onlyContainer, email, now);
        }
      }
    }
  }

  /** Every ticked product the key accepts is taken. */
  lemma {:induction false} PicksComplete(ps: seq<Product>, ticked: set<int>, cat: string, onlyContainer: Option<string>, email: string, now: int, i: int)
    requires 0 <= i < |ps| && i in ticked && Accepts(ps[i], onlyContainer)
    ensures SetupRecord(ps[i], cat, email, now) in Picks(ps, ticked, cat, onlyContainer, email, now)
    decreases |ps|
  {
    if i < |ps| - 1 {
      var init := ps[..|ps| - 1];
      assert init[i] == ps[i];
      PicksComplete(init, ticked, cat, onlyContainer, email, now, i);
    }
  }

  /** A record is taken exactly when it is built from a ticked product the key accepts. */
  lemma PicksExactly(ps: seq<Product>, ticked: set<int>, cat: string, onlyContainer: Option<string>, email: string, now: int, d: Data)
    ensures d in Picks(ps, ticked, cat, onlyContainer, email, now) <==> FromTicked(d, ps, ticked, cat, onlyContainer, email, now)
  {
    PicksSound(ps, ticked, cat, onlyContainer, email, now);
    if FromTicked(d, ps, ticked, cat, onlyContainer, email, now) {
      var i :| 0 <= i < |ps| && i in ticked && Accepts(ps[i], onlyContainer) && d == SetupRecord(ps[i], cat, email, now);
      PicksComplete(ps, ticked, cat, onlyContainer, email, now, i);
    }
  }

  /** Nothing ticked, nothing taken. */
  lemma {:induction false} NothingTickedNothingPicked(ps: seq<Product>, cat: string, onlyContainer: Option<string>, email: string, now: int)
    ensures Picks(ps, {}, cat, onlyContainer, email, now) == []
    decreases |ps|
  {
    if |ps| > 0 {
      NothingTickedNothingPicked(ps[..|ps| - 1], cat, onlyContainer, email, now);
    }
  }

  /** `masterProducts[category]`, empty when absent. */
  function MastersOf(masters: map<string, seq<Product>>, cat: string): seq<Product>
  {
    if cat in masters then masters[cat] else []
  }

  /** The beer products, container by container, each under its own container key. */
  function BeerPicks(containers: seq<string>, ctx: Context, picks: Selection): (r: seq<Data>)
    ensures forall k :: 0 <= k < |r| ==> IsSetupRecord(r[k], ctx.email) && InCategory(r[k], Beer)
    ensures forall k :: 0 <= k < |r| ==> ContainerIn(r[k], containers)
    decreases |containers|
  {
    if |containers| == 0 then []
    else
      var c := containers[0];
      var here := Picks(MastersOf(ctx.masters, Beer), Ticked(picks, BeerKey(c)), Beer, Some(c), ctx.email, ctx.now);
      var rest := BeerPicks(containers[1..], ctx, picks);
      assert forall k :: 0 <= k < |rest| ==> ContainerIn(rest[k], containers) by {
        forall k | 0 <= k < |rest| ensures ContainerIn(rest[k], containers) {
          assert rest[k][container].s in containers[1..];
        }
      }
      here + rest
  }

  /** One category's products: beer by container, any other category by its own ticks. */
  function CategoryPicks(cat: string, containers: seq<string>, ctx: Context, picks: Selection): (r: seq<Data>)
    ensures forall k :: 0 <= k < |r| ==> IsSetupRecord(r[k], ctx.email) && InCategory(r[k], cat)
    ensures cat == Beer ==> forall k :: 0 <= k < |r| ==> ContainerIn(r[k], containers)
  {
    if cat == Beer then BeerPicks(containers, ctx, picks)
    else Picks(MastersOf(ctx.masters, cat), Ticked(picks, cat), cat, None, ctx.email, ctx.now)
  }

  /** `productsToAdd`: the categories' products, in the order the categories were chosen. */
  function Assemble(cats: seq<string>, containers: seq<string>, ctx: Context, picks: Selection): (r: seq<Data>)
    ensures forall k :: 0 <= k < |r| ==> IsSetupRecord(r[k], ctx.email)
    ensures forall k :: 0 <= k < |r| && InCategory(r[k], Beer) ==> ContainerIn(r[k], containers)
    decreases |cats|
  {
    if |cats| == 0 then []
    else
      var here := CategoryPicks(cats[0], containers, ctx, picks);
      var rest := Assemble(cats[1..], containers, ctx, picks);
      assert forall k :: 0 <= k < |here| && InCategory(here[k], Beer) ==> cats[0] == Beer;
      here + rest
  }

  /** `handleSetupComplete`: the shop details, the chosen categories, and the assembled products. */
  function Complete(w: Wizard, picks: Selection, ctx: Context): (s: SetupData)
    ensures s.shop == w.shop && s.categories == w.categories
    ensures forall k :: 0 <= k < |s.products| ==> IsSetupRecord(s.products[k], ctx.email)
    ensures forall k :: 0 <= k < |s.products| && InCategory(s.products[k], Beer) ==> ContainerIn(s.products[k], w.containers)
  {
    SetupData(w.shop, w.categories, Assemble(w.categories, w.containers, ctx, picks))
  }

  /** With no chosen container's product ticked, beer contributes no product. */
  lemma {:induction false} NothingTickedNoBeer(containers: seq<string>, ctx: Context, picks: Selection)
    requires forall c :: c in containers ==> Ticked(picks, BeerKey(c)) == {}
    ensures BeerPicks(containers, ctx, picks) == []
    decreases |containers|
  {
    if |containers| > 0 {
      NothingTickedNothingPicked(MastersOf(ctx.masters, Beer), Beer, Some(containers[0]), ctx.email, ctx.now);
      NothingTickedNoBeer(containers[1..], ctx, picks);
    }
  }

  /**
    A category with nothing ticked contributes no product: for beer, nothing
    ticked under any chosen container; for any other category, nothing ticked
    under its own key.
   */
  lemma {:induction false} UntickedCategoryAddsNothing(cats: seq<string>, containers: seq<string>, ctx: Context, picks: Selection, c: string)
    requires c != Beer ==> Ticked(picks, c) == {}
    requires c == Beer ==> forall x :: x in containers ==> Ticked(picks, BeerKey(x)) == {}
    ensures forall k :: 0 <= k < |Assemble(cats, containers, ctx, picks)| ==> !InCategory(Assemble(cats, containers, ctx, picks)[k], c)
    decreases |cats|
  {
    if |cats| > 0 {
      UntickedCategoryAddsNothing(cats[1..], containers, ctx, picks, c);
      if cats[0] == c {
        if c == Beer {
          NothingTickedNoBeer(containers, ctx, picks);
        } else {
          NothingTickedNothingPicked(MastersOf(ctx.masters, c), c, None, ctx.email, ctx.now);
        }
      }
    }
  }

  /** With the intended skip, skipping the last category, beer included, leaves none of its products in the setup. */
  lemma SkipLastAddsNothing(w: Wizard, ctx: Context)
    requires |w.categories| > 0 && w.categoryIndex == |w.categories| - 1
    ensures Skip(w, ctx).done.Some?
    ensures var s := Skip(w, ctx).done.value;
      forall k :: 0 <= k < |s.products| ==> !InCategory(s.products[k], CurrentCategory(w))
  {
    var a := Skip(w, ctx);
    UntickedCategoryAddsNothing(a.w.categories, a.w.containers, ctx, a.w.picks, CurrentCategory(w));
  }

  /**
    As written, skipping the last category after ticking one of its products
    still adds that product: one sake master, ticked, then skipped.
   */
  lemma SkipLastAsWrittenAddsSkipped(p: Product, email: string, now: int)
    ensures var ctx := Context(map["日本酒" := [p]], email, now);
      var w := Start.(step := 3, categories := ["日本酒"], categoryIndex := 0, picks := map["日本酒" := {0}]);
      var a := SkipAsWritten(w, ctx);
      && a.done.Some? && |a.done.value.products| == 1 && InCategory(a.done.value.products[0], "日本酒")
      && Ticked(a.w.picks, "日本酒") == {}
  {
    var ctx := Context(map["日本酒" := [p]], email, now);
    var picked := Picks([p], {0}, "日本酒", None, email, now);
    assert [p][..0] == [];
    assert picked == [SetupRecord(p, "日本酒", email, now)];
    assert Assemble(["日本酒"], [], ctx, map["日本酒" := {0}]) == picked;
  }

  /**
    The same holds for the beer containers: as written, skipping the last
    container after ticking one of its products still adds that product (one
    bottled beer, ticked, then skipped).
   */
  lemma SkipLastContainerAsWrittenAddsSkipped(p: Product, email: string, now: int)
    requires HasContainer(p, "瓶")
    ensures var ctx := Context(map[Beer := [p]], email, now);
      var w := Start.(step := 3, categories := [Beer], containers := ["瓶"], picks := map[BeerKey("瓶") := {0}]);
      var a := SkipContainerAsWritten(w, ctx);
      && a.done.Some? && |a.done.value.products| == 1 && InCategory(a.done.value.products[0], Beer)
      && Ticked(a.w.picks, BeerKey("瓶")) == {}
  {
    var ctx := Context(map[Beer := [p]], email, now);
    var picks := map[BeerKey("瓶") := {0}];
    var picked := Picks([p], {0}, Beer, Some("瓶"), email, now);
    assert [p][..0] == [];
    assert picked == [SetupRecord(p, Beer, email, now)];
    assert BeerPicks(["瓶"], ctx, picks) == picked;
    assert Assemble([Beer], ["瓶"], ctx, picks) == picked;
  }

  /** With the intended skip, the same run adds no product. */
  lemma SkipLastContainerAddsNothing(p: Product, email: string, now: int)
    ensures var ctx := Context(map[Beer := [p]], email, now);
      var w := Start.(step := 3, categories := [Beer], containers := ["瓶"], picks := map[BeerKey("瓶") := {0}]);
      var a := SkipContainer(w, ctx);
      a.done.Some? && a.done.value.products == []
  {
    var ctx := Context(map[Beer := [p]], email, now);
    var w := Start.(step := 3, categories := [Beer], containers := ["瓶"], picks := map[BeerKey("瓶") := {0}]);
    assert CurrentContainer(w) == "瓶";
    var a := SkipContainer(w, ctx);
    assert a == Proceed(a.w, a.w.picks, ctx);
    NothingTickedNothingPicked([p], Beer, Some("瓶"), email, now);
    assert BeerPicks(["瓶"], ctx, a.w.picks) == [];
    assert Assemble([Beer], ["瓶"], ctx, a.w.picks) == [];
  }

  /**
    Skipping beer from the container screen, as written, empties only the
    `ビール` key, which completion never reads for beer: one bottled beer,
    ticked, then the user goes back to the container screen and skips beer.
    The beer is still added, and it would be even if completion read the
    emptied choices.
   */
  lemma SkipBeerAsWrittenAddsSkipped(p: Product, email: string, now: int)
    requires HasContainer(p, "瓶")
    ensures var ctx := Context(map[Beer := [p]], email, now);
      var w := Start.(step := 3, categories := [Beer], containers := ["瓶"], showContainers := true, picks := map[BeerKey("瓶") := {0}]);
      var a := SkipAsWritten(w, ctx);
      var emptied := w.(picks := w.picks[Beer := {}]);
      && a.done.Some? && |a.done.value.products| == 1 && InCategory(a.done.value.products[0], Beer)
      && Proceed(emptied, emptied.picks, ctx).done == a.done
  {
    var ctx := Context(map[Beer := [p]], email, now);
    var picks := map[BeerKey("瓶") := {0}];
    var emptied := picks[Beer := {}];
    assert BeerKey("瓶") != Beer;
    assert Ticked(emptied, BeerKey("瓶")) == {0};
    var picked := Picks([p], {0}, Beer, Some("瓶"), email, now);
    assert [p][..0] == [];
    assert picked == [SetupRecord(p, Beer, email, now)];
    assert BeerPicks(["瓶"], ctx, picks) == picked;
    assert BeerPicks(["瓶"], ctx, emptied) == picked;
    assert Assemble([Beer], ["瓶"], ctx, picks) == picked;
    assert Assemble([Beer], ["瓶"], ctx, emptied) == picked;
  }
}

=== FILE: store.dfy ===
/**
  The product hook over the signed-in user's collection `users/{uid}/products`.

  The collection is a map from document id to document data. Every write
  reports `{ success }`; a write attempted without a signed-in user fails and
  touches nothing. The store assigns fresh ids to new documents and stamps
  `serverTimestamp()` on `createdAt`/`updatedAt`; both are inputs here.
 */
module Store {
  import opened Records

  datatype User = User(uid: string, email: string)

  datatype Error = NotSignedIn | NoSuchDocument

  datatype Outcome = Success | Failure(error: Error)

  /** The documents of `users/{uid}/products`, by document id. */
  type Docs = map<string, Data>

  /** What a write reports, and the collection after it. */
  datatype Write = Write(outcome: Outcome, docs: Docs)

  /** `Number(productData[f])` for a numeric payload field. */
  function Coerced(payload: Data, f: Field): int
  {
    if f in payload && payload[f].Num? then payload[f].n else 0
  }

  /** The fields `addProduct` passes through `Number(...)`. */
  predicate IsCoercedField(f: Field)
  {
    match f
    case stock | cost | price | minStock => true
    case _ => false
  }

  /** The fields `addProduct` writes over the caller's payload. */
  predicate IsWrittenOnAdd(f: Field)
  {
    match f
    case stock | cost | price | minStock | addedBy | createdAt | updatedAt => true
    case _ => false
  }

  /** The value `addProduct` stores under a field it writes. */
  function AddedValue(payload: Data, email: string, f: Field): Value
  {
    match f
    case addedBy => Str(email)
    case createdAt | updatedAt => Time(ServerTime)
    case _ => Num(Coerced(payload, f))
  }

  /**
    What `addProduct(productData)` stores: the payload with its four numbers
    passed through `Number(...)`, the user's e-mail as `addedBy`, and both
    timestamps set to `serverTimestamp()`; every other field is the payload's.
   */
  function Added(payload: Data, email: string): (d: Data)
    ensures forall f :: IsCoercedField(f) ==> f in d && d[f] == Num(Coerced(payload, f))
    ensures addedBy in d && d[addedBy] == Str(email)
    ensures createdAt in d && d[createdAt] == Time(ServerTime)
    ensures updatedAt in d && d[updatedAt] == Time(ServerTime)
    ensures forall f :: !IsWrittenOnAdd(f) ==> (f in d <==> f in payload) && (f in payload ==> d[f] == payload[f])
  {
    map f | f in payload || IsWrittenOnAdd(f) ::
      if IsWrittenOnAdd(f) then AddedValue(payload, email, f) else payload[f]
  }

  /**
    `d` after `updateDoc(ref, { ...patch, updatedAt: serverTimestamp() })`: the
    patch's fields replace the document's, the update stamp is set, and the
    document's other fields are kept.
   */
  function Patched(d: Data, patch: Data): (d': Data)
    ensures updatedAt in d' && d'[updatedAt] == Time(ServerTime)
    ensures forall f :: f != updatedAt ==> (f in d' <==> f in d || f in patch)
    ensures forall f :: f != updatedAt && f in patch ==> d'[f] == patch[f]
    ensures forall f :: f != updatedAt && f !in patch && f in d ==> d'[f] == d[f]
  {
    map f | f in d || f in patch || f == updatedAt ::
      if f == updatedAt then Time(ServerTime)
      else if f in patch then patch[f]
      else d[f]
  }

  /** Patching twice with the same fields is patching once. */
  lemma PatchedIdempotent(d: Data, patch: Data)
    ensures Patched(Patched(d, patch), patch) == Patched(d, patch)
  {
  }

  /**
    `addProduct(productData)` (useProducts.js:58-82): exactly one document is
    created, under the fresh id the store assigns, holding `Added`.
   */
  function AddProduct(user: Option<User>, docs: Docs, newId: string, payload: Data): (r: Write)
    requires newId !in docs
    ensures user.None? ==> r == Write(Failure(NotSignedIn), docs)
    ensures user.Some? ==> r.outcome == Success
    ensures user.Some? ==> r.docs.Keys == docs.Keys + {newId}
    ensures user.Some? ==> r.docs == docs[newId := Added(payload, user.value.email)]
  {
    if user.None? then Write(Failure(NotSignedIn), docs)
    else Write(Success, docs[newId := Added(payload, user.value.email)])
  }

  /**
    `updateProduct(productId, updateData)` (useProducts.js:85-102). Updating a
    document that does not exist is rejected by the store and reported as a failure.
   */
  function UpdateProduct(user: Option<User>, docs: Docs, docId: string, patch: Data): (r: Write)
    ensures user.None? ==> r == Write(Failure(NotSignedIn), docs)
    ensures user.Some? && docId !in docs ==> r == Write(Failure(NoSuchDocument), docs)
    ensures user.Some? && docId in docs ==> r.outcome == Success
    ensures r.docs.Keys == docs.Keys
    ensures user.Some? && docId in docs ==> r.docs == docs[docId := Patched(docs[docId], patch)]
  {
    if user.None? then Write(Failure(NotSignedIn), docs)
    else if docId !in docs then Write(Failure(NoSuchDocument), docs)
    else Write(Success, docs[docId := Patched(docs[docId], patch)])
  }

  /** `deleteProduct(productId)` (useProducts.js:105-119); deleting an absent document succeeds. */
  function DeleteProduct(user: Option<User>, docs: Docs, docId: string): (r: Write)
    ensures user.None? ==> r == Write(Failure(NotSignedIn), docs)
    ensures user.Some? ==> r.outcome == Success
    ensures user.Some? ==> r.docs.Keys == docs.Keys - {docId}
    ensures forall k :: k in r.docs ==> k in docs && r.docs[k] == docs[k]
  {
    if user.None? then Write(Failure(NotSignedIn), docs)
    else Write(Success, docs - {docId})
  }

  /** The stock `updateStock` writes: `Math.max(0, newStock)`. */
  function StockPatch(newStock: int): (patch: Data)
    ensures patch.Keys == {stock}
    ensures patch[stock].Num? && patch[stock].n >= 0
    ensures newStock >= 0 ==> patch[stock] == Num(newStock)
  {
    map[stock := Num(if newStock < 0 then 0 else newStock)]
  }

  /**
    `updateStock(productId, newStock)` (useProducts.js:122-126): an update of
    the stock alone, clamped at 0. The document reads back with the new stock
    and no other document changes.
   */
  function UpdateStock(user: Option<User>, docs: Docs, docId: string, newStock: int): (r: Write)
    ensures user.None? ==> r == Write(Failure(NotSignedIn), docs)
    ensures user.Some? && docId !in docs ==> r == Write(Failure(NoSuchDocument), docs)
    ensures r.docs.Keys == docs.Keys
    ensures forall k :: k in docs && k != docId ==> r.docs[k] == docs[k]
    ensures user.Some? && docId in docs ==> r.outcome == Success
    ensures user.Some? && docId in docs ==> View(docId, r.docs[docId]).Stock() >= 0
    ensures user.Some? && docId in docs && newStock >= 0 ==> View(docId, r.docs[docId]).Stock() == newStock
    ensures user.Some? && docId in docs && newStock < 0 ==> View(docId, r.docs[docId]).Stock() == 0
  {
    UpdateProduct(user, docs, docId, StockPatch(newStock))
  }

  /** A change a component asks of the store for an existing document. */
  datatype Request = NoRequest | UpdateDoc(docId: string, patch: Data) | DeleteDoc(docId: string)

  /**
    The collection after the store carries out a request: nothing changes
    without a user or a request; an update keeps the set of documents and a
    delete removes the requested one; every document not named by the
    request is kept as it was.
   */
  function Perform(user: Option<User>, docs: Docs, r: Request): (d: Docs)
    ensures user.None? || r.NoRequest? ==> d == docs
    ensures r.UpdateDoc? ==> d.Keys == docs.Keys
    ensures user.Some? && r.UpdateDoc? && r.docId in docs ==> d[r.docId] == Patched(docs[r.docId], r.patch)
    ensures user.Some? && r.DeleteDoc? ==> d.Keys == docs.Keys - {r.docId}
    ensures forall k :: k in d && (r.NoRequest? || k != r.docId) ==> k in docs && d[k] == docs[k]
  {
    match r
    case NoRequest => docs
    case UpdateDoc(docId, patch) => UpdateProduct(user, docs, docId, patch).docs
    case DeleteDoc(docId) => DeleteProduct(user, docs, docId).docs
  }

  /**
    A form after its write returns, when the component checks `result.success`:
    cleared to `empty` on a reported success, kept as typed on a failure.
   */
  function ResetOnSuccess<F>(form: F, empty: F, outcome: Outcome): (f: F)
    ensures outcome.Success? ==> f == empty
    ensures outcome.Failure? ==> f == form
  {
    if outcome.Success? then empty else form
  }

  /**
    A form after its write returns, when the component calls `resetForm()`
    without looking at the result: always the empty form. The point is made
    by the lemmas that set it against `ResetOnSuccess`
    (`CustomerView.FailedAddClearsForm`, `LegacyCustomer.FailedUpdateClearsForm`).
   */
  function ResetAlways<F>(form: F, empty: F, outcome: Outcome): (f: F)
    ensures f == empty
  {
    empty
  }

  /**
    The listed products (useProducts.js:25-43): empty without a user, otherwise
    one product per delivered document, in the order the store delivers them.
   */
  function Products(user: Option<User>, delivered: seq<(string, Data)>): (r: seq<Product>)
    ensures user.None? ==> r == []
    ensures user.Some? ==> |r| == |delivered|
    ensures user.Some? ==> forall i :: 0 <= i < |r| ==> r[i] == View(delivered[i].0, delivered[i].1)
  {
    if user.None? then [] else seq(|delivered|, i requires 0 <= i < |delivered| => View(delivered[i].0, delivered[i].1))
  }

  // ---------------------------------------------------------------------------
  // Properties of the store contract.

  /** The stock written by `updateStock` is never negative, and a non-negative value is written as given. */
  lemma UpdateStockClamps(user: User, docs: Docs, docId: string, newStock: int)
    requires docId in docs
    ensures UpdateStock(Some(user), docs, docId, newStock).outcome == Success
    ensures View(docId, UpdateStock(Some(user), docs, docId, newStock).docs[docId]).Stock() >= 0
    ensures newStock >= 0 ==> View(docId, UpdateStock(Some(user), docs, docId, newStock).docs[docId]).Stock() == newStock
  {
  }

  /** `updateStock` touches the stock and the update stamp and nothing else. */
  lemma UpdateStockOnlyStock(user: User, docs: Docs, docId: string, newStock: int)
    requires docId in docs
    ensures var d' := UpdateStock(Some(user), docs, docId, newStock).docs[docId];
      forall f :: f != stock && f != updatedAt ==>
        (f in d' <==> f in docs[docId]) && (f in d' ==> d'[f] == docs[docId][f])
  {
  }

  /** Writing the same stock twice is the same as writing it once. */
  lemma UpdateStockIdempotent(user: Option<User>, docs: Docs, docId: string, newStock: int)
    ensures var once := UpdateStock(user, docs, docId, newStock).docs;
      UpdateStock(user, once, docId, newStock).docs == once
  {
    if user.Some? && docId in docs {
      PatchedIdempotent(docs[docId], StockPatch(newStock));
    }
  }

  /** Adding a document and deleting it by its new id gives back the collection. */
  lemma AddThenDelete(user: User, docs: Docs, newId: string, payload: Data)
    requires newId !in docs
    ensures var added := AddProduct(Some(user), docs, newId, payload).docs;
      DeleteProduct(Some(user), added, newId).docs == docs
  {
    var added := AddProduct(Some(user), docs, newId, payload).docs;
    assert (added - {newId}).Keys == docs.Keys;
  }

  /** A freshly added document reads back with its stock levels passed through `Number(...)`. */
  lemma AddedReadsStock(payload: Data, email: string, newId: string)
    ensures View(newId, Added(payload, email)).Stock() == Coerced(payload, stock)
    ensures View(newId, Added(payload, email)).MinStock() == Coerced(payload, minStock)
  {
  }

  /** A freshly added document reads back with its prices passed through `Number(...)` and the user's e-mail as creator. */
  lemma AddedReadsPrices(payload: Data, email: string, newId: string)
    ensures View(newId, Added(payload, email)).Cost() == Coerced(payload, cost)
    ensures View(newId, Added(payload, email)).Price() == Coerced(payload, price)
    ensures View(newId, Added(payload, email)).TextOf(addedBy) == email
  {
  }

  /** A freshly added document reads every field `addProduct` does not set exactly as the payload had it. */
  lemma AddedReadsPayload(payload: Data, email: string, newId: string, f: Field)
    requires !IsWrittenOnAdd(f)
    ensures View(newId, Added(payload, email)).TextOf(f) == View(newId, payload).TextOf(f)
    ensures View(newId, Added(payload, email)).NumberOf(f) == View(newId, payload).NumberOf(f)
    ensures View(newId, Added(payload, email)).FlagOf(f) == View(newId, payload).FlagOf(f)
  {
  }

  /** A product added without `isActive: false` is listed as active. */
  lemma AddedReadsActive(payload: Data, email: string, newId: string)
    ensures View(newId, Added(payload, email)).IsActive() == View(newId, payload).IsActive()
  {
  }
}

=== FILE: text.dfy ===
/**
  The string operations the components call: `toLowerCase`, `includes` and `trim`.
 */
module Text {

  /** `toLowerCase` on one character. Only the ASCII capitals are mapped. */
  function Lower(c: char): char
  {
    if 'A' <= c <= 'Z' then (c as int - 'A' as int + 'a' as int) as char else c
  }

  function ToLower(s: string): (r: string)
    ensures |r| == |s|
    ensures forall i :: 0 <= i < |s| ==> r[i] == Lower(s[i])
  {
    seq(|s|, i requires 0 <= i < |s| => Lower(s[i]))
  }

  /** Lower-casing twice is lower-casing once. */
  lemma ToLowerIdempotent(s: string)
    ensures ToLower(ToLower(s)) == ToLower(s)
  {
  }

  predicate StartsWith(s: string, p: string)
  {
    |p| <= |s| && s[..|p|] == p
  }

  /** `s.includes(t)`: `t` occurs in `s` as a contiguous piece. */
  predicate Includes(s: string, t: string)
    decreases |s|
  {
    StartsWith(s, t) || (|s| > 0 && Includes(s[1..], t))
  }

  /** An occurrence at any offset is found. */
  lemma {:induction false} IncludesAt(s: string, t: string, i: nat)
    requires i + |t| <= |s| && s[i..i + |t|] == t
    ensures Includes(s, t)
    decreases i
  {
    if i > 0 {
      assert s[1..][i - 1..i - 1 + |t|] == s[i..i + |t|];
      IncludesAt(s[1..], t, i - 1);
    } else {
      assert s[..|t|] == t;
    }
  }

  /** Conversely, every `Includes` comes from an occurrence at some offset. */
  lemma {:induction false} IncludesWitness(s: string, t: string) returns (i: nat)
    requires Includes(s, t)
    ensures i + |t| <= |s| && s[i..i + |t|] == t
    decreases |s|
  {
    if StartsWith(s, t) {
      i := 0;
    } else {
      var k := IncludesWitness(s[1..], t);
      assert s[1..][k..k + |t|] == s[k + 1..k + 1 + |t|];
      i := k + 1;
    }
  }

  lemma IncludesSelf(s: string)
    ensures Includes(s, s)
  {
    assert s[..|s|] == s;
  }

  lemma IncludesEmpty(s: string)
    ensures Includes(s, "")
  {
  }

  /**
    The characters `String.prototype.trim` removes: the ECMAScript WhiteSpace
    and LineTerminator code points (tab, line tab, form feed, space, no-break
    space, byte order mark, the Zs space separators and the four line ends).
   */
  predicate IsSpace(c: char)
  {
    || c == '\t' || c == '\n' || c == '\U{B}' || c == '\U{C}' || c == '\r'
    || c == ' ' || c == '\U{A0}' || c == '\U{1680}'
    || ('\U{2000}' <= c <= '\U{200A}')
    || c == '\U{2028}' || c == '\U{2029}' || c == '\U{202F}' || c == '\U{205F}'
    || c == '\U{3000}' || c == '\U{FEFF}'
  }

  /** Every character is white space (the empty string included). */
  predicate IsBlank(s: string)
  {
    forall i :: 0 <= i < |s| ==> IsSpace(s[i])
  }

  function TrimStart(s: string): (r: string)
    ensures |r| <= |s| && r == s[|s| - |r|..]
    ensures |r| > 0 ==> !IsSpace(r[0])
    ensures forall i :: 0 <= i < |s| - |r| ==> IsSpace(s[i])
  {
    if |s| > 0 && IsSpace(s[0]) then TrimStart(s[1..]) else s
  }

  function TrimEnd(s: string): (r: string)
    ensures |r| <= |s| && r == s[..|r|]
    ensures |r| > 0 ==> !IsSpace(r[|r| - 1])
    ensures forall i :: |r| <= i < |s| ==> IsSpace(s[i])
  {
    if |s| > 0 && IsSpace(s[|s| - 1]) then TrimEnd(s[..|s| - 1]) else s
  }

  /** `s.trim()`. */
  function Trim(s: string): string
  {
    TrimEnd(TrimStart(s))
  }

  /** `!s.trim()` holds exactly for the blank strings. */
  lemma TrimEmptyIffBlank(s: string)
    ensures |Trim(s)| == 0 <==> IsBlank(s)
  {
  }

  /** Trimming never lengthens a string, so a long trimmed value means a long input. */
  lemma TrimShortens(s: string)
    ensures |Trim(s)| <= |s|
  {
  }
}

=== FILE: toast.dfy ===
/**
  The toast list (hooks/useToast.js). A toast's id comes from the clock and
  a random number; here it is an input.
 */
module Toasts {
  import opened Seqs
  import opened Records

  datatype Toast = Toast(id: int, message: string, kind: string, duration: int)

  const DefaultKind := "info"
  const DefaultDuration := 3000

  /**
    `addToast(message, type = 'info', duration = 3000)`: the new toast goes
    at the end; an omitted type or duration takes its default.
   */
  function AddToast(toasts: seq<Toast>, id: int, message: string, kind: Option<string>, duration: Option<int>): (r: seq<Toast>)
    ensures |r| == |toasts| + 1 && r[..|toasts|] == toasts
    ensures r[|toasts|].id == id && r[|toasts|].message == message
    ensures r[|toasts|].kind == kind.GetOr(DefaultKind) && r[|toasts|].duration == duration.GetOr(DefaultDuration)
  {
    toasts + [Toast(id, message, kind.GetOr(DefaultKind), duration.GetOr(DefaultDuration))]
  }

  /** Not the toast with this id. */
  function Other(id: int): Toast -> bool
  {
    (t: Toast) => t.id != id
  }

  /** `removeToast(id)`: drops the toasts with that id and keeps the rest in order. */
  function RemoveToast(toasts: seq<Toast>, id: int): (r: seq<Toast>)
    ensures IsSubseq(r, toasts)
    ensures forall i :: 0 <= i < |r| ==> r[i].id != id
    ensures forall i :: 0 <= i < |toasts| && toasts[i].id != id ==> toasts[i] in r
    ensures forall t :: multiset(r)[t] == if t.id != id then multiset(toasts)[t] else 0
  {
    FilterIsSubseq(toasts, Other(id));
    FilterCount(toasts, Other(id));
    Filter(toasts, Other(id))
  }

  /** Removing twice removes no more than removing once. */
  lemma RemoveIdempotent(toasts: seq<Toast>, id: int)
    ensures RemoveToast(RemoveToast(toasts, id), id) == RemoveToast(toasts, id)
  {
    FilterAll(RemoveToast(toasts, id), Other(id));
  }

  /** Removing an id no toast has changes nothing. */
  lemma RemoveAbsent(toasts: seq<Toast>, id: int)
    requires forall i :: 0 <= i < |toasts| ==> toasts[i].id != id
    ensures RemoveToast(toasts, id) == toasts
  {
    FilterAll(toasts, Other(id));
  }

  /** A toast added under a fresh id and then removed (its timer firing) leaves the list as it was. */
  lemma AddThenRemove(toasts: seq<Toast>, id: int, message: string, kind: Option<string>, duration: Option<int>)
    requires forall i :: 0 <= i < |toasts| ==> toasts[i].id != id
    ensures RemoveToast(AddToast(toasts, id, message, kind, duration), id) == toasts
  {
    var t := Toast(id, message, kind.GetOr(DefaultKind), duration.GetOr(DefaultDuration));
    FilterAppend(toasts, [t], Other(id));
    FilterAll(toasts, Other(id));
    assert Filter([t], Other(id)) == [];
  }

  /** `clearToasts()`. */
  function ClearToasts(toasts: seq<Toast>): (r: seq<Toast>)
    ensures |r| == 0
  {
    []
  }

  /** After clearing, removing anything leaves nothing. */
  lemma ClearThenRemove(toasts: seq<Toast>, id: int)
    ensures RemoveToast(ClearToasts(toasts), id) == []
  {
  }
}
